=== FILE: README.md ===
# WAY booking site — a Dafny model of its decision logic

WAY is a React site for booking classes, requesting event places and shop
products, and managing an account. Most of it is markup. What can be stated
precisely lives in small, sequential decision procedures, and this project
models them as pure step functions. Each takes the current state, the user's
input and the outcome of the network call, and returns the next state plus
the effects the page asks for:
- a POST or GET;
- a navigation, with its delay;
- a re-fetch of the registrations;
- a login, a logout or a profile merge in the session store;
- a focus move;
- a timer.

The network, `localStorage`, the clock and React are not simulated. A call's
outcome is an input (`Http.Wire`, or the `Result` that `usePost` hands back),
storage is a record of three optional keys, and every timer is an effect
that carries its delay.

Modules, one per source component:
- `Common`: JSON values as the pages read them, the JavaScript string
  operations they rely on (`trim`, `toLowerCase`, `includes`, UTF-16
  `length`), notices and effects.
- `Http`: `useAuth` (bearer GET/POST that always throws an error carrying a
  status) and `usePost` (POST that throws an `Error` with a message).
- `AuthStore`: the authentication context, mirrored into storage.
- `Registration`: the schedule registration hook. It covers the guards, the
  ordered error classifier, the optimistic update and the reconcile fetch.
- `RegistrationButton`, `ScheduleCard`, `StatusIndicator`, `SessionCalendar`
  and `Sessions`: the presentation decisions of the schedule page.
- `InView`: the reveal-on-scroll observer as a state machine.
- `Otp`: the six-box code entry of the email verification page.
- `Uri`: `encodeURIComponent`, `decodeURIComponent` and `URLSearchParams.get`,
  which the reset pages use to hand over the email and the token.
- `PasswordReset`: the request-code, check-code and reset-password pages.
- `AuthForms`: sign in, sign up, change password and edit profile.
- `ProductRequest`, `ContactForm` and `EventRequest`: the shop's request
  modal, the footer's contact form and the events page's request modal.

Conventions: the empty string stands for an absent or falsy string (`null`,
`undefined` and `""` alike). A status of 0 stands for an absent one.

## Model

| member | source | states |
|---|---|---|
| Registration.CanUserRegister | src/Pages/Schedule/hooks/useRegistration.js:39-56 | the three checks are made in order (logged in, verified, token), and the user is eligible exactly when all three pass |
| Registration.HandleAuthError | src/Pages/Schedule/hooks/useRegistration.js:64-97 | a 401 logs out, explains, and redirects to the login page after 2000 ms; a 403 only explains; any other status is left to the caller |
| Registration.ClassifyRegisterError | src/Pages/Schedule/hooks/useRegistration.js:368-432 | each failure class holds exactly when every earlier test failed: 401, 403, 409 (on the error or in its body), the case-sensitive "already started", 404, 500, no status, a server message, and otherwise none |
| Registration.UseAuthErrorsHaveStatus | src/Pages/Schedule/hooks/useRegistration.js:420 | no error thrown by `postWithAuth` is ever classified as a network failure, because `useAuth` gives every error a status |
| Registration.AddScheduleId | src/Pages/Schedule/hooks/useRegistration.js:329-331 | the registered list stays duplicate-free and holds exactly the old ids plus the new one |
| Registration.AddScheduleIdKeeps | src/Pages/Schedule/hooks/useRegistration.js:329-331 | on a duplicate-free list the id is appended only when it is new, and nothing else moves |
| Registration.NoDupCountsOnce | src/Pages/Schedule/hooks/useRegistration.js:329-331 | in a duplicate-free list every present id occurs exactly once |
| Registration.Distinct | src/Pages/Schedule/hooks/useRegistration.js:329-331 | the elements of the list, each once, as iterating a `Set` built from it yields them |
| Registration.AutoDismiss | src/Pages/Schedule/hooks/useRegistration.js:185-193 | a message with text schedules its dismissal after 5000 ms, tagged with the message's epoch; an empty message schedules nothing |
| Registration.DismissClearsOnlyItsMessage | src/Pages/Schedule/hooks/useRegistration.js:185-193 | a message's timer empties exactly that message and nothing else, the emptied message schedules nothing, and once another message is set the old timer (cleared by the cleanup) changes nothing |
| Registration.Optimistic | src/Pages/Schedule/hooks/useRegistration.js:328-340 | the key's status becomes pending/unpaid/"", every other key keeps its record, and the schedule id is in the list exactly once |
| Registration.OptimisticIdempotent | src/Pages/Schedule/hooks/useRegistration.js:328-340 | applying the optimistic update twice leaves the same state as applying it once |
| Registration.DuplicateText | src/Pages/Schedule/hooks/useRegistration.js:276-302 | the message for an existing record: pending, approved, or anything else |
| Registration.HandleRegister | src/Pages/Schedule/hooks/useRegistration.js:207-432 | the guards short-circuit in order: login (redirect after 1500 ms), verification (redirect after 1500 ms), session, schedule, then an existing non-rejected record. A POST is sent exactly when all pass. Success applies the optimistic update and a refetch after 1000 ms; a failure follows the classifier |
| Registration.RegisterFailure | src/Pages/Schedule/hooks/useRegistration.js:364-432 | each failure class gives its own message and state change; only a 409 changes registration state, and a 500 schedules a refetch |
| Registration.ExistingStatusDecidesResubmission | src/Pages/Schedule/hooks/useRegistration.js:267-304 | a pending or approved record blocks the POST, and a rejected or absent one lets it through |
| Registration.ConflictMatchesSuccess | src/Pages/Schedule/hooks/useRegistration.js:380-401 | a 409 leaves the same registration state as a success and refetches at once |
| Registration.HandleRequestFullClass | src/Pages/Schedule/hooks/useRegistration.js:443-549 | only the login and verification guards apply. Success adds the id and a pending record; a 409 adds only the id; other failures show the server message or a fixed text |
| Registration.RecordOf | src/Pages/Schedule/hooks/useRegistration.js:144-149 | a missing rejection reason is stored as "" |
| Registration.Collect | src/Pages/Schedule/hooks/useRegistration.js:128-150 | the rebuilt id list has no duplicates |
| Registration.CollectIds | src/Pages/Schedule/hooks/useRegistration.js:133-142 | an id is in the rebuilt list exactly when a usable record names it |
| Registration.CollectKeys | src/Pages/Schedule/hooks/useRegistration.js:133-149 | the rebuilt map has exactly the keys of the usable records |
| Registration.CollectLastWins | src/Pages/Schedule/hooks/useRegistration.js:144-149 | the status stored at a key is that of the last usable record with that key |
| Registration.RegistrationsOf | src/Pages/Schedule/hooks/useRegistration.js:128-135 | the list is read only when `data.registrations` is an array, and never when it holds a `null` entry |
| Registration.NullEntryKeepsState | src/Pages/Schedule/hooks/useRegistration.js:133-169 | a `null` entry makes the filter throw, and the catch keeps the whole state, optimistic entries included |
| Registration.FetchUserRegistrations | src/Pages/Schedule/hooks/useRegistration.js:114-169 | nothing happens unless the user is logged in, verified and holds a token. A readable list of registrations replaces both state values; a missing list, a list with a `null` entry, or a failure other than 401/403 leaves the state untouched |
| Registration.ReconcileReplaces | src/Pages/Schedule/hooks/useRegistration.js:128-157 | the reconcile of a readable list is authoritative: any two prior states give the same result, and a key survives exactly when the server reported it |
| Registration.OnAuthChange | src/Pages/Schedule/hooks/useRegistration.js:178-183 | the reconcile runs on mount only for a logged-in, verified user |
| Registration.OptimisticKeepsValid | src/Pages/Schedule/hooks/useRegistration.js:328-340 | the invariant holds after the update: no duplicate ids, and every status key's schedule is listed |
| Registration.CollectIsValid | src/Pages/Schedule/hooks/useRegistration.js:128-157 | the rebuilt state satisfies the invariant |
| Registration.AddScheduleIdKeepsValid | src/Pages/Schedule/hooks/useRegistration.js:529-533 | adding only the id keeps the invariant |
| Registration.RegisterKeepsValid | src/Pages/Schedule/hooks/useRegistration.js:207-432 | `handleRegister` keeps the invariant |
| Registration.RequestFullClassKeepsValid | src/Pages/Schedule/hooks/useRegistration.js:443-549 | `handleRequestFullClass` keeps the invariant |
| Registration.FetchKeepsValid | src/Pages/Schedule/hooks/useRegistration.js:114-169 | the reconcile keeps the invariant |
| RegistrationButton.Choose | src/Pages/Schedule/components/RegistrationButton.jsx:30-192 | the nine-way precedence chain, each outcome with its exact condition: when full, login/verify/request; otherwise login, verify, select, hidden when registered, started (now >= start, unknown counts as not started), and register |
| RegistrationButton.Target | src/Pages/Schedule/components/RegistrationButton.jsx:30-93 | only the four link outcomes navigate, to the login or verify page |
| RegistrationButton.OnClick | src/Pages/Schedule/components/RegistrationButton.jsx:107-192 | "Select a session" opens the calendar; the request and register buttons call their handler with the card's ids, and do nothing while auth is loading |
| RegistrationButton.FullnessPrecedes | src/Pages/Schedule/components/RegistrationButton.jsx:30-81 | a full session never offers registration, and a session that is not full never offers a request |
| RegistrationButton.RegisterClickPassesGuards | src/Pages/Schedule/components/RegistrationButton.jsx:159-192 | a register click reaches `handleRegister` with every guard passing |
| Sessions.Find | src/Pages/Schedule/components/RegistrationButton.jsx:128-130 | `find` returns the first session with the id, or none exactly when no session has it |
| ScheduleCard.StatusOf | src/Pages/Schedule/components/ScheduleCard.jsx:20-21 | a status is looked up only under `scheduleId:sessionId`, and only when a session is selected |
| ScheduleCard.SplitKey | src/Pages/Schedule/components/ScheduleCard.jsx:26-28 | with colon-free ids the composite key splits back into the session id |
| ScheduleCard.RegisteredSessionIdsRoundTrip | src/Pages/Schedule/components/ScheduleCard.jsx:26-28 | with colon-free ids, a session id is listed exactly when its key is in the status map |
| ScheduleCard.ColonInSessionIdMisleads | src/Pages/Schedule/components/ScheduleCard.jsx:26-28 | a session id containing a colon is listed truncated |
| ScheduleCard.IsFull | src/Pages/Schedule/components/ScheduleCard.jsx:56-59 | capacity is the session's own if non-zero, else the fetched total, else 0; full exactly when it is positive and the paid count reaches it |
| ScheduleCard.LoadCapacity | src/Pages/Schedule/components/ScheduleCard.jsx:34-54 | a failed or malformed capacity fetch leaves the map unchanged; a good one maps each session to its last entry |
| ScheduleCard.CapacityKey | src/Pages/Schedule/components/ScheduleCard.jsx:44-46 | an entry is filed under its `sessionId` converted to a property name: a string as it is, a missing one as "undefined", `null` as "null", a number as its decimal text |
| ScheduleCard.DigitsRoundTrip | src/Pages/Schedule/components/ScheduleCard.jsx:44-46 | the decimal text of a number reads back as that number |
| ScheduleCard.NumericKeyReadsBack | src/Pages/Schedule/components/ScheduleCard.jsx:44-46 | an entry whose `sessionId` is a number is filed under digits that denote that number |
| ScheduleCard.FailedLoadIsNeverFull | src/Pages/Schedule/components/ScheduleCard.jsx:34-59 | fail-open: when the capacity fetch fails, no session counts as full |
| ScheduleCard.LoadedCapacity | src/Pages/Schedule/components/ScheduleCard.jsx:41-50 | a loaded capacity is the last entry the server listed for that session |
| ScheduleCard.ConfirmClick | src/Pages/Schedule/components/ScheduleCard.jsx:133-144 | without a selection nothing happens; with one the calendar closes, and `handleRegister` is called exactly when the session is not already registered |
| ScheduleCard.ConfirmLabelMatchesClick | src/Pages/Schedule/components/ScheduleCard.jsx:148-167 | the label promises a registration exactly when the click makes one |
| ScheduleCard.CardBadgeFollowsStatus | src/Pages/Schedule/components/ScheduleCard.jsx:176-180 | on a card the badge is decided by the record's own status |
| ScheduleCard.SuccessShowsPending | src/Pages/Schedule/components/ScheduleCard.jsx:20-28 | after a successful registration the card shows the pending badge and the session counts as registered |
| ScheduleCard.RejectedStaysRegisteredOnCard | src/Pages/Schedule/components/ScheduleCard.jsx:26-28 | a rejected record still marks the session registered on the card, so neither the confirm nor the button registers again, although the hook itself would allow it |
| StatusIndicator.EffectiveStatus | src/Pages/Schedule/components/StatusIndicator.jsx:30 | a missing status reads as "pending" |
| StatusIndicator.SelectBadge | src/Pages/Schedule/components/StatusIndicator.jsx:25-124 | no badge without a record; rejected first, with "View Reason" exactly when a reason exists; then confirmed for approved or the flag; otherwise pending. Exactly one badge shows |
| StatusIndicator.RejectedDominatesAndMissingIsPending | src/Pages/Schedule/components/StatusIndicator.jsx:30-54 | a rejected record shows "Rejected" even when approval is flagged, and a missing status shows "Pending" |
| SessionCalendar.JsYear | src/Pages/Schedule/components/SessionCalendar.jsx:60 | the `Date` constructor reads years 0 to 99 as 1900 onwards |
| SessionCalendar.MonthOf | src/Pages/Schedule/components/SessionCalendar.jsx:109-120 | `new Date(y, m, 1)` normalises the month into 0..11 and carries into the year |
| SessionCalendar.DaysInMonth | src/Pages/Schedule/components/SessionCalendar.jsx:59-61 | the Gregorian month length, 28 to 31 |
| SessionCalendar.FebruaryDays | src/Pages/Schedule/components/SessionCalendar.jsx:59-61 | February has 29 days exactly in leap years |
| SessionCalendar.NavigationSteps | src/Pages/Schedule/components/SessionCalendar.jsx:109-120 | away from years 0 to 100, previous and next move exactly one month, rolling the year over, and undo each other |
| SessionCalendar.NavigationJumpsAtYear100 | src/Pages/Schedule/components/SessionCalendar.jsx:109-120 | at the edge of years 0 to 99 the round trip fails |
| SessionCalendar.SessionDay | src/Pages/Schedule/components/SessionCalendar.jsx:19-31 | a session is filed under a day exactly when its `startDate` is truthy and a valid date, and then under that date's year (0 to 99 read as 1900 onwards), month and day |
| SessionCalendar.DateMap | src/Pages/Schedule/components/SessionCalendar.jsx:16-43 | the effect throws, and no map is stored, exactly when some session's `startDate` is truthy but not a valid date |
| SessionCalendar.DateMapKeys | src/Pages/Schedule/components/SessionCalendar.jsx:16-43 | once stored, a day is in the map exactly when some session with a truthy, valid `startDate` falls on it |
| SessionCalendar.FalsyStartIsSkipped | src/Pages/Schedule/components/SessionCalendar.jsx:19 | a session with a falsy `startDate` adds no day, even a `null` one that `new Date` reads as the epoch |
| SessionCalendar.DateMapLastWins | src/Pages/Schedule/components/SessionCalendar.jsx:16-43 | of several sessions on one day the map keeps the last |
| SessionCalendar.GenerateCalendarDays | src/Pages/Schedule/components/SessionCalendar.jsx:69-106 | the grid is `firstDay` blanks followed by days 1..n in order; a day has a session exactly when its date is in the map, with that session's id |
| SessionCalendar.CellFor | src/Pages/Schedule/components/SessionCalendar.jsx:86-102 | the cell of day d carries d, has a session exactly when that date is in the map, and then shows that session's id |
| SessionCalendar.HandleDayClick | src/Pages/Schedule/components/SessionCalendar.jsx:131-136 | a click on a day with a session selects it and closes the picker; any other click changes nothing |
| SessionCalendar.DayClickSelectsSessionOfThatDay | src/Pages/Schedule/components/SessionCalendar.jsx:97-136 | a session a day click selects starts on that day, and a day on which no session starts changes nothing |
| SessionCalendar.DayClickSelectsLastSession | src/Pages/Schedule/components/SessionCalendar.jsx:97-136 | a click on a day selects the last listed session starting on it and closes the picker |
| AuthStore.Restore | src/Context/AuthContext.jsx:9-19 | the session is restored only when the stored flag is exactly "true", with the stored token and the stored user when it is an object. A user key `JSON.parse` rejects then crashes the application; without the flag the session stays logged out |
| AuthStore.Login | src/Context/AuthContext.jsx:21-30 | sets the flag, token and user, and writes all three keys; an `undefined` user or token is written as the text "undefined" |
| AuthStore.Logout | src/Context/AuthContext.jsx:32-41 | clears user, token and flag, and removes all three keys |
| AuthStore.Merge | src/Context/AuthContext.jsx:46 | the shallow merge: incoming fields win, other fields are kept |
| AuthStore.UpdateUserProfile | src/Context/AuthContext.jsx:44-50 | nothing happens without a user; otherwise the user is merged and persisted, and token and flag are unchanged |
| AuthStore.LoginThenRestore | src/Context/AuthContext.jsx:9-30 | a reload after a login with a user and a token restores the same user and token |
| AuthStore.LoginWithoutUserBreaksReload | src/Context/AuthContext.jsx:9-30 | a login with an `undefined` user stores "undefined", which the next start-up cannot parse, so the reload crashes |
| AuthStore.LoginWithoutTokenRestoresText | src/Context/AuthContext.jsx:9-30 | a login with an `undefined` token holds no token, but a reload restores the text "undefined" as the token |
| AuthStore.LogoutThenRestore | src/Context/AuthContext.jsx:9-41 | a reload after logout stays logged out |
| AuthStore.OperationsKeepMirror | src/Context/AuthContext.jsx:9-50 | a profile update keeps storage and memory in step: a reload restores exactly the session in memory |
| Http.ParseErrorResponse | src/Hooks/useAuth.js:10-25 | a parsed body gives its message or the fixed text, and carries the body; an unparseable or `null` body gives the fixed text and no data |
| Http.Normalise | src/Hooks/useAuth.js:50-60 | a thrown value without a status becomes status 500 with its message or "An unknown error occurred" |
| Http.Exchange | src/Hooks/useAuth.js:29-63 | loading is on during the call and off after it; success stores and returns the body; every error thrown has a status |
| Http.FetchWithAuth | src/Hooks/useAuth.js:29-64 | a GET with the bearer header |
| Http.PostWithAuth | src/Hooks/useAuth.js:67-114 | a body is attached only for truthy data |
| Http.PostHeaders | src/Hooks/usePost.js:17-24 | the Authorization header is present exactly when the token is truthy |
| Http.ErrorText | src/Pages/auth/send-verification-code.jsx:58-59 | the text a page shows for a `usePost` failure is the thrown message, or the page's fallback when that is empty |
| Http.NotOkMessage | src/Hooks/usePost.js:32-35 | the body's message, else "Network response was not ok", including for an unparseable body; reading `message` of a `null` body throws a TypeError, whose message is the one thrown |
| Http.PostData | src/Hooks/usePost.js:9-45 | loading is on during the call and off after it; success returns and stores the body; every failure is recorded and rethrown, never with field errors; a non-2xx `null` body rethrows the TypeError raised reading it |
| Http.HooksAgree | src/Hooks/usePost.js:9-45 | `useAuth` and `usePost` succeed on the same replies with the same body, and fail a non-2xx reply with a non-`null` body with the same message |
| InView.Mount | src/Hooks/useInView.js:16-22 | without a node or observer support the content shows at once |
| InView.OnEntry | src/Hooks/useInView.js:27-56 | a repeated state is ignored; a throttled enter records only that it intersects; an accepted enter shows and stamps (and unobserves with `once`); an exit hides only without `once`, and only after an accepted enter |
| InView.Run | src/Hooks/useInView.js:24-27 | callbacks after the cleanup change nothing |
| InView.RunKeepsConsistent | src/Hooks/useInView.js:36-55 | the element is shown only after an accepted enter |
| InView.OnceStaysShown | src/Hooks/useInView.js:46-55 | with `once`, a revealed element stays revealed |
| InView.EarlyFirstEnterNeverShows | src/Hooks/useInView.js:13-41 | as written, a first enter within 220 ms of the time origin leaves the element hidden forever |
| InView.StuckHiddenStays | src/Hooks/useInView.js:36-55 | with `once`, an element marked intersecting but never revealed stays hidden whatever entries follow |
| InView.OnEntryFixed | src/Hooks/useInView.js:36-48 | corrected: the throttle applies only after an accepted enter |
| InView.RunFixed | src/Hooks/useInView.js:24-27 | with the correction too, callbacks after the cleanup change nothing |
| InView.FirstEnterShows | src/Hooks/useInView.js:36-48 | with the correction the first enter always reveals, and with `once` it stays revealed |
| InView.FixedOnceStaysShown | src/Hooks/useInView.js:46-55 | with the correction and `once`, a revealed element stays revealed |
| Otp.HandleChange | src/Pages/auth/verify.jsx:18-24 | only the first non-digit is stripped; an empty result leaves the boxes unchanged; otherwise only that box changes, to the first remaining character |
| Otp.TypingOneCharacter | src/Pages/auth/verify.jsx:18-24 | a typed digit fills its box and no other, and a typed non-digit changes nothing |
| Otp.TypingKeepsFirstSurvivor | src/Pages/auth/verify.jsx:18-24 | text of several characters still fills only the box, with its first survivor |
| Otp.HandleKeyDown | src/Pages/auth/verify.jsx:31-41 | backspace on a filled box clears only that box; on an empty one the boxes are unchanged and focus moves back |
| Otp.Pasted | src/Pages/auth/verify.jsx:46-48 | a paste keeps only digits, at most six |
| Otp.HandlePaste | src/Pages/auth/verify.jsx:44-63 | the pasted digits fill boxes 0..n-1, the rest are unchanged, and focus moves to min(n, 5); an empty paste changes nothing |
| Otp.JoinedLength | src/Pages/auth/verify.jsx:66-68 | with one character per box, the joined code has six characters exactly when every box is filled |
| Otp.Verify | src/Pages/auth/verify.jsx:66-98 | a code that is not six characters long is refused without a POST; with no signed-in user reading `user.email` throws before any POST and the thrown message is shown; otherwise the email and code are posted. Only a reply with `success` redirects; a `null` reply shows the thrown message or the fallback; the message is cleared after 3000 ms in every case |
| Otp.HandleVerifyOtpAsWritten | src/Pages/auth/verify.jsx:66-98 | the only place a verified user is sent is `/profile` |
| Otp.VerifiedGoesNowhere | src/Pages/auth/verify.jsx:85 | a verified user is sent to `/profile`, which no route of the application matches |
| Otp.HandleVerifyOtp | src/Pages/auth/verify.jsx:66-98 | corrected: every redirect goes to `/auth/profile`, a defined route, and one happens exactly when a signed-in user's complete code gets a reply with `success` |
| Otp.HandleResendCode | src/Pages/auth/verify.jsx:101-124 | with no signed-in user reading `user.email` throws before any POST and the thrown message is shown; otherwise the email is posted. A successful resend empties all six boxes; anything else keeps them and shows an error, for a `null` reply the thrown message or the fallback |
| Otp.RequestNeedsUser | src/Pages/auth/verify.jsx:75-105 | a request goes out exactly when a user is signed in (and, for verify, the code is complete) |
| Otp.EditsKeepSingleChars | src/Pages/auth/verify.jsx:18-63 | every edit keeps at most one character per box |
| Otp.PasteThenVerify | src/Pages/auth/verify.jsx:44-74 | a paste of six digits or more fills every box, and the verify then posts them |
| Otp.JoinedSingles | src/Pages/auth/verify.jsx:57-59 | one character per box joins back to the pasted digits |
| Otp.ResendThenVerifyIsRefused | src/Pages/auth/verify.jsx:101-111 | right after a successful resend, verifying is refused |
| Uri.EncodeURIComponent | src/Pages/auth/send-verification-code.jsx:51 | every output character is unreserved or `%`, and unreserved text is unchanged |
| Uri.DecodeEncode | src/Pages/auth/verify-reset-code.jsx:46-51 | decoding the encoding of any text gives the text back |
| Uri.Utf8RoundTrip | src/Pages/auth/verify-reset-code.jsx:48 | the UTF-8 bytes of a character decode back to it |
| Uri.QueryOf | src/Pages/auth/reset-password.jsx:11-14 | the query is the part after the first `?` and before `#` |
| Common.IndexOf | src/Pages/auth/reset-password.jsx:11-14 | the position of the first occurrence of a character, or the length when there is none |
| Common.KeepDigitsAppend | src/Pages/auth/verify.jsx:46-48 | `replace(/\D/g, "")` filters piece by piece, so the digits are kept in their order |
| Common.KeepDigitsOne | src/Pages/auth/verify-reset-code.jsx:111-116 | one character is kept exactly when it is a digit |
| Uri.ParameterRoundTrip | src/Pages/auth/reset-password.jsx:11-15 | a value placed in a query by `encodeURIComponent` is read back unchanged by `URLSearchParams.get` |
| Uri.FormDecodeEncode | src/Pages/auth/reset-password.jsx:15 | form-decoding an encoded value gives it back |
| PasswordReset.NormalEmail | src/Pages/auth/send-verification-code.jsx:35 | the trimmed, lower-cased email is empty exactly when the input is blank |
| PasswordReset.NormalEmailIdempotent | src/Pages/auth/verify-reset-code.jsx:31 | normalising an email a second time changes nothing, so the code page posts the address the request page posted |
| PasswordReset.PostsNormalEmail | src/Pages/auth/verify-reset-code.jsx:31-45 | for a normalised address and a six-character code, the code check posts exactly that address and the trimmed code |
| PasswordReset.RequestCode | src/Pages/auth/send-verification-code.jsx:26-61 | a blank email is refused without a POST; success navigates to the code page with the normalised email encoded; other outcomes show the message or "Failed to send verification code." |
| PasswordReset.CodeInput | src/Pages/auth/verify-reset-code.jsx:111-116 | the code input keeps only digits, at most six |
| PasswordReset.ResetToken | src/Pages/auth/verify-reset-code.jsx:46-47 | a token is present exactly when `success` is truthy and `data.resetToken` is a non-empty string |
| PasswordReset.CheckCode | src/Pages/auth/verify-reset-code.jsx:26-60 | an empty email or a code that is not six long gives an error and no POST. The normalised email and trimmed code are posted. It navigates exactly when success and a token are present, with the token encoded; otherwise it shows the message or the fallback |
| PasswordReset.TypedCodePassesIffSixDigits | src/Pages/auth/verify-reset-code.jsx:34-38 | a code typed through the digit filter passes the length guard exactly when six digits were kept |
| PasswordReset.ResetPassword | src/Pages/auth/reset-password.jsx:24-66 | the checks run in order (missing token, password shorter than 8, mismatch) and each stops without a POST; success navigates to the login page after 1200 ms; failures show "Failed to reset password." |
| PasswordReset.EightCharactersSuffice | src/Pages/auth/reset-password.jsx:35 | the length check is inclusive: eight characters pass and seven do not |
| PasswordReset.TokenHandoff | src/Pages/auth/verify-reset-code.jsx:46-51 | the token the code check returns reaches the reset page unchanged and is what the reset posts |
| PasswordReset.VerifyPageParameter | src/Pages/auth/send-verification-code.jsx:50-52 | the code page's query carries exactly the email the request page sent |
| PasswordReset.PrefillAsWritten | src/Pages/auth/verify-reset-code.jsx:15-17 | as written, an absent or empty email parameter gives an empty field |
| PasswordReset.PrefillAsWrittenWithoutPercent | src/Pages/auth/verify-reset-code.jsx:15-17 | as written, an email without `%` arrives intact |
| PasswordReset.PrefillAsWrittenDecodesAgain | src/Pages/auth/verify-reset-code.jsx:15-17 | as written, the email is decoded a second time |
| PasswordReset.PercentInEmailIsDecodedTwice | src/Pages/auth/verify-reset-code.jsx:15-17 | as written, "a%41@b.co" arrives as "aA@b.co" and "50%@b.co" makes the page throw |
| PasswordReset.PrefillRoundTrip | src/Pages/auth/verify-reset-code.jsx:15-17 | corrected: every email the request page sends arrives as it was sent |
| PasswordReset.CodeCheckedForSameAddress | src/Pages/auth/verify-reset-code.jsx:26-44 | corrected: the code is checked for the very address it was sent to |
| AuthForms.Begin | src/Pages/auth/change-password.jsx:34-38 | a submit marks the form submitted and clears both banners, keeping the field errors |
| AuthForms.Overridden | src/Pages/auth/login.jsx:85-87 | server field errors, when present, replace the routed ones |
| AuthForms.Failed | src/Pages/auth/login.jsx:53-87 | a failure shows its message and the routed or overridden field errors |
| AuthForms.PostFailuresAreRouted | src/Pages/auth/login.jsx:85-87 | a `usePost` failure never carries field errors, so the routed errors always stand |
| AuthForms.Login | src/Pages/auth/login.jsx:28-89 | an invalid email (no "@") or a password shorter than 8 stops without a POST. The user is signed in exactly on a reply with `success` and a `data` object, then sent to the profile. A `null` reply, or `success` without `data`, throws, and the `TypeError` is shown and routed like any failure |
| AuthForms.LoginRouteOrder | src/Pages/auth/login.jsx:55-82 | a credential, "invalid" or "incorrect" message goes under both fields; else "email" goes under the email; else "password" under the password; else no field. Matching ignores case |
| AuthForms.InvalidIsACredentialError | src/Pages/auth/login.jsx:57-66 | a message with "invalid" in it goes under both fields even when it mentions the email |
| AuthForms.SuccessWithoutDataSignsNoOneIn | src/Pages/auth/login.jsx:43-50 | a reply with `success` but no `data` signs no one in and shows the thrown message |
| AuthForms.AlreadySignedInAsWritten | src/Pages/auth/login.jsx:22-26 | as written, a signed-in visitor is sent to the relative path `auth/profile` |
| AuthForms.AlreadySignedInGoesNowhere | src/Pages/auth/login.jsx:22-26 | from the sign-in route that path resolves to `/auth/login/auth/profile`, which no route matches |
| AuthForms.AlreadySignedIn | src/Pages/auth/register.jsx:28-32 | corrected: a signed-in visitor is sent to `/auth/profile`, as on the sign-up page |
| AuthForms.AlreadySignedInReachesProfile | src/App.js:32-49 | the corrected target is one of the application's routes |
| AuthForms.EmailRoute | src/Pages/auth/register.jsx:71-76 | a message mentioning "email" (in any case) goes under the email field, and any other message under no field |
| AuthForms.Register | src/Pages/auth/register.jsx:35-85 | any invalid field stops without a POST. A reply with a `data` object signs the user in with its user and token, without checking `success`; one without `data` throws, and the `TypeError`, like any failure, is routed to the email field |
| AuthForms.RegistrationNeedsEveryField | src/Pages/auth/register.jsx:13-46 | a blank name or phone, an email without "@", a short password or a differing confirmation each stop the POST, and a POST is sent exactly when all five validators pass |
| AuthForms.AccessGuard | src/Pages/auth/change-password.jsx:26-32 | without a user go to the login page; unverified go to the profile; otherwise stay |
| AuthForms.ChangePassword | src/Pages/auth/change-password.jsx:36-118 | invalid inputs stop, then a new password equal to the old one is refused with a field error; a POST is sent exactly otherwise. Success empties the inputs and returns to the profile after 2000 ms; failures, and the `TypeError` of a `null` reply, are routed |
| AuthForms.PasswordRouteOrder | src/Pages/auth/change-password.jsx:88-110 | routing happens only for "password" messages: "old" gives the fixed text under the current password, else "new", else "confirm", else under the new password |
| AuthForms.ChangedThenResubmitIsRefused | src/Pages/auth/change-password.jsx:67-74 | after a successful change the inputs are empty, so an immediate resubmit sends nothing |
| AuthForms.Seed | src/Pages/auth/edit-profile.jsx:14-22 | the inputs start from the user's fields, "" where absent |
| AuthForms.EditProfile | src/Pages/auth/edit-profile.jsx:40-89 | invalid inputs stop; success merges the reply's data into the user and returns to the profile after 2000 ms; failures, and the `TypeError` of a `null` reply, route "email" messages |
| AuthForms.UnchangedProfileRoundTrip | src/Pages/auth/edit-profile.jsx:14-67 | an unchanged form posts the user's own fields, and the store then holds the reply merged over the user, with token and flag untouched |
| ProductRequest.EmailTestIsThePattern | src/Pages/Shop/components/ProductRequestModal.jsx:44 | the scan accepts exactly the strings `^[^\s@]+@[^\s@]+\.[^\s@]+$` matches |
| ProductRequest.PaddedEmailIsInvalid | src/Pages/Shop/components/ProductRequestModal.jsx:42-46 | the pattern is tested on the untrimmed value, so an address with surrounding white space fails it |
| ProductRequest.FieldError | src/Pages/Shop/components/ProductRequestModal.jsx:38-54 | each field's message: blank name, phone or location; blank email, else an email that fails the pattern; the message field is optional |
| ProductRequest.Validate | src/Pages/Shop/components/ProductRequestModal.jsx:35-58 | the stored errors are exactly the fields with a message |
| ProductRequest.ValidateIffAcceptable | src/Pages/Shop/components/ProductRequestModal.jsx:35-58 | the form validates exactly when name, phone and location are not blank and the email matches the pattern |
| ProductRequest.ValidateEmptyIffClean | src/Pages/Shop/components/ProductRequestModal.jsx:35-58 | no error is stored exactly when no field has a message |
| ProductRequest.CleanIffAcceptable | src/Pages/Shop/components/ProductRequestModal.jsx:38-54 | every field passes its check exactly when the form is acceptable |
| ProductRequest.EmailIsFilled | src/Pages/Shop/components/ProductRequestModal.jsx:42-46 | an address that passes the pattern is never blank, so the "required" test never hides an "invalid" one |
| ProductRequest.EmailFieldCleanIffPattern | src/Pages/Shop/components/ProductRequestModal.jsx:42-46 | the email field shows no error exactly when the pattern matches the address |
| ProductRequest.HandleChange | src/Pages/Shop/components/ProductRequestModal.jsx:18-32 | only the named field changes, and only its own shown error is cleared |
| ProductRequest.Submit | src/Pages/Shop/components/ProductRequestModal.jsx:61-105 | an invalid form only shows its errors. A valid one is posted and `isSubmitting` ends false. A 2xx reply shows success and calls `onSuccess` after 2000 ms; otherwise the body's message or "Failed to submit request", or the thrown message, including the `TypeError` of a `null` body |
| ProductRequest.SentIffAcceptable | src/Pages/Shop/components/ProductRequestModal.jsx:64-85 | a request is sent exactly for an acceptable form |
| ProductRequest.EditClearsOnlyItsError | src/Pages/Shop/components/ProductRequestModal.jsx:25-31 | after a refused submit, editing a field clears its error and keeps the others |
| ContactForm.AutoHide | src/Layout/Footer/Footer.jsx:17-27 | only a shown success message schedules its removal after 2000 ms, tagged with the change of the message it follows |
| ContactForm.Hide | src/Layout/Footer/Footer.jsx:17-27 | the timer clears the message and status and keeps the inputs, but only if no change has cancelled it since it was set |
| ContactForm.HandleInputChange | src/Layout/Footer/Footer.jsx:29-40 | typing updates one field and clears a shown message with its status, which counts as a change |
| ContactForm.FirstMissing | src/Layout/Footer/Footer.jsx:46-60 | name, email and message are checked in order after trimming, and the first blank one gives its message |
| ContactForm.Submit | src/Layout/Footer/Footer.jsx:42-101 | a blank input stops without a request. A 2xx reply with `success` shows its message as a success and empties the inputs. Other replies show their message or the fixed text; a failed fetch, an unparseable body or a `null` one shows the network text. Every send changes the message |
| ContactForm.SentIffFilled | src/Layout/Footer/Footer.jsx:46-73 | the form is sent exactly when no input is blank |
| ContactForm.OnlySuccessHides | src/Layout/Footer/Footer.jsx:17-27 | an error message never schedules the auto-hide |
| ContactForm.SentThenResubmitAsksForName | src/Layout/Footer/Footer.jsx:80-85 | after a success the inputs are empty, so an immediate resubmit asks for the first name |
| ContactForm.TypingHidesMessage | src/Layout/Footer/Footer.jsx:35-39 | typing hides a shown message of either kind |
| ContactForm.SupersededHideDoesNothing | src/Layout/Footer/Footer.jsx:17-39 | once typing or a new send has replaced a message, its auto-hide timer was cancelled and firing it changes nothing |
| EventRequest.StatusTimer | src/Pages/Events/Event.jsx:34-41 | a shown status text schedules its clearing after 5000 ms, tagged with the `setStatusMessage` call it follows |
| EventRequest.RequestClick | src/Pages/Events/Event.jsx:43-46 | the event is selected and the modal opens |
| EventRequest.CloseModal | src/Pages/Events/Event.jsx:99-105 | the modal closes, and the selection and all inputs are cleared |
| EventRequest.AfterSent | src/Pages/Events/Event.jsx:82-88 | 3000 ms after a sent request the modal closes and the inputs empty, but the selection stays |
| EventRequest.ClearStatus | src/Pages/Events/Event.jsx:34-41 | the status timer clears only the message, and only if no later `setStatusMessage` has cancelled it |
| EventRequest.Submit | src/Pages/Events/Event.jsx:48-97 | an empty email, then an empty phone, stops with its message (untrimmed); a truthy reply sets success and starts the close timer; a falsy reply changes nothing; a failure shows its message or the fixed text. Each message set starts its own status timer |
| EventRequest.StepsKeepEventChosen | src/Pages/Events/Event.jsx:43-105 | every step keeps an event selected while the modal is open, so the submit always finds one |
| EventRequest.PostedIffContactGiven | src/Pages/Events/Event.jsx:51-74 | a request is posted exactly when email and phone are non-empty |
| EventRequest.SentThenClosed | src/Pages/Events/Event.jsx:76-89 | after the close timer, reopening the modal for the same event starts from an empty form |
| EventRequest.SupersededStatusTimerDoesNothing | src/Pages/Events/Event.jsx:34-97 | a message a submit replaces had its timer cancelled, so that timer changes nothing; a submit that sets no message leaves the old timer to clear it |

## Left out

- Rendering, CSS classes, animation libraries and the generic input and button components are not modelled. They carry no decision.
- `useInput` (the form input hook under `form/Hooks`) is not part of this model. A field's validity is taken to be its validator applied to its value.
- The network is not modelled: `fetch`, `BASE_URL` and JSON parsing are inputs. Each call's outcome is a status plus a parsed or unparseable body, or a rejection with a message.
- The text of a runtime `TypeError` is a parameter, `typeError`, of each handler that throws one on a `null` or missing reply. The event page's submit with no selection would throw too; it is not modelled, and `EventRequest.StepsKeepEventChosen` shows it cannot happen.
- Timers are effects carrying their delay. Time does not pass, and a timer that outlives its page is not modelled. Cancellation is modelled for the three effects with a cleanup: the footer's auto-hide, the event page's status timer and the registration message's auto-dismiss. The other timers are set directly in handlers, which never cancel them.
- Concurrency is not modelled: overlapping requests sharing one loading flag, and last-response-wins races.
- Locale date formatting (`toLocaleDateString`) and time zones are not modelled. Instants are integers, a start's calendar day is given, and the weekday of the first of the month is a parameter.
- `AuthForms.Login`: a token that is not a string (a number, `null`) is passed on as `undefined`. The source passes the value itself, and storage holds its text.
- `AuthForms.Register`: a token that is not a string is passed on as `undefined`, as for `AuthForms.Login`.
- `AuthStore.Login`: a user that is JSON but not an object (a string, a number) is held as no user. The source holds the value itself.
- `Registration.ScheduleRef`: a truthy `_id` that is not a string (a number, an object) counts as missing, so its record is skipped. The source keeps the record under the value's text.
- `Registration.SessionRef`: a truthy `sessionId` that is not a string counts as missing, as for `Registration.ScheduleRef`.
- `Registration.RecordOf`: a `status` or `paymentStatus` that is not a string is stored as "". The source stores the value itself.
- `PasswordReset.ResetToken`: a non-string truthy `resetToken` is treated as missing. The page would stringify it into the URL.
- `ContactForm.Submit`: a non-string truthy `message` in a success reply is shown as "".
- The Authorization header is not in the `Post` effects of the pages that send a token. `Http.PostHeaders` states it for `usePost`.
- `Common.ToLower` folds only ASCII letters. Every keyword matched in lower case is ASCII, so the decisions are the same.
- `PasswordReset.NormalEmail`: `toLowerCase` is modelled by `Common.ToLower`, which folds only ASCII. An address with a non-ASCII capital (such as "É") is posted and put in the URL unfolded, where the source folds it.
- `Http.ParseErrorResponse`: a truthy `message` that is not a string is read as missing, so the error carries the fixed text. The source keeps the value itself, and a caller that reads it as a string (`error.message.includes` in `handleRegister`) then throws inside its catch, so no message is set.
- `ScheduleCard.LoadCapacity`: an entry whose `sessionId` is an array is dropped. The source files it under the array's joined text. Numbers are modelled as integers, so a fractional `sessionId` is not modelled either.
- `Otp.HandleChange`: characters are Unicode scalar values, while `/\D/` without the `u` flag and `value[0]` work on UTF-16 code units. A typed character outside the Basic Multilingual Plane (such as an emoji) loses only its high surrogate in the source, and the box keeps the low one. The model drops the whole character and changes nothing.
- `Otp.TypingOneCharacter`: "a typed non-digit changes nothing" is stated for scalar values. It does not hold in the source for a character outside the Basic Multilingual Plane, as for `Otp.HandleChange`.
- `Http.NotOkMessage`: a truthy `message` that is not a string is read as missing, so the fixed text is thrown. The source throws an `Error` whose message is the value's string form.
- `Otp.Verify`: the user's `email` is taken to be a string. A signed-in user without one would post `undefined`, which the request body then leaves out.
- `SessionCalendar.DateMap`: a valid date whose day, rebuilt with `Date.UTC`, falls outside the range a `Date` can hold would also throw. Dates near that range are not modelled.
- `Uri.Param`: a malformed escape makes the parameter unreadable, whereas `URLSearchParams` is lenient. Values the pages encode themselves never contain one.
- The schedule page's `ScheduleItem` is left out: it is not rendered.

## Findings

| source | as written | input that shows it | evidently intended | confidence | as-written member | corrected member |
|---|---|---|---|---|---|---|
| src/Hooks/useInView.js:13-41 | the last-enter timestamp starts at 0, so the first enter is throttled when it comes within 220 ms of the time origin; it still records "intersecting", and with `once` every later entry is then ignored | an enter at `performance.now()` = 100 | throttle only after an accepted enter | not executed | InView.EarlyFirstEnterNeverShows | InView.FirstEnterShows |
| src/Pages/auth/verify-reset-code.jsx:15-17 | the email `URLSearchParams` already decoded is passed through `decodeURIComponent` again | "a%41@b.co" arrives as "aA@b.co"; "50%@b.co" throws a URIError while rendering | use the query value as decoded once | not executed | PasswordReset.PercentInEmailIsDecodedTwice | PasswordReset.PrefillRoundTrip |
| src/Pages/auth/verify.jsx:85 | a verified user is sent to `/profile` | any user whose six-digit code the server accepts is sent to `/profile`, which no route in src/App.js:32-49 matches | `/auth/profile`, the profile route | not executed | Otp.VerifiedGoesNowhere | Otp.HandleVerifyOtp |
| src/Pages/auth/login.jsx:22-26 | a signed-in visitor is sent to the relative path `auth/profile`, which resolves below `/auth/login` | a signed-in user opening `/auth/login` is sent to `/auth/login/auth/profile`, which no route matches | `/auth/profile`, as on the sign-up page | not executed | AuthForms.AlreadySignedInGoesNowhere | AuthForms.AlreadySignedInReachesProfile |

=== FILE: auth_forms.dfy ===
/** The account forms: sign in (`login.jsx`), sign up (`register.jsx`),
    change password (`change-password.jsx`) and edit profile
    (`edit-profile.jsx`). Each validates its inputs, posts them, and on
    failure routes the error message to form fields by the words it
    contains. */
module AuthForms {
  import opened Common
  import Http
  import AuthStore

  const LoginPath := "/auth/login"
  const RegisterPath := "/auth/register"
  const ChangePasswordPath := "/user/change-password"
  const ProfileUpdatePath := "/user/profile"

  const LoginPage := "/auth/login"
  const ProfilePage := "/auth/profile"
  const BackDelayMs := 2000

  const InvalidCredentialsText := "Invalid credentials"
  const SamePasswordText := "New password cannot be the same as old password."
  const IncorrectCurrentText := "Incorrect current password."
  const PasswordChangedText := "Password changed successfully"
  const ProfileUpdatedText := "Profile updated successfully"

  /* ---------------------------------------------------------------------
     Validators and form state
     --------------------------------------------------------------------- */

  /** The email validator: the text contains `@`. */
  predicate IsEmail(v: string) {
    Contains(v, "@")
  }

  /** The password validator: at least eight UTF-16 units. */
  predicate IsPassword(v: string) {
    JsLength(v) >= 8
  }

  /** The name and phone validator: something besides white space. */
  predicate Filled(v: string) {
    Trim(v) != ""
  }

  /** The confirmation validator: equal to the password and long enough. */
  predicate Confirms(v: string, password: string) {
    v == password && IsPassword(v)
  }

  /** The state every form keeps besides its inputs: whether a submit was
      attempted, the errors shown under fields, and the two banners. */
  datatype Form = Form(submitted: bool, fieldErrors: map<string, string>, errorMessage: string, successMessage: string)

  const Pristine := Form(false, map[], "", "")

  datatype Step<S> = Step(page: S, effects: seq<Effect>)

  /** The form as a submit starts it: submitted, banners cleared. */
  function Begin(f: Form): (g: Form)
    ensures g.submitted && g.errorMessage == "" && g.successMessage == "" && g.fieldErrors == f.fieldErrors
  {
    f.(submitted := true, errorMessage := "", successMessage := "")
  }

  /** `err.response.data.errors`, when present, replaces the routed errors. */
  function Overridden(e: Http.JsError, routed: map<string, string>): (m: map<string, string>)
    ensures e.fieldErrors.None? ==> m == routed
    ensures e.fieldErrors.Some? ==> m == e.fieldErrors.value
  {
    match e.fieldErrors
    case Some(errors) => errors
    case None => routed
  }

  /** The form after a failed request: the error's message in the banner and
      the routed (or overridden) field errors. `stale` is the field-error
      object the handler closed over, which is the one from before the
      submit: the pages clear the errors before posting, but spread the old
      object when they route. */
  function Failed(f: Form, e: Http.JsError, routed: map<string, string>): (g: Form)
    ensures g.submitted && g.errorMessage == e.message && g.successMessage == ""
    ensures g.fieldErrors == Overridden(e, routed)
  {
    Begin(f).(errorMessage := e.message, fieldErrors := Overridden(e, routed))
  }

  /** A `usePost` failure never carries server field errors, so the
      override never fires for these pages and the routed errors stand. */
  lemma PostFailuresAreRouted(before: Http.PostState, path: string, data: map<string, string>,
                              token: Option<string>, w: Http.Wire, typeError: string,
                              routed: map<string, string>)
    ensures var c := Http.PostData(before, path, data, token, w, typeError);
            c.outcome.Err? ==> Overridden(c.outcome.error, routed) == routed
  {
  }

  /** The `data` object of a reply. */
  function DataOf(body: Json): Json {
    Member(body, "data").GetOr(JNull)
  }

  /** `data.user`, `None` where it is `undefined`. */
  function UserOf(data: Json): Option<Json> {
    Member(data, "user")
  }

  /** `data.token` when it is text, `None` otherwise. */
  function TokenOf(data: Json): Option<string> {
    match Member(data, "token")
    case Some(JStr(t)) => Some(t)
    case _ => None
  }


  /* ---------------------------------------------------------------------
     Sign in
     --------------------------------------------------------------------- */

  /** The field errors a failed sign-in shows: a message about credentials
      (or anything "invalid" or "incorrect") goes under both fields, else one
      about the email under the email, else one about the password under the
      password, else none. The words are matched in lower case. */
  function LoginRoute(message: string, stale: map<string, string>): (m: map<string, string>)
  {
    var lower := ToLower(message);
    if Contains(lower, "credential") || Contains(lower, "invalid") || Contains(lower, "incorrect") then
      map["email" := InvalidCredentialsText, "password" := InvalidCredentialsText]
    else if Contains(lower, "email") then stale["email" := message]
    else if Contains(lower, "password") then stale["password" := message]
    else map[]
  }

  /** Whether reading a sign-in reply throws: `response.success` of a
      `null` reply, or destructuring the missing or `null` `data` of a
      successful one. */
  predicate LoginReplyThrows(body: Json) {
    body == JNull || (Present(Member(body, "success")) && DataOf(body) == JNull)
  }

  /** `handleSubmit` of the sign-in page: invalid inputs stop before the
      request; a successful reply signs the user in and goes to the profile;
      a failure shows its message and routes it to fields. A reply that
      cannot be read throws inside the `try`, and the catch treats the
      `TypeError` (its message is `typeError`) like any other failure. */
  function Login(f: Form, email: string, password: string, reply: Result<Json, Http.JsError>,
                 typeError: string): (r: Step<Form>)
    ensures !(IsEmail(email) && IsPassword(password)) ==> r == Step(Begin(f), [])
    ensures IsEmail(email) && IsPassword(password) ==>
              |r.effects| >= 1 && r.effects[0] == Post(LoginPath, map["email" := email, "password" := password])
    ensures (exists u, t :: Common.Login(u, t) in r.effects) <==>
              && IsEmail(email) && IsPassword(password) && reply.Ok?
              && Present(Member(reply.value, "success")) && DataOf(reply.value) != JNull
    ensures (&& IsEmail(email) && IsPassword(password) && reply.Ok?
             && Present(Member(reply.value, "success")) && DataOf(reply.value) != JNull) ==>
              r.effects[1..] == [Common.Login(UserOf(DataOf(reply.value)), TokenOf(DataOf(reply.value))),
                                 Redirect(ProfilePage, 0)]
    ensures IsEmail(email) && IsPassword(password) && reply.Ok? && !LoginReplyThrows(reply.value) ==>
              r.page == Begin(f).(fieldErrors := map[])
    ensures IsEmail(email) && IsPassword(password) && reply.Ok? && LoginReplyThrows(reply.value) ==>
              r == Step(Failed(f, Http.Thrown(typeError), LoginRoute(typeError, f.fieldErrors)),
                        [Post(LoginPath, map["email" := email, "password" := password])])
    ensures IsEmail(email) && IsPassword(password) && reply.Err? ==>
              r == Step(Failed(f, reply.error, LoginRoute(reply.error.message, f.fieldErrors)),
                        [Post(LoginPath, map["email" := email, "password" := password])])
  {
    if !(IsEmail(email) && IsPassword(password)) then Step(Begin(f), [])
    else
      var post := Post(LoginPath, map["email" := email, "password" := password]);
      match reply
      case Ok(body) =>
        if body == JNull then Step(Failed(f, Http.Thrown(typeError), LoginRoute(typeError, f.fieldErrors)), [post])
        else if !Present(Member(body, "success")) then Step(Begin(f).(fieldErrors := map[]), [post])
        else
          var data := DataOf(body);
          if data == JNull then Step(Failed(f, Http.Thrown(typeError), LoginRoute(typeError, f.fieldErrors)), [post])
          else Step(Begin(f).(fieldErrors := map[]), [post, Common.Login(UserOf(data), TokenOf(data)), Redirect(ProfilePage, 0)])
      case Err(e) => Step(Failed(f, e, LoginRoute(e.message, f.fieldErrors)), [post])
  }

  /** A reply that reports success but carries no `data` signs no one in and
      moves nowhere: the page shows the `TypeError` instead. */
  lemma SuccessWithoutDataSignsNoOneIn(f: Form, email: string, password: string, typeError: string)
    requires IsEmail(email) && IsPassword(password)
    ensures var r := Login(f, email, password, Ok(JObject(map["success" := JBool(true)])), typeError);
            && r.effects == [Post(LoginPath, map["email" := email, "password" := password])]
            && r.page.errorMessage == typeError
  {
    var body := JObject(map["success" := JBool(true)]);
    assert Member(body, "success") == Some(JBool(true));
    assert DataOf(body) == JNull;
  }

  /** The routing is decided in order: a credential word wins over "email",
      which wins over "password"; the other fields keep the stale errors.
      The order itself is what the sign-in page's catch decides, so these
      clauses follow its tests case by case. */
  lemma LoginRouteOrder(message: string, stale: map<string, string>)
    ensures var lower := ToLower(message);
            var m := LoginRoute(message, stale);
            var credential := Contains(lower, "credential") || Contains(lower, "invalid") || Contains(lower, "incorrect");
            && (credential ==> m["email"] == InvalidCredentialsText && m["password"] == InvalidCredentialsText
                               && m.Keys == {"email", "password"})
            && ("email" in m && m["email"] == message && message != InvalidCredentialsText ==> !credential)
            && (!credential && Contains(lower, "email") ==> m == stale["email" := message])
            && (!credential && !Contains(lower, "email") && Contains(lower, "password") ==>
                  m == stale["password" := message])
            && (!credential && !Contains(lower, "email") && !Contains(lower, "password") ==> m == map[])
  {
  }

  /** A message with "invalid" anywhere in it, in any case, names the
      credentials: it goes under both fields, even when it also mentions the
      email (as "Invalid email" does). */
  lemma InvalidIsACredentialError(message: string, stale: map<string, string>, i: int)
    requires OccursAt(ToLower(message), "invalid", i)
    ensures LoginRoute(message, stale) == map["email" := InvalidCredentialsText, "password" := InvalidCredentialsText]
  {
    ContainsAtIndex(ToLower(message), "invalid", i);
  }

  /* ---------------------------------------------------------------------
     Already signed in
     --------------------------------------------------------------------- */

  /** The application's routes. */
  const Routes: set<string> := {
    "/", "/schedule", "/events", "/auth/login", "/auth/register", "/auth/profile",
    "/auth/edit-profile", "/auth/change-password", "/auth/verify", "/shop",
    "/auth/send-verification-code", "/auth/password/verify", "/auth/password/reset"}

  /** Where `navigate(to)` goes from the route `from`: an absolute path as it
      is, a relative one appended to the current route. */
  function Resolve(to: string, from: string): string {
    if StartsWith(to, "/") then to else from + "/" + to
  }

  /** The sign-in page's effect for a signed-in visitor, as written: it
      navigates to the relative path `auth/profile`. */
  function AlreadySignedInAsWritten(isLoggedIn: bool): (effects: seq<Effect>)
    ensures !isLoggedIn ==> effects == []
  {
    if isLoggedIn then [Redirect(Resolve("auth/profile", LoginPage), 0)] else []
  }

  /** From the sign-in route that path resolves below it, where no route
      matches. */
  lemma AlreadySignedInGoesNowhere(target: string)
    requires target == "/auth/login/auth/profile"
    ensures AlreadySignedInAsWritten(true) == [Redirect(target, 0)]
    ensures target !in Routes
  {
    var to := "auth/profile";
    assert to[..1] != "/" by { assert to[..1][0] == 'a'; }
    assert LoginPage + "/" + to == target;
    assert |target| == 24;
  }

  /** The evidently intended effect, the one the sign-up page has: go to
      the profile. */
  function AlreadySignedIn(isLoggedIn: bool): (effects: seq<Effect>)
    ensures isLoggedIn ==> effects == [Redirect(ProfilePage, 0)]
    ensures !isLoggedIn ==> effects == []
  {
    if isLoggedIn then [Redirect(Resolve(ProfilePage, LoginPage), 0)] else []
  }

  lemma AlreadySignedInReachesProfile()
    ensures forall e :: e in AlreadySignedIn(true) ==> e.Redirect? && e.path in Routes
  {
  }

  /* ---------------------------------------------------------------------
     Sign up
     --------------------------------------------------------------------- */

  datatype Registration = Registration(fullName: string, phoneNumber: string, email: string,
                                       password: string, confirmPassword: string)

  predicate ValidRegistration(v: Registration) {
    && Filled(v.fullName) && Filled(v.phoneNumber) && IsEmail(v.email)
    && IsPassword(v.password) && Confirms(v.confirmPassword, v.password)
  }

  function RegistrationFields(v: Registration): map<string, string> {
    map["fullName" := v.fullName, "phoneNumber" := v.phoneNumber, "email" := v.email,
        "password" := v.password, "confirmPassword" := v.confirmPassword]
  }

  /** The field errors of a failed edit or sign-up: a message about the email
      goes under the email, anything else under no field. */
  function EmailRoute(message: string, stale: map<string, string>): (m: map<string, string>)
    ensures Contains(ToLower(message), "email") ==> m == stale["email" := message]
    ensures !Contains(ToLower(message), "email") ==> m == map[]
  {
    if Contains(ToLower(message), "email") then stale["email" := message] else map[]
  }

  /** `handleSubmit` of the sign-up page: any invalid input stops before the
      request; any reply with a `data` object signs the user in with its user
      and token (the page does not look at `success`); a reply without `data`
      throws reading `response.data.user`, and that `TypeError` (message
      `typeError`), like any failure, shows its message and is routed to the
      email field. */
  function Register(f: Form, v: Registration, reply: Result<Json, Http.JsError>, typeError: string): (r: Step<Form>)
    ensures !ValidRegistration(v) ==> r == Step(Begin(f), [])
    ensures ValidRegistration(v) ==> |r.effects| >= 1 && r.effects[0] == Post(RegisterPath, RegistrationFields(v))
    ensures ValidRegistration(v) && reply.Ok? && DataOf(reply.value) != JNull ==>
              r == Step(Begin(f).(fieldErrors := map[]),
                        [Post(RegisterPath, RegistrationFields(v)),
                         Common.Login(UserOf(DataOf(reply.value)), TokenOf(DataOf(reply.value)))])
    ensures ValidRegistration(v) && reply.Ok? && DataOf(reply.value) == JNull ==>
              r == Step(Failed(f, Http.Thrown(typeError), EmailRoute(typeError, f.fieldErrors)),
                        [Post(RegisterPath, RegistrationFields(v))])
    ensures ValidRegistration(v) && reply.Err? ==>
              r == Step(Failed(f, reply.error, EmailRoute(reply.error.message, f.fieldErrors)),
                        [Post(RegisterPath, RegistrationFields(v))])
  {
    if !ValidRegistration(v) then Step(Begin(f), [])
    else
      var post := Post(RegisterPath, RegistrationFields(v));
      match reply
      case Ok(body) =>
        var data := DataOf(body);
        if data == JNull then Step(Failed(f, Http.Thrown(typeError), EmailRoute(typeError, f.fieldErrors)), [post])
        else Step(Begin(f).(fieldErrors := map[]), [post, Common.Login(UserOf(data), TokenOf(data))])
      case Err(e) => Step(Failed(f, e, EmailRoute(e.message, f.fieldErrors)), [post])
  }

  /** The sign-up validators each reject their own kind of bad input: a blank
      name or phone, an email without `@`, a short password, or a confirmation
      that differs. */
  lemma RegistrationNeedsEveryField(v: Registration, reply: Result<Json, Http.JsError>, f: Form, typeError: string)
    ensures Blank(v.fullName) || Blank(v.phoneNumber) ==> Register(f, v, reply, typeError).effects == []
    ensures v.confirmPassword != v.password ==> Register(f, v, reply, typeError).effects == []
    ensures !IsEmail(v.email) || JsLength(v.password) < 8 ==> Register(f, v, reply, typeError).effects == []
    ensures Register(f, v, reply, typeError).effects != [] <==> ValidRegistration(v)
  {
    TrimEmptyIffBlank(v.fullName);
    TrimEmptyIffBlank(v.phoneNumber);
  }

  /* ---------------------------------------------------------------------
     Change password
     --------------------------------------------------------------------- */

  /** Where a page for verified users sends anyone else: without a user to
      sign in, unverified to the profile. */
  function AccessGuard(user: Option<AuthStore.User>): (effects: seq<Effect>)
    ensures user.None? ==> effects == [Redirect(LoginPage, 0)]
    ensures user.Some? && !Present(Member(JObject(user.value), "verified")) ==> effects == [Redirect(ProfilePage, 0)]
    ensures user.Some? && Present(Member(JObject(user.value), "verified")) ==> effects == []
  {
    match user
    case None => [Redirect(LoginPage, 0)]
    case Some(u) => if Present(Member(JObject(u), "verified")) then [] else [Redirect(ProfilePage, 0)]
  }

  datatype PasswordChange = PasswordChange(oldPassword: string, newPassword: string, confirmPassword: string, form: Form)

  predicate ValidChange(p: PasswordChange) {
    IsPassword(p.oldPassword) && IsPassword(p.newPassword) && Confirms(p.confirmPassword, p.newPassword)
  }

  function ChangeFields(p: PasswordChange): map<string, string> {
    map["oldPassword" := p.oldPassword, "newPassword" := p.newPassword, "confirmPassword" := p.confirmPassword]
  }

  /** The field errors of a failed change, only for messages about a
      password: "old" means the current one, else "new" the new one, else
      "confirm" the confirmation, else the new one again. */
  function PasswordRoute(message: string, stale: map<string, string>): (m: map<string, string>)
  {
    var lower := ToLower(message);
    if !Contains(lower, "password") then map[]
    else if Contains(lower, "old") then stale["oldPassword" := IncorrectCurrentText]
    else if Contains(lower, "new") then stale["newPassword" := message]
    else if Contains(lower, "confirm") then stale["confirmPassword" := message]
    else stale["newPassword" := message]
  }

  /** `handleSubmit` of the change-password page: invalid inputs stop, then
      a new password equal to the old one is refused with a field error;
      success clears the three inputs and returns to the profile after two
      seconds; a failure shows its message and routes it. A `null` reply
      throws reading `response.success`, and the `TypeError` (message
      `typeError`) is routed like any failure. */
  function ChangePassword(p: PasswordChange, reply: Result<Json, Http.JsError>, typeError: string): (r: Step<PasswordChange>)
    ensures !ValidChange(p) ==> r == Step(p.(form := Begin(p.form)), [])
    ensures ValidChange(p) && p.newPassword == p.oldPassword ==>
              r == Step(p.(form := Begin(p.form).(fieldErrors := p.form.fieldErrors["newPassword" := SamePasswordText])), [])
    ensures r.effects != [] <==> ValidChange(p) && p.newPassword != p.oldPassword
    ensures r.effects != [] ==> r.effects[0] == Post(ChangePasswordPath, ChangeFields(p))
    ensures r.page.form.successMessage != "" <==>
              r.effects != [] && reply.Ok? && Present(Member(reply.value, "success"))
    ensures r.page.form.successMessage != "" ==>
              r == Step(PasswordChange("", "", "", Begin(p.form).(fieldErrors := map[], successMessage := PasswordChangedText)),
                        [Post(ChangePasswordPath, ChangeFields(p)), Redirect(ProfilePage, BackDelayMs)])
    ensures r.effects != [] && reply.Err? ==>
              r.page == p.(form := Failed(p.form, reply.error, PasswordRoute(reply.error.message, p.form.fieldErrors)))
    ensures r.effects != [] && reply == Ok(JNull) ==>
              r == Step(p.(form := Failed(p.form, Http.Thrown(typeError), PasswordRoute(typeError, p.form.fieldErrors))),
                        [Post(ChangePasswordPath, ChangeFields(p))])
  {
    if !ValidChange(p) then Step(p.(form := Begin(p.form)), [])
    else if p.newPassword == p.oldPassword then
      Step(p.(form := Begin(p.form).(fieldErrors := p.form.fieldErrors["newPassword" := SamePasswordText])), [])
    else
      var post := Post(ChangePasswordPath, ChangeFields(p));
      match reply
      case Ok(body) =>
        if body == JNull then
          Step(p.(form := Failed(p.form, Http.Thrown(typeError), PasswordRoute(typeError, p.form.fieldErrors))), [post])
        else if Present(Member(body, "success")) then
          Step(PasswordChange("", "", "", Begin(p.form).(fieldErrors := map[], successMessage := PasswordChangedText)),
               [post, Redirect(ProfilePage, BackDelayMs)])
        else Step(p.(form := Begin(p.form).(fieldErrors := map[])), [post])
      case Err(e) => Step(p.(form := Failed(p.form, e, PasswordRoute(e.message, p.form.fieldErrors))), [post])
  }

  /** The routing of password messages, case by case. The order of the
      tests is what the page's catch decides, so the clauses follow it. */
  lemma PasswordRouteOrder(message: string, stale: map<string, string>)
    ensures var lower := ToLower(message);
            var m := PasswordRoute(message, stale);
            && (!Contains(lower, "password") ==> m == map[])
            && (Contains(lower, "password") && Contains(lower, "old") ==>
                  m == stale["oldPassword" := IncorrectCurrentText])
            && (Contains(lower, "password") && !Contains(lower, "old") && Contains(lower, "new") ==>
                  m == stale["newPassword" := message])
            && ((Contains(lower, "password") && !Contains(lower, "old") && !Contains(lower, "new")
                 && Contains(lower, "confirm")) ==> m == stale["confirmPassword" := message])
            && ((Contains(lower, "password") && !Contains(lower, "old") && !Contains(lower, "new")
                 && !Contains(lower, "confirm")) ==> m == stale["newPassword" := message])
            && ("confirmPassword" in m && m["confirmPassword"] == message && "confirmPassword" !in stale ==>
                  Contains(lower, "confirm") && !Contains(lower, "new"))
  {
  }

  /** After a successful change the inputs are empty, so submitting again at
      once is refused without a request. */
  lemma ChangedThenResubmitIsRefused(p: PasswordChange, body: Json, reply: Result<Json, Http.JsError>,
                                     typeError: string)
    requires ValidChange(p) && p.newPassword != p.oldPassword
    requires Present(Member(body, "success"))
    ensures var q := ChangePassword(p, Ok(body), typeError).page;
            ChangePassword(q, reply, typeError).effects == []
  {
  }

  /* ---------------------------------------------------------------------
     Edit profile
     --------------------------------------------------------------------- */

  datatype Profile = Profile(fullName: string, phoneNumber: string, email: string)

  /** The inputs' initial values: the user's fields, `""` where absent. */
  function Seed(user: Option<AuthStore.User>): (v: Profile)
    ensures user.None? ==> v == Profile("", "", "")
  {
    match user
    case None => Profile("", "", "")
    case Some(u) =>
      Profile(TextOr(Member(JObject(u), "fullName"), ""), TextOr(Member(JObject(u), "phoneNumber"), ""),
              TextOr(Member(JObject(u), "email"), ""))
  }

  predicate ValidProfile(v: Profile) {
    Filled(v.fullName) && Filled(v.phoneNumber) && IsEmail(v.email)
  }

  function ProfileFields(v: Profile): map<string, string> {
    map["fullName" := v.fullName, "phoneNumber" := v.phoneNumber, "email" := v.email]
  }

  /** `handleSubmit` of the edit page: invalid inputs stop; success merges
      the reply's `data` into the signed-in user and returns to the profile
      after two seconds; a failure shows its message and routes it to the
      email field. A `null` reply throws reading `response.success`, and the
      `TypeError` (message `typeError`) is routed like any failure. */
  function EditProfile(f: Form, v: Profile, reply: Result<Json, Http.JsError>, typeError: string): (r: Step<Form>)
    ensures !ValidProfile(v) ==> r == Step(Begin(f), [])
    ensures ValidProfile(v) ==> |r.effects| >= 1 && r.effects[0] == Post(ProfileUpdatePath, ProfileFields(v))
    ensures r.page.successMessage != "" <==> ValidProfile(v) && reply.Ok? && Present(Member(reply.value, "success"))
    ensures r.page.successMessage != "" ==>
              r == Step(Begin(f).(fieldErrors := map[], successMessage := ProfileUpdatedText),
                        [Post(ProfileUpdatePath, ProfileFields(v)),
                         UpdateProfile(ObjectOf(DataOf(reply.value))), Redirect(ProfilePage, BackDelayMs)])
    ensures ValidProfile(v) && reply.Err? ==>
              r == Step(Failed(f, reply.error, EmailRoute(reply.error.message, f.fieldErrors)),
                        [Post(ProfileUpdatePath, ProfileFields(v))])
    ensures ValidProfile(v) && reply == Ok(JNull) ==>
              r == Step(Failed(f, Http.Thrown(typeError), EmailRoute(typeError, f.fieldErrors)),
                        [Post(ProfileUpdatePath, ProfileFields(v))])
  {
    if !ValidProfile(v) then Step(Begin(f), [])
    else
      var post := Post(ProfileUpdatePath, ProfileFields(v));
      match reply
      case Ok(body) =>
        if body == JNull then Step(Failed(f, Http.Thrown(typeError), EmailRoute(typeError, f.fieldErrors)), [post])
        else if Present(Member(body, "success")) then
          Step(Begin(f).(fieldErrors := map[], successMessage := ProfileUpdatedText),
               [post, UpdateProfile(ObjectOf(DataOf(body))), Redirect(ProfilePage, BackDelayMs)])
        else Step(Begin(f).(fieldErrors := map[]), [post])
      case Err(e) => Step(Failed(f, e, EmailRoute(e.message, f.fieldErrors)), [post])
  }

  /** Submitting the seeded form unchanged posts the user's own fields back,
      and a successful update then leaves the stored user with the reply's
      fields merged over the old ones and the session otherwise untouched. */
  lemma UnchangedProfileRoundTrip(s: AuthStore.Store, body: Json, typeError: string)
    requires s.session.user.Some?
    requires ValidProfile(Seed(s.session.user))
    requires Present(Member(body, "success"))
    ensures var v := Seed(s.session.user);
            var r := EditProfile(Pristine, v, Ok(body), typeError);
            && r.effects[0] == Post(ProfileUpdatePath, ProfileFields(v))
            && r.effects[1] == UpdateProfile(ObjectOf(DataOf(body)))
            && var after := AuthStore.UpdateUserProfile(s, r.effects[1].changes);
               after.session.token == s.session.token && after.session.isLoggedIn == s.session.isLoggedIn
               && after.session.user == Some(AuthStore.Merge(s.session.user.value, ObjectOf(DataOf(body))))
  {
  }
}

=== FILE: auth_store.dfy ===
/** The authentication session store: the logged-in user and token held in
    memory and mirrored into three keys of the browser's local storage
    (`user`, `token`, `isLoggedIn`). */
module AuthStore {
  import opened Common

  /** A user is the JSON object the server sent for it. */
  type User = map<string, Json>

  /** The user a JSON value stands for: an object is a user, anything else
      (`null` above all) is none. */
  function UserIn(j: Json): Option<User> {
    if j.JObject? then Some(j.fields) else None
  }

  datatype Session = Session(user: Option<User>, token: Option<string>, isLoggedIn: bool)

  const LoggedOut := Session(None, None, false)

  /** What `localStorage.setItem` stores for `undefined`. */
  const UndefinedText := "undefined"

  /** What the `user` key holds: the serialisation of a JSON value, or text
      that `JSON.parse` rejects (such as the `"undefined"` that storing
      `JSON.stringify(undefined)` leaves). */
  datatype StoredUser = Serialized(value: Json) | Garbled(text: string)

  /** The three storage keys; `None` is a key that is not set. */
  datatype Storage = Storage(user: Option<StoredUser>, token: Option<string>, isLoggedIn: Option<string>)

  const Cleared := Storage(None, None, None)

  datatype Store = Store(session: Session, storage: Storage)

  /** `user?.verified` */
  predicate Verified(s: Session) {
    s.user.Some? && "verified" in s.user.value && Truthy(s.user.value["verified"])
  }

  /** `localStorage.setItem("user", JSON.stringify(user))`, with `None` for
      an `undefined` user. */
  function Stringified(user: Option<Json>): (stored: StoredUser)
    ensures user.None? ==> stored == Garbled(UndefinedText)
    ensures user.Some? ==> stored == Serialized(user.value)
  {
    match user
    case Some(j) => Serialized(j)
    case None => Garbled(UndefinedText)
  }

  /** The restore effect run once at start-up. The session is rehydrated
      only when `isLoggedIn` holds exactly the text `true`. Then a user key
      that `JSON.parse` rejects throws inside the effect, which takes the
      application down: that outcome is `None`. A missing user key parses as
      `null`. */
  function Restore(st: Storage): (r: Option<Session>)
    ensures r.None? <==> st.isLoggedIn == Some("true") && st.user.Some? && st.user.value.Garbled?
    ensures st.isLoggedIn != Some("true") ==> r == Some(LoggedOut)
    ensures r.Some? && st.isLoggedIn == Some("true") ==> r.value.isLoggedIn && r.value.token == st.token
    ensures r.Some? && r.value.user.Some? ==> st.user == Some(Serialized(JObject(r.value.user.value)))
    ensures (st.isLoggedIn == Some("true") && st.user.Some? && st.user.value.Serialized?
             && st.user.value.value.JObject?) ==>
              r == Some(Session(Some(st.user.value.value.fields), st.token, true))
  {
    if st.isLoggedIn != Some("true") then Some(LoggedOut)
    else match st.user
      case None => Some(Session(None, st.token, true))
      case Some(Garbled(_)) => None
      case Some(Serialized(j)) => Some(Session(UserIn(j), st.token, true))
  }

  /** `loginHandler(user, token)`: memory and all three keys written
      together. `None` is an `undefined` argument: in memory it is no user or
      no token, in storage it becomes the text `"undefined"`. */
  function Login(s: Store, user: Option<Json>, token: Option<string>): (r: Store)
    ensures r.session.isLoggedIn && r.session.token == token
    ensures user.Some? && user.value.JObject? ==> r.session.user == Some(user.value.fields)
    ensures !(user.Some? && user.value.JObject?) ==> r.session.user.None?
    ensures r.storage.isLoggedIn == Some("true")
    ensures r.storage.token == Some(token.GetOr(UndefinedText))
    ensures r.storage.user == Some(Stringified(user))
  {
    Store(Session(UserIn(user.GetOr(JNull)), token, true),
          Storage(Some(Stringified(user)), Some(token.GetOr(UndefinedText)), Some("true")))
  }

  /** `logoutHandler()`: user and token dropped, all three keys removed. */
  function Logout(s: Store): (r: Store)
    ensures !r.session.isLoggedIn && r.session.user.None? && r.session.token.None?
    ensures r.storage.user.None? && r.storage.token.None? && r.storage.isLoggedIn.None?
  {
    Store(LoggedOut, Cleared)
  }

  /** The shallow merge `{ ...user, ...changes }`. */
  function Merge(user: User, changes: User): (r: User)
    ensures r.Keys == user.Keys + changes.Keys
    ensures forall k :: k in changes ==> r[k] == changes[k]
    ensures forall k :: k in user && k !in changes ==> r[k] == user[k]
  {
    user + changes
  }

  /** `updateUserProfile(changes)`: nothing without a user; otherwise the
      merged user is kept in memory and persisted, and nothing else changes. */
  function UpdateUserProfile(s: Store, changes: User): (r: Store)
    ensures s.session.user.None? ==> r == s
    ensures s.session.user.Some? ==>
              && r.session.user.Some?
              && r.session.user.value.Keys == s.session.user.value.Keys + changes.Keys
              && (forall k :: k in changes ==> r.session.user.value[k] == changes[k])
              && (forall k :: k in s.session.user.value && k !in changes ==>
                    r.session.user.value[k] == s.session.user.value[k])
              && r.storage.user == Some(Serialized(JObject(r.session.user.value)))
    ensures r.session.token == s.session.token && r.session.isLoggedIn == s.session.isLoggedIn
    ensures r.storage.token == s.storage.token && r.storage.isLoggedIn == s.storage.isLoggedIn
  {
    match s.session.user
    case None => s
    case Some(u) =>
      var merged := Merge(u, changes);
      Store(s.session.(user := Some(merged)), s.storage.(user := Some(Serialized(JObject(merged)))))
  }

  /** Storage and memory agree: a reload would restore exactly this session. */
  ghost predicate Mirrored(s: Store) {
    Restore(s.storage) == Some(s.session)
  }

  /** Login followed by a reload restores the same user and token, when both
      were given. */
  lemma LoginThenRestore(s: Store, user: Json, token: string)
    ensures Restore(Login(s, Some(user), Some(token)).storage) == Some(Session(UserIn(user), Some(token), true))
    ensures Mirrored(Login(s, Some(user), Some(token)))
  {
  }

  /** A login without a user stores the text `"undefined"`, which the next
      start-up cannot parse: the reload takes the application down. */
  lemma LoginWithoutUserBreaksReload(s: Store, token: Option<string>)
    ensures Login(s, None, token).session.isLoggedIn
    ensures Restore(Login(s, None, token).storage).None?
  {
  }

  /** A login without a token is held as no token, but a reload restores the
      truthy text `"undefined"` as the token. */
  lemma LoginWithoutTokenRestoresText(s: Store, user: Json)
    ensures Login(s, Some(user), None).session.token.None?
    ensures Restore(Login(s, Some(user), None).storage) == Some(Session(UserIn(user), Some(UndefinedText), true))
  {
  }

  /** Logout followed by a reload stays logged out. */
  lemma LogoutThenRestore(s: Store)
    ensures Restore(Logout(s).storage) == Some(LoggedOut)
    ensures Mirrored(Logout(s))
  {
  }

  /** A profile update keeps storage and memory in step. */
  lemma {:induction false} OperationsKeepMirror(s: Store, changes: User)
    requires Mirrored(s)
    ensures Mirrored(UpdateUserProfile(s, changes))
  {
    if s.session.user.Some? {
      var r := UpdateUserProfile(s, changes);
      assert s.storage.isLoggedIn == Some("true");
      assert s.storage.user == Some(Serialized(JObject(s.session.user.value)));
      assert Restore(r.storage) == Some(r.session);
    }
  }
}

=== FILE: common.dfy ===
/** Shared vocabulary of the model: optional values and results, JSON values as
    the pages read them, the JavaScript string operations the pages rely on,
    user-visible notices, and the effects a step emits instead of performing I/O.

    Throughout the model the empty string stands for a falsy or absent string
    (JavaScript `!x` on `undefined`, `null` and `""` alike). */
module Common {

  datatype Option<+T> = None | Some(value: T) {
    function GetOr(default: T): T {
      match this
      case Some(v) => v
      case None => default
    }
  }

  datatype Result<+T, +E> = Ok(value: T) | Err(error: E)

  /* ---------------------------------------------------------------------
     JSON values
     --------------------------------------------------------------------- */

  /** A parsed JSON value. Numbers are integers here; fractional numbers and
      NaN never reach a decision the model makes. */
  datatype Json =
    | JNull
    | JBool(b: bool)
    | JNum(n: int)
    | JStr(s: string)
    | JArray(items: seq<Json>)
    | JObject(fields: map<string, Json>)

  /** JavaScript truthiness of a present value. */
  predicate Truthy(j: Json) {
    match j
    case JNull => false
    case JBool(b) => b
    case JNum(n) => n != 0
    case JStr(s) => s != ""
    case JArray(_) => true
    case JObject(_) => true
  }

  /** `j?.name`: the named property of an object, absent otherwise. */
  function Member(j: Json, name: string): (r: Option<Json>)
    ensures r.Some? <==> j.JObject? && name in j.fields
    ensures r.Some? ==> r.value == j.fields[name]
  {
    if j.JObject? && name in j.fields then Some(j.fields[name]) else None
  }

  /** Truthiness of a possibly absent value (`undefined` is falsy). */
  predicate Present(o: Option<Json>) {
    o.Some? && Truthy(o.value)
  }

  /** `x || fallback` for a string-valued `x`: the text when it is a non-empty
      string, the fallback otherwise. */
  function TextOr(o: Option<Json>, fallback: string): (r: string)
    ensures r == fallback || (o == Some(JStr(r)) && r != "")
    ensures Present(o) && o.value.JStr? ==> r == o.value.s
    ensures !Present(o) ==> r == fallback
  {
    if o.Some? && o.value.JStr? && o.value.s != "" then o.value.s else fallback
  }

  /** The object a JSON value denotes, the empty object for anything else. */
  function ObjectOf(j: Json): (r: map<string, Json>)
    ensures j.JObject? ==> r == j.fields
    ensures !j.JObject? ==> r == map[]
  {
    if j.JObject? then j.fields else map[]
  }

  /* ---------------------------------------------------------------------
     Characters
     --------------------------------------------------------------------- */

  predicate IsDigit(c: char) {
    '0' <= c <= '9'
  }

  /** ECMAScript WhiteSpace and LineTerminator code points: what `trim()`
      removes and what the regular-expression class `\s` matches. */
  predicate IsSpace(c: char) {
    var n := c as int;
    || n == 0x20 || (0x09 <= n <= 0x0D) || n == 0xA0 || n == 0x1680
    || (0x2000 <= n <= 0x200A) || n == 0x2028 || n == 0x2029 || n == 0x202F
    || n == 0x205F || n == 0x3000 || n == 0xFEFF
  }

  predicate AllDigits(s: string) {
    forall i :: 0 <= i < |s| ==> IsDigit(s[i])
  }

  predicate Blank(s: string) {
    forall i :: 0 <= i < |s| ==> IsSpace(s[i])
  }

  /* ---------------------------------------------------------------------
     String operations
     --------------------------------------------------------------------- */

  /** `s.length`: JavaScript counts UTF-16 code units, so a character outside
      the Basic Multilingual Plane counts twice. */
  function JsLength(s: string): (n: nat)
    ensures |s| <= n <= 2 * |s|
  {
    if s == [] then 0 else (if s[0] as int > 0xFFFF then 2 else 1) + JsLength(s[1..])
  }

  /** `s.trimStart()` */
  function TrimStart(s: string): (r: string)
    ensures |r| <= |s| && r == s[|s| - |r|..]
    ensures r == [] || !IsSpace(r[0])
    ensures forall i :: 0 <= i < |s| - |r| ==> IsSpace(s[i])
  {
    if |s| > 0 && IsSpace(s[0]) then TrimStart(s[1..]) else s
  }

  /** `s.trimEnd()` */
  function TrimEnd(s: string): (r: string)
    ensures |r| <= |s| && r == s[..|r|]
    ensures r == [] || !IsSpace(r[|r| - 1])
    ensures forall i :: |r| <= i < |s| ==> IsSpace(s[i])
  {
    if |s| > 0 && IsSpace(s[|s| - 1]) then TrimEnd(s[..|s| - 1]) else s
  }

  /** `s.trim()` */
  function Trim(s: string): (r: string)
    ensures |r| <= |s|
    ensures r == [] || (!IsSpace(r[0]) && !IsSpace(r[|r| - 1]))
  {
    TrimEnd(TrimStart(s))
  }

  /** A string trims to nothing exactly when it consists of white space only:
      the `!x.trim()` guards of the forms reject exactly the blank inputs. */
  lemma TrimEmptyIffBlank(s: string)
    ensures Trim(s) == [] <==> Blank(s)
  {
  }

  function LowerChar(c: char): char {
    if 'A' <= c <= 'Z' then (c as int + 32) as char else c
  }

  /** `s.toLowerCase()` on the ASCII letters. */
  function ToLower(s: string): (r: string)
    ensures |r| == |s|
    ensures forall i :: 0 <= i < |s| ==> r[i] == LowerChar(s[i])
  {
    if s == [] then [] else [LowerChar(s[0])] + ToLower(s[1..])
  }

  /** `sub` occurs in `s` starting at index `i`. */
  ghost predicate OccursAt(s: string, sub: string, i: int) {
    0 <= i && i + |sub| <= |s| && s[i..i + |sub|] == sub
  }

  /** `s.includes(sub)`, as a left-to-right search. */
  predicate Contains(s: string, sub: string)
    decreases |s|
  {
    |sub| <= |s| && (s[..|sub|] == sub || (|s| > 0 && Contains(s[1..], sub)))
  }

  /** The search finds `sub` exactly when it occurs at some index. */
  lemma {:induction false} ContainsIff(s: string, sub: string)
    ensures Contains(s, sub) <==> exists i :: OccursAt(s, sub, i)
    decreases |s|
  {
    if Contains(s, sub) {
      if s[..|sub|] == sub {
        assert OccursAt(s, sub, 0);
      } else {
        ContainsIff(s[1..], sub);
        var i :| OccursAt(s[1..], sub, i);
        assert s[1..][i..i + |sub|] == s[i + 1..i + 1 + |sub|];
        assert OccursAt(s, sub, i + 1);
      }
    }
    if exists i :: OccursAt(s, sub, i) {
      var i :| OccursAt(s, sub, i);
      if i > 0 {
        assert s[1..][i - 1..i - 1 + |sub|] == s[i..i + |sub|];
        assert OccursAt(s[1..], sub, i - 1);
        ContainsIff(s[1..], sub);
      } else {
        assert s[..|sub|] == s[0..|sub|];
      }
    }
  }

  /** An occurrence at a known index is found by the search. */
  lemma ContainsAtIndex(s: string, sub: string, i: int)
    requires OccursAt(s, sub, i)
    ensures Contains(s, sub)
  {
    ContainsIff(s, sub);
  }

  /** Index of the first `c` in `s`, `|s|` when there is none. */
  function IndexOf(s: string, c: char): (k: nat)
    ensures k <= |s|
    ensures forall i :: 0 <= i < k ==> s[i] != c
    ensures k < |s| ==> s[k] == c
  {
    if s == [] then 0 else if s[0] == c then 0 else 1 + IndexOf(s[1..], c)
  }

  predicate StartsWith(s: string, prefix: string) {
    |prefix| <= |s| && s[..|prefix|] == prefix
  }

  /** `s.replace(/\D/g, "")`: every non-digit removed. */
  function KeepDigits(s: string): (r: string)
    ensures |r| <= |s|
    ensures AllDigits(r)
    ensures AllDigits(s) ==> r == s
    ensures |r| == |s| ==> r == s
  {
    if s == [] then []
    else if IsDigit(s[0]) then [s[0]] + KeepDigits(s[1..])
    else KeepDigits(s[1..])
  }

  /** `KeepDigits` is the order-keeping filter: one character is kept
      exactly when it is a digit, and a concatenation is filtered piece by
      piece, so the digits come out in the order they went in. */
  lemma {:induction false} KeepDigitsAppend(a: string, b: string)
    ensures KeepDigits(a + b) == KeepDigits(a) + KeepDigits(b)
    decreases |a|
  {
    if a == [] {
      assert a + b == b;
    } else {
      assert (a + b)[0] == a[0];
      assert (a + b)[1..] == a[1..] + b;
      KeepDigitsAppend(a[1..], b);
      if IsDigit(a[0]) {
        assert KeepDigits(a + b) == [a[0]] + (KeepDigits(a[1..]) + KeepDigits(b));
        assert KeepDigits(a) == [a[0]] + KeepDigits(a[1..]);
      }
    }
  }

  lemma KeepDigitsOne(c: char)
    ensures IsDigit(c) ==> KeepDigits([c]) == [c]
    ensures !IsDigit(c) ==> KeepDigits([c]) == []
  {
    assert [c][1..] == [];
  }

  /** Index of the first non-digit of `s`, `|s|` when there is none. */
  function FirstNonDigit(s: string): (k: nat)
    ensures k <= |s|
    ensures AllDigits(s[..k])
    ensures k < |s| ==> !IsDigit(s[k])
    ensures k == |s| <==> AllDigits(s)
  {
    if s == [] then 0
    else if !IsDigit(s[0]) then 0
    else
      var k := 1 + FirstNonDigit(s[1..]);
      assert s[..k] == [s[0]] + s[1..][..k - 1];
      k
  }

  /** `s.replace(/\D/, "")` (no `g` flag): only the first non-digit goes. */
  function StripFirstNonDigit(s: string): (r: string)
    ensures var k := FirstNonDigit(s);
            if k == |s| then r == s else r == s[..k] + s[k + 1..]
  {
    if s == [] then []
    else if !IsDigit(s[0]) then s[1..]
    else
      var k := FirstNonDigit(s[1..]);
      if k < |s| - 1 then
        assert s[1..][k + 1..] == s[k + 2..];
        [s[0]] + StripFirstNonDigit(s[1..])
      else
        [s[0]] + StripFirstNonDigit(s[1..])
  }

  /** `s.slice(0, n)` */
  function Take(s: string, n: nat): (r: string)
    ensures |r| == if |s| <= n then |s| else n
    ensures r == s[..|r|]
  {
    if |s| <= n then s else s[..n]
  }

  /* ---------------------------------------------------------------------
     Building an object in a loop
     --------------------------------------------------------------------- */

  /** The object a `forEach` builds by assigning `map[key(x)] = value(x)` for
      each `x` in order; entries without a key are skipped. */
  function IndexBy<T, K(==), V>(xs: seq<T>, key: T -> Option<K>, value: T -> V): (m: map<K, V>)
    decreases |xs|
  {
    if xs == [] then map[]
    else
      var m := IndexBy(xs[..|xs| - 1], key, value);
      var x := xs[|xs| - 1];
      if key(x).Some? then m[key(x).value := value(x)] else m
  }

  /** The object has a property exactly for the keys some entry carries. */
  lemma {:induction false} IndexByKeys<T, K, V>(xs: seq<T>, key: T -> Option<K>, value: T -> V, k: K)
    ensures k in IndexBy(xs, key, value) <==> exists i :: 0 <= i < |xs| && key(xs[i]) == Some(k)
    decreases |xs|
  {
    if xs != [] {
      var p := xs[..|xs| - 1];
      IndexByKeys(p, key, value, k);
      if exists i :: 0 <= i < |p| && key(p[i]) == Some(k) {
        var i :| 0 <= i < |p| && key(p[i]) == Some(k);
        assert xs[i] == p[i];
      }
    }
  }

  /** A later entry with the same key overwrites an earlier one: the value at
      a key is that of the last entry carrying it. */
  lemma {:induction false} IndexByLastWins<T, K, V>(xs: seq<T>, key: T -> Option<K>, value: T -> V, i: int)
    requires 0 <= i < |xs| && key(xs[i]).Some?
    requires forall j :: i < j < |xs| ==> key(xs[j]) != key(xs[i])
    ensures key(xs[i]).value in IndexBy(xs, key, value)
    ensures IndexBy(xs, key, value)[key(xs[i]).value] == value(xs[i])
    decreases |xs|
  {
    var p := xs[..|xs| - 1];
    if i < |xs| - 1 {
      assert p[i] == xs[i];
      forall j | i < j < |p| ensures key(p[j]) != key(p[i]) {
        assert p[j] == xs[j];
      }
      IndexByLastWins(p, key, value, i);
    }
  }

  /* ---------------------------------------------------------------------
     Notices and effects
     --------------------------------------------------------------------- */

  /** The `type` of a `{type, text}` message; `Unset` is the cleared `""`/`null`. */
  datatype Kind = Unset | Info | Success | Error

  datatype Notice = Notice(kind: Kind, text: string)

  const Cleared: Notice := Notice(Unset, "")

  /** Work a timer performs when it fires. */
  datatype Deferred =
    | ClearNotice        // reset a `{type, text}` message
    | Expire(epoch: nat) // an effect's timer, cancelled by the effect's cleanup once the watched state changes
    | CloseRequestModal  // the event modal's delayed close
    | NotifySuccess      // a parent's `onSuccess` callback

  /** What a step asks its environment to do. */
  datatype Effect =
    | Post(path: string, fields: map<string, string>)
    | Get(path: string)
    | Redirect(path: string, delayMs: nat)          // `navigate` / `location.href`; 0 = at once
    | Refetch(delayMs: nat)                         // re-run of the registrations fetch
    | Logout                                        // `logoutHandler()`
    | Login(user: Option<Json>, token: Option<string>) // `loginHandler(user, token)`; `None` is `undefined`
    | UpdateProfile(changes: map<string, Json>)     // `updateUserProfile(data)`
    | Focus(slot: nat)                              // focus an OTP box
    | Unobserve                                     // stop observing an element
    | Later(delayMs: nat, action: Deferred)         // `setTimeout(action, delayMs)`

  /** No network request among the effects. */
  predicate NoRequest(effects: seq<Effect>) {
    forall e :: e in effects ==> !e.Post? && !e.Get?
  }

  /** The POSTs among the effects, in order. */
  function Posts(effects: seq<Effect>): (r: seq<Effect>)
    ensures forall e :: e in r <==> e in effects && e.Post?
    ensures r == [] <==> forall e :: e in effects ==> !e.Post?
  {
    if effects == [] then []
    else (if effects[0].Post? then [effects[0]] else []) + Posts(effects[1..])
  }
}

=== FILE: contact_form.dfy ===
/** The footer's contact form (`Footer.jsx`): three inputs checked in order,
    a plain `fetch` POST, and one message whose success form hides itself. */
module ContactForm {
  import opened Common
  import Http

  const ContactPath := "/api/contact"
  const HideDelayMs := 2000

  const FirstNameMissingText := "Please enter your first name"
  const EmailMissingText := "Please enter your email address"
  const MessageMissingText := "Please enter a message"
  const SendFailedText := "Failed to send message. Please try again."
  const NetworkErrorText := "Network error. Please check your connection and try again."

  datatype Field = FirstName | Email | Message

  /** The inputs and the `{submitMessage, submitStatus}` pair; a status of
      `""` is `Unset`. `epoch` counts the changes of that pair: the auto-hide
      effect runs again after each one, and its cleanup cancels the timer the
      previous run set, so a timer acts only while `epoch` is unchanged. */
  datatype Contact = Contact(firstName: string, email: string, message: string, notice: Notice, epoch: nat)

  const Empty := Contact("", "", "", Cleared, 0)

  /** Setting the pair: a different value is a change the effect sees. */
  function Show(c: Contact, n: Notice): (r: Contact)
    ensures r.notice == n
    ensures r.firstName == c.firstName && r.email == c.email && r.message == c.message
    ensures n != c.notice ==> r.epoch == c.epoch + 1
    ensures n == c.notice ==> r == c
  {
    if n == c.notice then c else c.(notice := n, epoch := c.epoch + 1)
  }

  predicate Filled(v: string) {
    Trim(v) != ""
  }

  function Value(c: Contact, f: Field): string {
    match f
    case FirstName => c.firstName
    case Email => c.email
    case Message => c.message
  }

  /** The auto-hide effect, run after a change of the pair: a shown success
      message schedules its own removal, tagged with the change it follows;
      nothing else does. */
  function AutoHide(c: Contact): (effects: seq<Effect>)
    ensures effects != [] <==> c.notice.kind == Success && c.notice.text != ""
    ensures effects != [] ==> effects == [Later(HideDelayMs, Expire(c.epoch))]
  {
    if c.notice.kind == Success && c.notice.text != "" then [Later(HideDelayMs, Expire(c.epoch))] else []
  }

  /** What the auto-hide timer set at `epoch` does when it fires: it clears
      the pair if no change has cancelled it since, and is gone otherwise. */
  function Hide(c: Contact, epoch: nat): (r: Contact)
    ensures epoch == c.epoch ==> r.notice == Cleared
    ensures epoch != c.epoch ==> r == c
    ensures r.firstName == c.firstName && r.email == c.email && r.message == c.message
  {
    if epoch == c.epoch then Show(c, Cleared) else c
  }

  /** `handleInputChange`: the field takes the value, and a shown message is
      cleared with its status. */
  function HandleInputChange(c: Contact, f: Field, v: string): (r: Contact)
    ensures Value(r, f) == v
    ensures forall g :: g != f ==> Value(r, g) == Value(c, g)
    ensures c.notice.text != "" ==> r.notice == Cleared && r.epoch == c.epoch + 1
    ensures c.notice.text == "" ==> r.notice == c.notice && r.epoch == c.epoch
  {
    var d := if c.notice.text != "" then Show(c, Cleared) else c;
    match f
    case FirstName => d.(firstName := v)
    case Email => d.(email := v)
    case Message => d.(message := v)
  }

  datatype Step = Step(contact: Contact, effects: seq<Effect>)

  function ContactFields(c: Contact): map<string, string> {
    map["firstName" := c.firstName, "email" := c.email, "message" := c.message]
  }

  /** The message of the first blank input, in the order name, email,
      message; `""` when all are filled. */
  function FirstMissing(c: Contact): (t: string)
    ensures t == "" <==> Filled(c.firstName) && Filled(c.email) && Filled(c.message)
    ensures !Filled(c.firstName) ==> t == FirstNameMissingText
    ensures Filled(c.firstName) && !Filled(c.email) ==> t == EmailMissingText
    ensures Filled(c.firstName) && Filled(c.email) && !Filled(c.message) ==> t == MessageMissingText
  {
    if !Filled(c.firstName) then FirstNameMissingText
    else if !Filled(c.email) then EmailMissingText
    else if !Filled(c.message) then MessageMissingText
    else ""
  }

  /** `handleSubmit`: a blank input stops with its message; otherwise the
      inputs are sent as they are. A 2xx reply whose body has `success`
      shows the body's message as a success and empties the inputs; any
      other parsed reply shows its message, else a fixed text; a failed
      `fetch`, an unparseable body, or a `null` one (reading `data.success`
      or `data.message` of it throws) shows the network text. The pair is
      cleared before the request goes out. */
  function Submit(c: Contact, w: Http.Wire): (r: Step)
    ensures FirstMissing(c) != "" ==> r == Step(Show(c, Notice(Error, FirstMissing(c))), [])
    ensures FirstMissing(c) == "" ==> |r.effects| >= 1 && r.effects[0] == Post(ContactPath, ContactFields(c))
    ensures r.contact.notice.kind == Success <==>
              FirstMissing(c) == "" && w.Reply? && Http.IsOk(w.status) && w.body.Parsed?
              && Present(Member(w.body.value, "success"))
    ensures r.contact.notice.kind == Success ==>
              && r.contact.firstName == "" && r.contact.email == "" && r.contact.message == ""
              && r.contact.notice == Notice(Success, TextOr(Member(w.body.value, "message"), ""))
    ensures r.contact.notice.kind != Success ==>
              r.contact.notice.kind == Error && r.contact.notice.text != ""
              && r.contact.firstName == c.firstName && r.contact.email == c.email && r.contact.message == c.message
    ensures FirstMissing(c) == "" && (w.NoResponse? || w.body.Unparseable? || w.body.value == JNull) ==>
              r.contact.notice == Notice(Error, NetworkErrorText)
    ensures FirstMissing(c) == "" ==> r.contact.epoch > c.epoch
    ensures r.effects == [] || r.effects[1..] == AutoHide(r.contact)
  {
    var missing := FirstMissing(c);
    if missing != "" then Step(Show(c, Notice(Error, missing)), [])
    else
      var post := Post(ContactPath, ContactFields(c));
      var sending := Show(c, Cleared);
      match w
      case NoResponse(_) => Step(Show(sending, Notice(Error, NetworkErrorText)), [post])
      case Reply(status, body) =>
        match body
        case Unparseable(_) => Step(Show(sending, Notice(Error, NetworkErrorText)), [post])
        case Parsed(v) =>
          if v == JNull then Step(Show(sending, Notice(Error, NetworkErrorText)), [post])
          else if Http.IsOk(status) && Present(Member(v, "success")) then
            var sent := Show(sending.(firstName := "", email := "", message := ""),
                             Notice(Success, TextOr(Member(v, "message"), "")));
            Step(sent, [post] + AutoHide(sent))
          else Step(Show(sending, Notice(Error, TextOr(Member(v, "message"), SendFailedText))), [post])
  }

  /** The form is sent exactly when no input is blank. */
  lemma SentIffFilled(c: Contact, w: Http.Wire)
    ensures Posts(Submit(c, w).effects) != [] <==> Filled(c.firstName) && Filled(c.email) && Filled(c.message)
  {
  }

  /** Only a success hides itself: an error message stays until the next
      keystroke or submit. */
  lemma OnlySuccessHides(c: Contact, w: Http.Wire)
    ensures |Submit(c, w).effects| >= 2 ==>
              && Submit(c, w).contact.notice.kind == Success
              && Submit(c, w).effects[1] == Later(HideDelayMs, Expire(Submit(c, w).contact.epoch))
    ensures Submit(c, w).contact.notice.kind == Error ==> |Submit(c, w).effects| <= 1
  {
    var r := Submit(c, w);
    if |r.effects| >= 2 {
      assert r.effects[1..] == AutoHide(r.contact);
    }
  }

  /** After a success the inputs are empty, so sending the same form again
      needs it typed again: an immediate resubmit asks for the name. */
  lemma SentThenResubmitAsksForName(c: Contact, w: Http.Wire, w2: Http.Wire)
    requires Submit(c, w).contact.notice.kind == Success
    ensures Submit(Submit(c, w).contact, w2) ==
              Step(Show(Submit(c, w).contact, Notice(Error, FirstNameMissingText)), [])
  {
    assert Trim("") == "";
  }

  /** Typing hides a shown message of either kind, and what is left schedules
      no auto-hide. */
  lemma TypingHidesMessage(c: Contact, f: Field, v: string)
    requires c.notice.text != ""
    ensures AutoHide(HandleInputChange(c, f, v)) == []
    ensures HandleInputChange(c, f, v).notice == Hide(c, c.epoch).notice
  {
  }

  /** A timer set for a message that typing or a new submit has since
      replaced was cancelled by the effect's cleanup: firing it changes
      nothing, so it cannot cut the next message short. */
  lemma SupersededHideDoesNothing(c: Contact, f: Field, v: string, w: Http.Wire)
    requires c.notice.text != ""
    ensures var r := HandleInputChange(c, f, v);
            Hide(r, c.epoch) == r
    ensures var r := Submit(c, w).contact;
            FirstMissing(c) == "" ==> Hide(r, c.epoch) == r
  {
  }
}

=== FILE: event_request.dfy ===
/** The events page's request modal (`Event.jsx`): choosing an event opens
    the modal, a submit checks email and phone and posts through `usePost`,
    and timers close the modal and clear the status message. */
module EventRequest {
  import opened Common
  import Http

  const RequestPath := "/event/request"
  const CloseDelayMs := 3000
  const StatusDelayMs := 5000

  const EmailRequiredText := "Email is required"
  const PhoneRequiredText := "Phone number is required"
  const SentText := "Your event request has been sent successfully!"
  const RequestFailedText := "Failed to send request. Please try again."

  /** The fields of an event the request carries. */
  datatype Event = Event(id: string, title: string)

  datatype Page = Page(
    selected: Option<Event>,
    showModal: bool,
    email: string,
    phone: string,
    message: string,
    requestSuccess: bool,
    status: Notice,
    statusEpoch: nat)

  const Initial := Page(None, false, "", "", "", false, Cleared, 0)

  /** The modal, and with it the form, is open only with an event chosen. */
  ghost predicate OpenHasEvent(p: Page) {
    p.showModal ==> p.selected.Some?
  }

  /** `setStatusMessage({...})`: every call stores a new object, so the
      status effect runs again each time, and its cleanup cancels the timer
      the previous run set. `statusEpoch` counts those calls. */
  function SetStatus(p: Page, n: Notice): (r: Page)
    ensures r.status == n && r.statusEpoch == p.statusEpoch + 1
    ensures r.(status := p.status, statusEpoch := p.statusEpoch) == p
  {
    p.(status := n, statusEpoch := p.statusEpoch + 1)
  }

  /** The status-message effect, run after each `SetStatus`: any shown text
      schedules its clearing five seconds later, tagged with the call it
      follows. */
  function StatusTimer(p: Page): (effects: seq<Effect>)
    ensures p.status.text != "" <==> effects == [Later(StatusDelayMs, Expire(p.statusEpoch))]
    ensures p.status.text == "" ==> effects == []
  {
    if p.status.text != "" then [Later(StatusDelayMs, Expire(p.statusEpoch))] else []
  }

  /** `handleRequestClick` */
  function RequestClick(p: Page, e: Event): (r: Page)
    ensures r.showModal && r.selected == Some(e)
    ensures r == p.(selected := Some(e), showModal := true)
  {
    p.(selected := Some(e), showModal := true)
  }

  /** `closeModal`: the modal closes, and the choice and the inputs go. */
  function CloseModal(p: Page): (r: Page)
    ensures !r.showModal && r.selected.None?
    ensures r.email == "" && r.phone == "" && r.message == ""
    ensures r.requestSuccess == p.requestSuccess && r.status == p.status
  {
    p.(showModal := false, selected := None, email := "", phone := "", message := "")
  }

  /** The timer a sent request starts: the modal closes and the inputs
      empty, but the chosen event is kept. */
  function AfterSent(p: Page): (r: Page)
    ensures !r.showModal && !r.requestSuccess && r.selected == p.selected
    ensures r.email == "" && r.phone == "" && r.message == ""
  {
    p.(showModal := false, requestSuccess := false, email := "", phone := "", message := "")
  }

  /** What the status timer set at `epoch` does when it fires: it clears
      the message if no later `SetStatus` has cancelled it, and is gone
      otherwise. */
  function ClearStatus(p: Page, epoch: nat): (r: Page)
    ensures epoch == p.statusEpoch ==> r == SetStatus(p, Cleared)
    ensures epoch != p.statusEpoch ==> r == p
    ensures r.showModal == p.showModal && r.selected == p.selected
  {
    if epoch == p.statusEpoch then SetStatus(p, Cleared) else p
  }

  datatype Step = Step(page: Page, effects: seq<Effect>)

  function RequestFields(e: Event, p: Page): map<string, string> {
    map["eventId" := e.id, "eventTitle" := e.title, "email" := p.email, "phone" := p.phone,
        "message" := p.message]
  }

  /** `handleSubmit`, from the open form: an empty email, then an empty
      phone, stops with its message (the inputs are not trimmed); otherwise
      the request is posted. A truthy reply shows the success view and
      message and starts the close timer; a falsy one changes nothing; a
      failure shows the error's message, else a fixed text. */
  function Submit(p: Page, reply: Result<Json, Http.JsError>): (r: Step)
    requires p.selected.Some?
    ensures p.email == "" ==>
              r == Step(SetStatus(p, Notice(Error, EmailRequiredText)),
                        [Later(StatusDelayMs, Expire(p.statusEpoch + 1))])
    ensures p.email != "" && p.phone == "" ==>
              r == Step(SetStatus(p, Notice(Error, PhoneRequiredText)),
                        [Later(StatusDelayMs, Expire(p.statusEpoch + 1))])
    ensures p.email != "" && p.phone != "" ==>
              |r.effects| >= 1 && r.effects[0] == Post(RequestPath, RequestFields(p.selected.value, p))
    ensures r.page.requestSuccess != p.requestSuccess || Later(CloseDelayMs, CloseRequestModal) in r.effects ==>
              p.email != "" && p.phone != "" && reply.Ok? && Truthy(reply.value)
    ensures p.email != "" && p.phone != "" && reply.Ok? && Truthy(reply.value) ==>
              r == Step(SetStatus(p.(requestSuccess := true), Notice(Success, SentText)),
                        [Post(RequestPath, RequestFields(p.selected.value, p)), Later(CloseDelayMs, CloseRequestModal),
                         Later(StatusDelayMs, Expire(p.statusEpoch + 1))])
    ensures p.email != "" && p.phone != "" && reply.Err? ==>
              r.page == SetStatus(p, Notice(Error, Http.ErrorText(reply.error, RequestFailedText)))
    ensures r.page.selected == p.selected && r.page.showModal == p.showModal
    ensures r.page.statusEpoch != p.statusEpoch ==>
              && r.page.statusEpoch == p.statusEpoch + 1
              && r.effects[|r.effects| - 1] == Later(StatusDelayMs, Expire(r.page.statusEpoch))
    ensures r.page.statusEpoch == p.statusEpoch ==> r.page == p
  {
    if p.email == "" then
      var q := SetStatus(p, Notice(Error, EmailRequiredText));
      Step(q, StatusTimer(q))
    else if p.phone == "" then
      var q := SetStatus(p, Notice(Error, PhoneRequiredText));
      Step(q, StatusTimer(q))
    else
      var post := Post(RequestPath, RequestFields(p.selected.value, p));
      match reply
      case Ok(v) =>
        if Truthy(v) then
          var q := SetStatus(p.(requestSuccess := true), Notice(Success, SentText));
          Step(q, [post, Later(CloseDelayMs, CloseRequestModal)] + StatusTimer(q))
        else Step(p, [post])
      case Err(e) =>
        var n := Notice(Error, Http.ErrorText(e, RequestFailedText));
        var q := SetStatus(p, n);
        Step(q, [post] + StatusTimer(q))
  }

  /** Every step keeps the form reachable only with an event chosen, so
      `handleSubmit` always finds one. */
  lemma StepsKeepEventChosen(p: Page, e: Event, reply: Result<Json, Http.JsError>)
    requires OpenHasEvent(p)
    ensures OpenHasEvent(RequestClick(p, e))
    ensures OpenHasEvent(CloseModal(p))
    ensures OpenHasEvent(AfterSent(p))
    ensures forall epoch: nat :: OpenHasEvent(ClearStatus(p, epoch))
    ensures p.showModal ==> OpenHasEvent(Submit(p, reply).page)
  {
  }

  /** A message the submit replaces was on a timer the effect's cleanup
      cancelled: when that timer would have fired it changes nothing, so the
      new message stays its full five seconds. A submit that sets no message
      (a falsy reply) leaves the old timer running. */
  lemma SupersededStatusTimerDoesNothing(p: Page, reply: Result<Json, Http.JsError>)
    requires p.selected.Some?
    ensures var q := Submit(p, reply).page;
            q.statusEpoch != p.statusEpoch ==> ClearStatus(q, p.statusEpoch) == q
    ensures var q := Submit(p, reply).page;
            q.statusEpoch == p.statusEpoch ==> ClearStatus(q, p.statusEpoch).status == Cleared
  {
  }

  /** A request is posted exactly when both email and phone are non-empty;
      white space counts as filled. */
  lemma PostedIffContactGiven(p: Page, reply: Result<Json, Http.JsError>)
    requires p.selected.Some?
    ensures Posts(Submit(p, reply).effects) != [] <==> p.email != "" && p.phone != ""
  {
  }

  /** A sent request, once its timer fires, leaves the modal closed with
      empty inputs, so a new request starts from a fresh form; the event it
      was for is still chosen. */
  lemma SentThenClosed(p: Page, v: Json)
    requires p.selected.Some? && p.showModal && p.email != "" && p.phone != "" && Truthy(v)
    ensures var after := AfterSent(Submit(p, Ok(v)).page);
            && !after.showModal && after.email == "" && after.phone == "" && after.message == ""
            && after.status == Notice(Success, SentText) && after.selected == p.selected
            && Submit(RequestClick(after, p.selected.value), Ok(v)).page.status == Notice(Error, EmailRequiredText)
  {
  }
}

=== FILE: http.dfy ===
/** The HTTP client hooks. `useAuth` offers a bearer-token GET and POST that
    normalise every failure into an error object carrying a status;
    `usePost` offers a plain POST that throws an `Error` carrying a message.
    The network exchange is an input, and each hook's observable state is its
    `data`, `loading` and `error` triple. */
module Http {
  import opened Common

  /** The body of a response as `response.json()` sees it. */
  datatype Parse = Parsed(value: Json) | Unparseable(reason: string)

  /** One network exchange: a response with its status, or `fetch` rejecting
      with an error message. */
  datatype Wire = Reply(status: int, body: Parse) | NoResponse(message: string)

  /** `response.ok` */
  predicate IsOk(status: int) {
    200 <= status <= 299
  }

  /** A request as handed to `fetch`. */
  datatype Request = Request(
    verb: string,
    path: string,
    headers: map<string, string>,
    body: Option<map<string, string>>)

  const NotOkText := "Network response was not ok"
  const UnknownText := "An unknown error occurred"

  /* ---------------------------------------------------------------------
     useAuth
     --------------------------------------------------------------------- */

  /** The error object `useAuth` throws. A `status` of 0 stands for an absent
      one; `statusCode` is a property the hook itself never sets. */
  datatype ApiError = ApiError(status: int, statusCode: Option<int>, message: string, data: Option<Json>)

  datatype HookState = HookState(data: Option<Json>, loading: bool, error: Option<ApiError>)

  const Idle := HookState(None, false, None)

  /** The hook state while a call is in flight and after it, and what the
      call returned or threw. */
  datatype Call = Call(during: HookState, after: HookState, outcome: Result<Json, ApiError>)

  datatype AuthCall = AuthCall(request: Request, call: Call)

  /** `parseErrorResponse`: the status of the response, the body's message or
      a fixed text, and the body itself when it parses. A `null` body throws
      reading `errorData.message` inside the same `try`, so it ends like an
      unparseable one. */
  function ParseErrorResponse(status: int, body: Parse): (e: ApiError)
    ensures e.status == status && e.statusCode == None
    ensures e.message != ""
    ensures body.Unparseable? || body == Parsed(JNull) ==> e.message == NotOkText && e.data == None
    ensures body.Parsed? && body.value != JNull ==> e.data == Some(body.value)
    ensures body.Parsed? && !Present(Member(body.value, "message")) ==> e.message == NotOkText
    ensures body.Parsed? && e.message != NotOkText ==> Member(body.value, "message") == Some(JStr(e.message))
  {
    match body
    case Parsed(v) =>
      if v == JNull then ApiError(status, None, NotOkText, None)
      else ApiError(status, None, TextOr(Member(v, "message"), NotOkText), Some(v))
    case Unparseable(_) => ApiError(status, None, NotOkText, None)
  }

  /** The `catch` of both `useAuth` calls: a thrown value that already
      carries a status is rethrown, anything else becomes a 500 carrying its
      message. A thrown `Error` is an `ApiError` with status 0 and no data. */
  function Normalise(thrown: ApiError): (r: ApiError)
    ensures r.status != 0
    ensures thrown.status != 0 ==> r == thrown
    ensures thrown.status == 0 ==> r.status == 500 && r.data == None && r.statusCode == None
    ensures thrown.status == 0 ==> r.message == (if thrown.message == "" then UnknownText else thrown.message)
  {
    if thrown.status != 0 then thrown
    else ApiError(500, None, if thrown.message == "" then UnknownText else thrown.message, None)
  }

  /** The shared body of `fetchWithAuth` and `postWithAuth` once the request
      is sent: success stores and returns the parsed body, and every failure
      is recorded in `error` and thrown with a non-zero status. */
  function Exchange(before: HookState, w: Wire): (c: Call)
    ensures c.during == HookState(before.data, true, None)
    ensures !c.after.loading
    ensures c.outcome.Ok? <==> w.Reply? && IsOk(w.status) && w.body.Parsed?
    ensures c.outcome.Ok? ==> c.outcome.value == w.body.value
                              && c.after == HookState(Some(w.body.value), false, None)
    ensures c.outcome.Err? ==> c.outcome.error.status != 0
                               && c.after == HookState(before.data, false, Some(c.outcome.error))
    ensures w.Reply? && !IsOk(w.status) && w.status != 0 ==>
              c.outcome == Err(ParseErrorResponse(w.status, w.body))
    ensures w.NoResponse? ==>
              c.outcome == Err(ApiError(500, None, if w.message == "" then UnknownText else w.message, None))
  {
    var during := HookState(before.data, true, None);
    match w
    case NoResponse(m) =>
      var e := Normalise(ApiError(0, None, m, None));
      Call(during, HookState(before.data, false, Some(e)), Err(e))
    case Reply(status, body) =>
      if IsOk(status) then
        match body
        case Parsed(v) => Call(during, HookState(Some(v), false, None), Ok(v))
        case Unparseable(reason) =>
          var e := Normalise(ApiError(0, None, reason, None));
          Call(during, HookState(before.data, false, Some(e)), Err(e))
      else
        var e := Normalise(ParseErrorResponse(status, body));
        Call(during, HookState(before.data, false, Some(e)), Err(e))
  }

  /** The bearer header of `useAuth`: the token interpolated into a template,
      so a missing token is sent as the text `null`. */
  function BearerHeaders(token: Option<string>): (h: map<string, string>)
    ensures h.Keys == {"Content-Type", "Authorization"}
    ensures h["Authorization"] == "Bearer " + token.GetOr("null")
  {
    map["Content-Type" := "application/json", "Authorization" := "Bearer " + token.GetOr("null")]
  }

  /** `fetchWithAuth(url, token)` */
  function FetchWithAuth(before: HookState, path: string, token: Option<string>, w: Wire): (r: AuthCall)
    ensures r.request == Request("GET", path, BearerHeaders(token), None)
    ensures r.call == Exchange(before, w)
  {
    AuthCall(Request("GET", path, BearerHeaders(token), None), Exchange(before, w))
  }

  /** `postWithAuth(url, token, data)`: the body is attached only when there
      is data to send. */
  function PostWithAuth(before: HookState, path: string, token: Option<string>,
                        data: Option<map<string, string>>, w: Wire): (r: AuthCall)
    ensures r.request.verb == "POST" && r.request.path == path
    ensures r.request.headers == BearerHeaders(token)
    ensures r.request.body.Some? <==> data.Some?
    ensures data.Some? ==> r.request.body == data
    ensures r.call == Exchange(before, w)
  {
    AuthCall(Request("POST", path, BearerHeaders(token), data), Exchange(before, w))
  }

  /* ---------------------------------------------------------------------
     usePost
     --------------------------------------------------------------------- */

  /** A JavaScript `Error` as the pages read it: its message, and the
      `response.data.errors` field map some pages look for. */
  datatype JsError = JsError(message: string, fieldErrors: Option<map<string, string>>)

  /** The failure a `TypeError` thrown inside a page's `try` block becomes,
      such as reading a property of a `null` reply: the engine's message
      (`typeError`, a parameter) and no server field errors. */
  function Thrown(typeError: string): (e: JsError)
    ensures e.message == typeError && e.fieldErrors.None?
  {
    JsError(typeError, None)
  }

  /** `err.message || fallback`: the error's own message, else the page's text. */
  function ErrorText(e: JsError, fallback: string): (t: string)
    ensures e.message != "" ==> t == e.message
    ensures e.message == "" ==> t == fallback
  {
    if e.message != "" then e.message else fallback
  }

  datatype PostState = PostState(data: Option<Json>, loading: bool, error: Option<JsError>)

  datatype PostCall = PostCall(request: Request, during: PostState, after: PostState, outcome: Result<Json, JsError>)

  /** The headers of `postData`: a bearer header only for a non-empty token. */
  function PostHeaders(token: Option<string>): (h: map<string, string>)
    ensures "Content-Type" in h && h["Content-Type"] == "application/json"
    ensures "Authorization" in h <==> token.Some? && token.value != ""
    ensures "Authorization" in h ==> h["Authorization"] == "Bearer " + token.value
    ensures h.Keys <= {"Content-Type", "Authorization"}
  {
    var base := map["Content-Type" := "application/json"];
    if token.Some? && token.value != "" then base["Authorization" := "Bearer " + token.value] else base
  }

  /** The message of the error thrown for a non-2xx response: the body's
      message, or a fixed text when there is none or the body does not parse
      (the parse failure is caught and read as `{}`). A `null` body parses,
      and reading its `message` throws a `TypeError` instead, whose message
      (`typeError`) is what is thrown. */
  function NotOkMessage(body: Parse, typeError: string): (m: string)
    ensures body != Parsed(JNull) ==> m != ""
    ensures body == Parsed(JNull) ==> m == typeError
    ensures body.Unparseable? ==> m == NotOkText
    ensures body.Parsed? && body.value != JNull && !Present(Member(body.value, "message")) ==> m == NotOkText
    ensures m != NotOkText && body != Parsed(JNull) ==> body.Parsed? && Member(body.value, "message") == Some(JStr(m))
  {
    match body
    case Parsed(v) => if v == JNull then typeError else TextOr(Member(v, "message"), NotOkText)
    case Unparseable(_) => NotOkText
  }

  /** `postData(url, data, token)`: success stores and returns the parsed
      body; every failure is recorded in `error` and rethrown unchanged,
      including the `TypeError` (message `typeError`) of a non-2xx `null`
      body. */
  function PostData(before: PostState, path: string, data: map<string, string>,
                    token: Option<string>, w: Wire, typeError: string): (c: PostCall)
    ensures c.request == Request("POST", path, PostHeaders(token), Some(data))
    ensures c.during == PostState(before.data, true, None)
    ensures !c.after.loading
    ensures c.outcome.Ok? <==> w.Reply? && IsOk(w.status) && w.body.Parsed?
    ensures c.outcome.Ok? ==> c.outcome.value == w.body.value
                              && c.after == PostState(Some(w.body.value), false, None)
    ensures c.outcome.Err? ==> c.after == PostState(before.data, false, Some(c.outcome.error))
    ensures c.outcome.Err? ==> c.outcome.error.fieldErrors == None
    ensures w.Reply? && !IsOk(w.status) && w.body != Parsed(JNull) ==> c.outcome == Err(JsError(NotOkMessage(w.body, typeError), None))
    ensures w.Reply? && !IsOk(w.status) && w.body == Parsed(JNull) ==> c.outcome == Err(Thrown(typeError))
    ensures w.NoResponse? ==> c.outcome == Err(JsError(w.message, None))
  {
    var request := Request("POST", path, PostHeaders(token), Some(data));
    var during := PostState(before.data, true, None);
    var outcome: Result<Json, JsError> :=
      match w
      case NoResponse(m) => Err(JsError(m, None))
      case Reply(status, body) =>
        if !IsOk(status) then Err(JsError(NotOkMessage(body, typeError), None))
        else match body
          case Parsed(v) => Ok(v)
          case Unparseable(reason) => Err(JsError(reason, None));
    match outcome
    case Ok(v) => PostCall(request, during, PostState(Some(v), false, None), outcome)
    case Err(e) => PostCall(request, during, PostState(before.data, false, Some(e)), outcome)
  }

  /** The two hooks read a reply alike: they succeed on the same replies with
      the same body, and for a non-2xx reply whose body is not `null` the
      message `usePost` throws is the message of the error `useAuth` throws. */
  lemma HooksAgree(before: HookState, beforePost: PostState, path: string, data: map<string, string>,
                   token: Option<string>, w: Wire, typeError: string)
    ensures var a := Exchange(before, w).outcome;
            var p := PostData(beforePost, path, data, token, w, typeError).outcome;
            && (a.Ok? <==> p.Ok?)
            && (a.Ok? ==> a.value == p.value)
            && (w.Reply? && !IsOk(w.status) && w.status != 0 && w.body != Parsed(JNull) ==>
                  a.Err? && p.Err? && a.error.message == p.error.message)
  {
  }
}

=== FILE: in_view.dfy ===
/** The reveal-on-scroll hook (`useInView`): the observer callback as a state
    machine over the last reported intersection, the instant of the last
    accepted enter, whether an enter was ever accepted, and the visible flag. */
module InView {
  import opened Common

  /** The hook's parameters: reveal once (then stop observing), and the
      minimum interval between two accepted enters. */
  datatype Options = Options(once: bool, minEnterIntervalMs: int)

  const Defaults := Options(true, 220)

  /** `active` is false once the effect was cleaned up, or when no observer
      was ever created. */
  datatype Observer = Observer(
    lastIntersecting: bool,
    lastEnterTs: int,
    hasEntered: bool,
    isInView: bool,
    active: bool)

  /** The refs and state right after subscribing. */
  const Fresh := Observer(false, 0, false, false, true)

  /** One intersection entry and the instant (`performance.now()`) it is handled. */
  datatype Entry = Entry(isIntersecting: bool, now: int)

  /** The mount effect: without an element or without observer support the
      content is shown at once and nothing is observed. */
  function Mount(hasNode: bool, supported: bool): (s: Observer)
    ensures !hasNode || !supported ==> s.isInView && !s.active
    ensures hasNode && supported ==> s == Fresh
  {
    if !hasNode || !supported then Observer(false, 0, false, true, false) else Fresh
  }

  /** The cleanup: later callbacks are ignored. */
  function Unsubscribe(s: Observer): Observer {
    s.(active := false)
  }

  /** The result of handling one entry: the next state, and whether the
      target is unobserved. */
  datatype Handled = Handled(state: Observer, unobserve: bool)

  /** The callback for one entry, as written: a repeated state is ignored; an
      enter within the interval after `lastEnterTs` only records that the
      element intersects; an accepted enter shows the element; an exit hides
      it only when not `once` and only after an accepted enter. */
  function OnEntry(o: Options, s: Observer, e: Entry): (r: Handled)
    ensures e.isIntersecting == s.lastIntersecting ==> r == Handled(s, false)
    ensures e.isIntersecting && !s.lastIntersecting && e.now - s.lastEnterTs < o.minEnterIntervalMs ==>
              r == Handled(s.(lastIntersecting := true), false)
    ensures e.isIntersecting && !s.lastIntersecting && e.now - s.lastEnterTs >= o.minEnterIntervalMs ==>
              r == Handled(Observer(true, e.now, true, true, s.active), o.once)
    ensures !e.isIntersecting && s.lastIntersecting && o.once ==> r == Handled(s, false)
    ensures !e.isIntersecting && s.lastIntersecting && !o.once ==>
              r == Handled(s.(lastIntersecting := false, isInView := s.isInView && !s.hasEntered), false)
  {
    if e.isIntersecting == s.lastIntersecting then Handled(s, false)
    else if e.isIntersecting then
      if e.now - s.lastEnterTs < o.minEnterIntervalMs then Handled(s.(lastIntersecting := true), false)
      else Handled(s.(lastEnterTs := e.now, lastIntersecting := true, hasEntered := true, isInView := true), o.once)
    else if !o.once then
      Handled(s.(lastIntersecting := false, isInView := if s.hasEntered then false else s.isInView), false)
    else Handled(s, false)
  }

  /** The callback for the entries of successive batches; nothing happens
      after the cleanup. */
  function Run(o: Options, s: Observer, entries: seq<Entry>): (r: Observer)
    ensures !s.active ==> r == s
    ensures r.active == s.active
    decreases |entries|
  {
    if !s.active || entries == [] then s
    else Run(o, OnEntry(o, s, entries[0]).state, entries[1..])
  }

  /** Shown only after an accepted enter: the hook never reveals an element
      it has not seen enter. */
  ghost predicate Consistent(s: Observer) {
    s.isInView ==> s.hasEntered
  }

  lemma {:induction false} RunKeepsConsistent(o: Options, s: Observer, entries: seq<Entry>)
    requires Consistent(s)
    ensures Consistent(Run(o, s, entries))
    decreases |entries|
  {
    if s.active && entries != [] {
      RunKeepsConsistent(o, OnEntry(o, s, entries[0]).state, entries[1..]);
    }
  }

  /** With `once`, a revealed element stays revealed. */
  lemma {:induction false} OnceStaysShown(o: Options, s: Observer, entries: seq<Entry>)
    requires o.once && s.isInView
    ensures Run(o, s, entries).isInView
    decreases |entries|
  {
    if s.active && entries != [] {
      OnceStaysShown(o, OnEntry(o, s, entries[0]).state, entries[1..]);
    }
  }

  /* ---------------------------------------------------------------------
     The first enter
     --------------------------------------------------------------------- */

  /** The state a throttled first enter leaves with `once`: intersecting
      recorded, nothing shown. */
  ghost predicate StuckHidden(s: Observer) {
    s.lastIntersecting && !s.isInView && !s.hasEntered
  }

  lemma {:induction false} StuckHiddenStays(s: Observer, entries: seq<Entry>)
    requires StuckHidden(s)
    ensures StuckHidden(Run(Defaults, s, entries))
    decreases |entries|
  {
    if s.active && entries != [] {
      StuckHiddenStays(OnEntry(Defaults, s, entries[0]).state, entries[1..]);
    }
  }

  /** As written, `lastEnterTs` starts at 0, so an enter handled less than
      220 ms after the time origin is throttled although nothing was accepted
      before. It still records the element as intersecting; with `once`
      every later enter is then a repeat and every exit is ignored, so the
      element is never revealed, whatever entries follow. */
  lemma EarlyFirstEnterNeverShows(t: int, later: seq<Entry>)
    requires 0 <= t < 220
    ensures !Run(Defaults, Fresh, [Entry(true, t)] + later).isInView
  {
    var first := OnEntry(Defaults, Fresh, Entry(true, t)).state;
    assert ([Entry(true, t)] + later)[1..] == later;
    StuckHiddenStays(first, later);
  }

  /** The evidently intended callback: enters are throttled only after an
      accepted enter, so the interval is measured from a real enter. */
  function OnEntryFixed(o: Options, s: Observer, e: Entry): (r: Handled)
    ensures s.hasEntered ==> r == OnEntry(o, s, e)
    ensures !s.hasEntered && e.isIntersecting && !s.lastIntersecting ==>
              r == Handled(Observer(true, e.now, true, true, s.active), o.once)
  {
    if !s.hasEntered && e.isIntersecting && !s.lastIntersecting then
      Handled(s.(lastEnterTs := e.now, lastIntersecting := true, hasEntered := true, isInView := true), o.once)
    else OnEntry(o, s, e)
  }

  function RunFixed(o: Options, s: Observer, entries: seq<Entry>): (r: Observer)
    ensures !s.active ==> r == s
    decreases |entries|
  {
    if !s.active || entries == [] then s
    else RunFixed(o, OnEntryFixed(o, s, entries[0]).state, entries[1..])
  }

  /** With the correction the first enter always reveals the element, at any
      instant, and with `once` it stays revealed. */
  lemma {:induction false} FirstEnterShows(o: Options, t: int, later: seq<Entry>)
    requires o.once
    ensures OnEntryFixed(o, Fresh, Entry(true, t)).state.isInView
    ensures RunFixed(o, Fresh, [Entry(true, t)] + later).isInView
  {
    var first := OnEntryFixed(o, Fresh, Entry(true, t)).state;
    assert ([Entry(true, t)] + later)[1..] == later;
    FixedOnceStaysShown(o, first, later);
  }

  lemma {:induction false} FixedOnceStaysShown(o: Options, s: Observer, entries: seq<Entry>)
    requires o.once && s.isInView && s.hasEntered
    ensures RunFixed(o, s, entries).isInView
    decreases |entries|
  {
    if s.active && entries != [] {
      FixedOnceStaysShown(o, OnEntryFixed(o, s, entries[0]).state, entries[1..]);
    }
  }
}

=== FILE: otp.dfy ===
/** The email verification page (`verify.jsx`): six one-character code boxes
    edited by typing, backspace and paste, and the verify and resend
    requests. */
module Otp {
  import opened Common
  import Http
  import AuthForms

  /** The code boxes: always six. */
  type Code = s: seq<string> | |s| == 6 witness ["", "", "", "", "", ""]

  /** A box index. */
  type Slot = i: int | 0 <= i < 6

  const Empty: Code := ["", "", "", "", "", ""]

  /** Every box holds at most one character. */
  ghost predicate SingleChars(otp: Code) {
    forall i :: 0 <= i < 6 ==> |otp[i]| <= 1
  }

  /** The page state: the boxes and the response message. */
  datatype Page = Page(otp: Code, notice: Notice)

  const Initial := Page(Empty, Cleared)

  datatype Step = Step(page: Page, effects: seq<Effect>)

  const VerifyPath := "/auth/verify-email"
  const ResendPath := "/auth/send-verification"
  const NoticeMs := 3000

  const EnterCodeText := "Please enter the 6-digit code."
  const VerifiedText := "Verification successful!"
  const NotVerifiedText := "Verification failed."
  const VerifyErrorText := "Verification failed. Please try again."
  const ResentText := "Verification code resent!"
  const NotResentText := "Failed to resend code."
  const ResendErrorText := "Failed to resend code. Please try again."

  /* ---------------------------------------------------------------------
     Editing the boxes
     --------------------------------------------------------------------- */

  /** `handleChange(e, idx)`: the first non-digit of the box's text is
      removed; nothing happens if nothing is left, otherwise the box keeps the
      first remaining character and focus moves on when exactly one was left. */
  function HandleChange(p: Page, idx: Slot, raw: string): (r: Step)
    ensures var v := StripFirstNonDigit(raw);
            && (v == "" ==> r == Step(p, []))
            && (v != "" ==> r.page == p.(otp := p.otp[idx := [v[0]]]))
            && (v != "" && JsLength(v) == 1 && idx < 5 ==> r.effects == [Focus(idx + 1)])
            && (v != "" && !(JsLength(v) == 1 && idx < 5) ==> r.effects == [])
  {
    var v := StripFirstNonDigit(raw);
    if v == "" then Step(p, [])
    else Step(p.(otp := p.otp[idx := [v[0]]]), if JsLength(v) == 1 && idx < 5 then [Focus(idx + 1)] else [])
  }

  /** Typing one character: a digit fills the box and no other, a non-digit
      changes nothing; either way every box still holds at most one character. */
  lemma TypingOneCharacter(p: Page, idx: Slot, c: char)
    requires SingleChars(p.otp)
    ensures IsDigit(c) ==> HandleChange(p, idx, [c]).page.otp == p.otp[idx := [c]]
    ensures !IsDigit(c) ==> HandleChange(p, idx, [c]) == Step(p, [])
    ensures SingleChars(HandleChange(p, idx, [c]).page.otp)
  {
    if !IsDigit(c) {
      assert FirstNonDigit([c]) == 0;
    }
  }

  /** Typing that leaves more than one character still fills only the box:
      since just one non-digit is removed, two non-digits leave the second. */
  lemma TypingKeepsFirstSurvivor(p: Page, idx: Slot, raw: string)
    requires SingleChars(p.otp)
    ensures var r := HandleChange(p, idx, raw).page.otp;
            && (forall i :: 0 <= i < 6 && i != idx ==> r[i] == p.otp[i])
            && |r[idx]| <= 1
    ensures HandleChange(p, idx, "ab").page.otp[idx] == "b"
  {
    assert FirstNonDigit("ab") == 0;
    assert StripFirstNonDigit("ab") == "b";
  }

  /** `handleKeyDown(e, idx)`: backspace clears a filled box, or moves focus
      back from an empty one; other keys do nothing. */
  function HandleKeyDown(p: Page, idx: Slot, key: string): (r: Step)
    ensures key != "Backspace" ==> r == Step(p, [])
    ensures key == "Backspace" && p.otp[idx] != "" ==> r == Step(p.(otp := p.otp[idx := ""]), [])
    ensures key == "Backspace" && p.otp[idx] == "" && idx > 0 ==> r == Step(p, [Focus(idx - 1)])
    ensures key == "Backspace" && p.otp[idx] == "" && idx == 0 ==> r == Step(p, [])
  {
    if key != "Backspace" then Step(p, [])
    else if p.otp[idx] != "" then Step(p.(otp := p.otp[idx := ""]), [])
    else if idx > 0 then Step(p, [Focus(idx - 1)])
    else Step(p, [])
  }

  /** The digits a paste keeps: every non-digit removed, at most six. */
  function Pasted(text: string): (d: string)
    ensures |d| <= 6 && AllDigits(d)
    ensures |KeepDigits(text)| >= 6 ==> d == KeepDigits(text)[..6]
    ensures |KeepDigits(text)| < 6 ==> d == KeepDigits(text)
  {
    Take(KeepDigits(text), 6)
  }

  /** The boxes after writing `d` into the first `|d|` of them. */
  function Overwrite(otp: Code, d: string): (r: Code)
    requires |d| <= 6
  {
    seq(6, i requires 0 <= i < 6 => if i < |d| then [d[i]] else otp[i])
  }

  /** `handlePaste(e)`: the pasted digits fill the first boxes, the others
      are kept, and focus moves to the box after the last digit (the last box
      at most); a paste without digits changes nothing. */
  function HandlePaste(p: Page, text: string): (r: Step)
    ensures Pasted(text) == "" ==> r == Step(p, [])
    ensures var d := Pasted(text);
            d != "" ==>
              && r.page.notice == p.notice
              && (forall i :: 0 <= i < |d| ==> r.page.otp[i] == [d[i]])
              && (forall i :: |d| <= i < 6 ==> r.page.otp[i] == p.otp[i])
              && r.effects == [Focus(if |d| < 5 then |d| else 5)]
  {
    var d := Pasted(text);
    if d == "" then Step(p, [])
    else Step(p.(otp := Overwrite(p.otp, d)), [Focus(if |d| < 5 then |d| else 5)])
  }

  /* ---------------------------------------------------------------------
     Verify and resend
     --------------------------------------------------------------------- */

  /** `otp.join("")` */
  function Joined(otp: seq<string>): string {
    if otp == [] then "" else otp[0] + Joined(otp[1..])
  }

  /** With at most one character per box, the joined code has six characters
      exactly when every box is filled. */
  lemma {:induction false} JoinedLength(otp: seq<string>)
    requires forall i :: 0 <= i < |otp| ==> |otp[i]| <= 1
    ensures |Joined(otp)| <= |otp|
    ensures |Joined(otp)| == |otp| <==> forall i :: 0 <= i < |otp| ==> otp[i] != ""
  {
    if otp != [] {
      JoinedLength(otp[1..]);
      assert forall i :: 1 <= i < |otp| ==> otp[1..][i - 1] == otp[i];
    }
  }

  /** `handleVerifyOtp`, with the page a verified user is sent to as a
      parameter: a code that is not six characters long is refused without a
      request. Otherwise the code is posted with the signed-in user's email.
      `user` is that email, and `None` when no one is signed in: reading
      `user.email` of `null` then throws before any request, and the catch
      shows that `TypeError`'s message (`typeError`). A `null` reply throws
      the same way reading `response.success`. The message is cleared after
      three seconds in every case. */
  function Verify(p: Page, user: Option<string>, reply: Result<Json, Http.JsError>, typeError: string,
                  profile: string): (r: Step)
    ensures |Joined(p.otp)| != 6 ==>
              r == Step(p.(notice := Notice(Error, EnterCodeText)), [Later(NoticeMs, ClearNotice)])
    ensures |Joined(p.otp)| == 6 && user.None? ==>
              r == Step(p.(notice := Notice(Error, Http.ErrorText(Http.Thrown(typeError), VerifyErrorText))),
                        [Later(NoticeMs, ClearNotice)])
    ensures |Joined(p.otp)| == 6 && user.Some? ==>
              |r.effects| >= 2 && r.effects[0] == Post(VerifyPath, map["email" := user.value, "code" := Joined(p.otp)])
    ensures r.effects[|r.effects| - 1] == Later(NoticeMs, ClearNotice)
    ensures r.page.otp == p.otp
    ensures Redirect(profile, 0) in r.effects <==>
              |Joined(p.otp)| == 6 && user.Some? && reply.Ok? && Present(Member(reply.value, "success"))
    ensures r.page.notice.kind == Success <==> Redirect(profile, 0) in r.effects
    ensures |Joined(p.otp)| == 6 && user.Some? && reply.Err? ==>
              r.page.notice == Notice(Error, Http.ErrorText(reply.error, VerifyErrorText))
    ensures |Joined(p.otp)| == 6 && user.Some? && reply == Ok(JNull) ==>
              r.page.notice == Notice(Error, Http.ErrorText(Http.Thrown(typeError), VerifyErrorText))
  {
    var code := Joined(p.otp);
    if |code| != 6 then
      Step(p.(notice := Notice(Error, EnterCodeText)), [Later(NoticeMs, ClearNotice)])
    else if user.None? then
      Step(p.(notice := Notice(Error, Http.ErrorText(Http.Thrown(typeError), VerifyErrorText))),
           [Later(NoticeMs, ClearNotice)])
    else
      var post := Post(VerifyPath, map["email" := user.value, "code" := code]);
      match reply
      case Ok(body) =>
        if body == JNull then
          Step(p.(notice := Notice(Error, Http.ErrorText(Http.Thrown(typeError), VerifyErrorText))),
               [post, Later(NoticeMs, ClearNotice)])
        else if Present(Member(body, "success")) then
          Step(p.(notice := Notice(Success, TextOr(Member(body, "message"), VerifiedText))),
               [post, Redirect(profile, 0), Later(NoticeMs, ClearNotice)])
        else
          Step(p.(notice := Notice(Error, TextOr(Member(body, "message"), NotVerifiedText))),
               [post, Later(NoticeMs, ClearNotice)])
      case Err(e) =>
        Step(p.(notice := Notice(Error, Http.ErrorText(e, VerifyErrorText))),
             [post, Later(NoticeMs, ClearNotice)])
  }

  /** The page the handler as written sends a verified user to. */
  const ProfilePathAsWritten := "/profile"

  /** `handleVerifyOtp` as written: it navigates to `/profile`. */
  function HandleVerifyOtpAsWritten(p: Page, user: Option<string>, reply: Result<Json, Http.JsError>,
                                    typeError: string): (r: Step)
    ensures forall e :: e in r.effects && e.Redirect? ==> e.path == ProfilePathAsWritten
  {
    Verify(p, user, reply, typeError, ProfilePathAsWritten)
  }

  /** A verified user is sent to a path no route matches. */
  lemma VerifiedGoesNowhere(p: Page, email: string, body: Json, typeError: string)
    requires |Joined(p.otp)| == 6 && Present(Member(body, "success"))
    ensures Redirect(ProfilePathAsWritten, 0) in HandleVerifyOtpAsWritten(p, Some(email), Ok(body), typeError).effects
    ensures ProfilePathAsWritten !in AuthForms.Routes
  {
  }

  /** The evidently intended handler: a verified user is sent to the
      profile route, `/auth/profile`, as the sign-in page sends a signed-in
      one. */
  function HandleVerifyOtp(p: Page, user: Option<string>, reply: Result<Json, Http.JsError>,
                           typeError: string): (r: Step)
    ensures forall e :: e in r.effects && e.Redirect? ==> e.path == AuthForms.ProfilePage && e.path in AuthForms.Routes
    ensures Redirect(AuthForms.ProfilePage, 0) in r.effects <==>
              |Joined(p.otp)| == 6 && user.Some? && reply.Ok? && Present(Member(reply.value, "success"))
  {
    Verify(p, user, reply, typeError, AuthForms.ProfilePage)
  }

  /** `handleResendCode`: the signed-in user's email is posted; with no one
      signed in (`user` is `None`) reading `user.email` throws before the
      request. A successful resend empties the boxes and focuses the first;
      a `null` reply throws reading `response.success`; a thrown `TypeError`
      shows its message (`typeError`). The message is cleared after three
      seconds in every case. */
  function HandleResendCode(p: Page, user: Option<string>, reply: Result<Json, Http.JsError>, typeError: string): (r: Step)
    ensures user.None? ==>
              r == Step(p.(notice := Notice(Error, Http.ErrorText(Http.Thrown(typeError), ResendErrorText))),
                        [Later(NoticeMs, ClearNotice)])
    ensures user.Some? ==> |r.effects| >= 2 && r.effects[0] == Post(ResendPath, map["email" := user.value])
    ensures r.effects[|r.effects| - 1] == Later(NoticeMs, ClearNotice)
    ensures user.Some? && reply.Ok? && Present(Member(reply.value, "success")) ==>
              r.page == Page(Empty, Notice(Success, TextOr(Member(reply.value, "message"), ResentText)))
              && Focus(0) in r.effects
    ensures !(user.Some? && reply.Ok? && Present(Member(reply.value, "success"))) ==>
              r.page.otp == p.otp && r.page.notice.kind == Error
    ensures user.Some? && reply == Ok(JNull) ==>
              r.page.notice == Notice(Error, Http.ErrorText(Http.Thrown(typeError), ResendErrorText))
  {
    if user.None? then
      Step(p.(notice := Notice(Error, Http.ErrorText(Http.Thrown(typeError), ResendErrorText))),
           [Later(NoticeMs, ClearNotice)])
    else
      var post := Post(ResendPath, map["email" := user.value]);
      match reply
      case Ok(body) =>
        if body == JNull then
          Step(p.(notice := Notice(Error, Http.ErrorText(Http.Thrown(typeError), ResendErrorText))),
               [post, Later(NoticeMs, ClearNotice)])
        else if Present(Member(body, "success")) then
          Step(Page(Empty, Notice(Success, TextOr(Member(body, "message"), ResentText))),
               [post, Focus(0), Later(NoticeMs, ClearNotice)])
        else
          Step(p.(notice := Notice(Error, TextOr(Member(body, "message"), NotResentText))),
               [post, Later(NoticeMs, ClearNotice)])
      case Err(e) =>
        Step(p.(notice := Notice(Error, Http.ErrorText(e, ResendErrorText))),
             [post, Later(NoticeMs, ClearNotice)])
  }

  /** A request goes out exactly when someone is signed in (and, for
      verify, the code is complete): with no user neither handler posts,
      whatever the reply would have been. */
  lemma RequestNeedsUser(p: Page, user: Option<string>, reply: Result<Json, Http.JsError>, typeError: string)
    ensures (exists e :: e in HandleVerifyOtp(p, user, reply, typeError).effects && e.Post?) <==>
              user.Some? && |Joined(p.otp)| == 6
    ensures (exists e :: e in HandleResendCode(p, user, reply, typeError).effects && e.Post?) <==> user.Some?
  {
    var v := HandleVerifyOtp(p, user, reply, typeError).effects;
    var s := HandleResendCode(p, user, reply, typeError).effects;
    if user.Some? && |Joined(p.otp)| == 6 {
      assert v[0] in v;
    }
    if user.Some? {
      assert s[0] in s;
    }
  }

  /** Every edit keeps at most one character per box, so the verify guard
      passes exactly when all six boxes are filled. */
  lemma {:induction false} EditsKeepSingleChars(p: Page, idx: Slot, raw: string, key: string, text: string)
    requires SingleChars(p.otp)
    ensures SingleChars(HandleChange(p, idx, raw).page.otp)
    ensures SingleChars(HandleKeyDown(p, idx, key).page.otp)
    ensures SingleChars(HandlePaste(p, text).page.otp)
    ensures |Joined(p.otp)| == 6 <==> forall i :: 0 <= i < 6 ==> p.otp[i] != ""
  {
    JoinedLength(p.otp);
  }

  /** A paste of six or more digits fills every box, and verifying then posts
      exactly the first six digits pasted with the signed-in user's email. */
  lemma {:induction false} PasteThenVerify(p: Page, text: string, email: string, reply: Result<Json, Http.JsError>,
                                          typeError: string)
    requires |KeepDigits(text)| >= 6
    ensures var pasted := HandlePaste(p, text).page;
            HandleVerifyOtp(pasted, Some(email), reply, typeError).effects[0]
              == Post(VerifyPath, map["email" := email, "code" := KeepDigits(text)[..6]])
  {
    var d := Pasted(text);
    var otp := HandlePaste(p, text).page.otp;
    assert otp == Singles(d);
    JoinedSingles(d);
  }

  /** One box per character. */
  function Singles(d: string): seq<string> {
    seq(|d|, i requires 0 <= i < |d| => [d[i]])
  }

  lemma {:induction false} JoinedSingles(d: string)
    ensures Joined(Singles(d)) == d
    decreases |d|
  {
    if d != [] {
      assert Singles(d)[1..] == Singles(d[1..]);
      JoinedSingles(d[1..]);
    }
  }

  /** After a successful resend the boxes are empty, so an immediate verify
      is refused without a request. */
  lemma ResendThenVerifyIsRefused(p: Page, email: string, body: Json, reply: Result<Json, Http.JsError>,
                                  typeError: string)
    requires Present(Member(body, "success"))
    ensures var q := HandleResendCode(p, Some(email), Ok(body), typeError).page;
            HandleVerifyOtp(q, Some(email), reply, typeError) == Step(q.(notice := Notice(Error, EnterCodeText)), [Later(NoticeMs, ClearNotice)])
  {
    assert Joined(Empty) == "" by {
      assert Empty[1..][1..][1..][1..][1..][1..] == [];
    }
  }
}

=== FILE: password_reset.dfy ===
/** The three password-reset pages: request a code by email
    (`send-verification-code.jsx`), check the code (`verify-reset-code.jsx`),
    and set the new password with the token the check returns
    (`reset-password.jsx`). The pages hand the email and the token to each
    other through query strings. */
module PasswordReset {
  import opened Common
  import opened Uri
  import Http

  const RequestPath := "/user/request-password-reset"
  const VerifyCodePath := "/user/verify-reset-code"
  const ResetPath := "/user/reset-password"
  const VerifyPage := "/auth/password/verify"
  const ResetPage := "/auth/password/reset"
  const LoginPage := "/auth/login"
  const LoginDelayMs := 1200

  const EnterEmailText := "Please enter your email address."
  const SentText := "Verification code sent to your email."
  const NotSentText := "Failed to send verification code."
  const EnterEmailAndCodeText := "Enter your email and the 6-digit code."
  const InvalidCodeText := "Invalid or expired code."
  const CodeErrorText := "Verification failed. Please try again."
  const MissingTokenText := "Missing reset token. Please restart the reset process."
  const ShortPasswordText := "Password must be at least 8 characters."
  const MismatchText := "Password and confirmation do not match."
  const ResetDoneText := "Password reset successfully."
  const ResetFailedText := "Failed to reset password."

  /** What a submit leaves: the page's `{messageType, message}` pair (cleared
      first, then set at most once) and the effects. The inputs are not
      changed by a submit. */
  datatype Outcome = Outcome(notice: Notice, effects: seq<Effect>)

  /** `(email || "").trim().toLowerCase()` */
  function NormalEmail(email: string): (e: string)
    ensures |e| <= |email|
    ensures e == "" <==> Blank(email)
  {
    TrimEmptyIffBlank(email);
    ToLower(Trim(email))
  }

  /** A string of characters inside the Basic Multilingual Plane has as many
      UTF-16 code units as characters. */
  lemma {:induction false} JsLengthOfBmp(s: string)
    requires forall i :: 0 <= i < |s| ==> s[i] as int <= 0xFFFF
    ensures JsLength(s) == |s|
    decreases |s|
  {
    if s != [] {
      JsLengthOfBmp(s[1..]);
    }
  }

  /* ---------------------------------------------------------------------
     Requesting a code
     --------------------------------------------------------------------- */

  /** The address of the code page, carrying the email. */
  function VerifyPageUrl(email: string): string {
    WithParam(VerifyPage, "email", email)
  }

  /** `handleSubmit` of the request page: a blank email is refused without a
      request; otherwise the normalised email is posted, and on success the
      user is sent to the code page with that email in its query. */
  function RequestCode(email: string, reply: Result<Json, Http.JsError>): (r: Outcome)
    ensures NormalEmail(email) == "" ==> r == Outcome(Notice(Error, EnterEmailText), [])
    ensures NormalEmail(email) != "" ==>
              |r.effects| >= 1 && r.effects[0] == Post(RequestPath, map["email" := NormalEmail(email)])
    ensures r.notice.kind == Success <==>
              NormalEmail(email) != "" && reply.Ok? && Present(Member(reply.value, "success"))
    ensures r.notice.kind == Success ==> r.effects == [r.effects[0], Redirect(VerifyPageUrl(NormalEmail(email)), 0)]
    ensures r.notice.kind != Success ==> r.notice.kind == Error && |r.effects| <= 1
    ensures NormalEmail(email) != "" && reply.Err? ==> r.notice.text == Http.ErrorText(reply.error, NotSentText)
  {
    var e := NormalEmail(email);
    if e == "" then Outcome(Notice(Error, EnterEmailText), [])
    else
      var post := Post(RequestPath, map["email" := e]);
      match reply
      case Ok(body) =>
        if Present(Member(body, "success")) then
          Outcome(Notice(Success, TextOr(Member(body, "message"), SentText)), [post, Redirect(VerifyPageUrl(e), 0)])
        else Outcome(Notice(Error, TextOr(Member(body, "message"), NotSentText)), [post])
      case Err(err) => Outcome(Notice(Error, Http.ErrorText(err, NotSentText)), [post])
  }

  /* ---------------------------------------------------------------------
     Checking the code
     --------------------------------------------------------------------- */

  /** The code input's `onChange`: digits only, at most six. */
  function CodeInput(raw: string): (code: string)
    ensures AllDigits(code) && |code| <= 6
    ensures |KeepDigits(raw)| <= 6 ==> code == KeepDigits(raw)
    ensures |KeepDigits(raw)| > 6 ==> code == KeepDigits(raw)[..6]
  {
    Take(KeepDigits(raw), 6)
  }

  /** The reset token of a reply that reports success and carries one. A
      truthy token that is not a JSON string is treated as missing. */
  function ResetToken(body: Json): (t: Option<string>)
    ensures t.Some? ==> t.value != ""
  {
    var data := Member(body, "data");
    var token := if data.Some? then Member(data.value, "resetToken") else None;
    if Present(Member(body, "success")) && Present(token) && token.value.JStr? then Some(token.value.s)
    else None
  }

  /** The address of the reset page, carrying the token. */
  function ResetPageUrl(token: string): string {
    WithParam(ResetPage, "token", token)
  }

  /** `handleSubmit` of the code page: the email is normalised and the code
      trimmed; an empty email or a code that is not six units long is refused
      without a request. A reply with success and a reset token leads to the
      reset page; any other reply or failure shows an error. */
  function CheckCode(email: string, code: string, reply: Result<Json, Http.JsError>): (r: Outcome)
    ensures NormalEmail(email) == "" || JsLength(Trim(code)) != 6 ==>
              r == Outcome(Notice(Error, EnterEmailAndCodeText), [])
    ensures NormalEmail(email) != "" && JsLength(Trim(code)) == 6 ==>
              |r.effects| >= 1
              && r.effects[0] == Post(VerifyCodePath, map["email" := NormalEmail(email), "code" := Trim(code)])
    ensures |r.effects| == 2 <==>
              NormalEmail(email) != "" && JsLength(Trim(code)) == 6 && reply.Ok? && ResetToken(reply.value).Some?
    ensures |r.effects| == 2 ==>
              r == Outcome(Cleared, [r.effects[0], Redirect(ResetPageUrl(ResetToken(reply.value).value), 0)])
    ensures |r.effects| != 2 ==> r.notice.kind == Error && |r.effects| <= 1
    ensures NormalEmail(email) != "" && JsLength(Trim(code)) == 6 && reply.Err? ==>
              r.notice.text == Http.ErrorText(reply.error, CodeErrorText)
  {
    var e := NormalEmail(email);
    var c := Trim(code);
    if e == "" || JsLength(c) != 6 then Outcome(Notice(Error, EnterEmailAndCodeText), [])
    else
      var post := Post(VerifyCodePath, map["email" := e, "code" := c]);
      match reply
      case Ok(body) =>
        if ResetToken(body).Some? then Outcome(Cleared, [post, Redirect(ResetPageUrl(ResetToken(body).value), 0)])
        else Outcome(Notice(Error, TextOr(Member(body, "message"), InvalidCodeText)), [post])
      case Err(err) => Outcome(Notice(Error, Http.ErrorText(err, CodeErrorText)), [post])
  }

  /** A code typed through the input needs no trimming, and the length guard
      passes exactly when six digits were typed. */
  lemma {:induction false} TypedCodePassesIffSixDigits(raw: string)
    ensures Trim(CodeInput(raw)) == CodeInput(raw)
    ensures JsLength(Trim(CodeInput(raw))) == 6 <==> |KeepDigits(raw)| >= 6
  {
    var code := CodeInput(raw);
    if code != [] {
      assert IsDigit(code[0]) && IsDigit(code[|code| - 1]);
      assert !IsSpace(code[0]) && !IsSpace(code[|code| - 1]);
      NoTrimNeeded(code);
    }
    assert forall i :: 0 <= i < |code| ==> code[i] as int <= 0xFFFF;
    JsLengthOfBmp(code);
  }

  /* ---------------------------------------------------------------------
     Setting the password
     --------------------------------------------------------------------- */

  /** `query.get("token") || ""` on the reset page. */
  function TokenOf(url: string): string {
    Param(QueryOf(url), "token").GetOr("")
  }

  /** `handleSubmit` of the reset page: the checks run in order (token, then
      length, then confirmation) and the first that fails stops without a
      request; success leads to the login page after 1.2 seconds. */
  function ResetPassword(token: string, password: string, confirm: string,
                         reply: Result<Json, Http.JsError>): (r: Outcome)
    ensures token == "" ==> r == Outcome(Notice(Error, MissingTokenText), [])
    ensures token != "" && JsLength(password) < 8 ==> r == Outcome(Notice(Error, ShortPasswordText), [])
    ensures token != "" && JsLength(password) >= 8 && password != confirm ==>
              r == Outcome(Notice(Error, MismatchText), [])
    ensures r.effects != [] <==> token != "" && JsLength(password) >= 8 && password == confirm
    ensures r.effects != [] ==>
              r.effects[0] == Post(ResetPath, map["resetToken" := token, "password" := password,
                                                  "confirmPassword" := confirm])
    ensures r.notice.kind == Success <==>
              r.effects != [] && reply.Ok? && Present(Member(reply.value, "success"))
    ensures r.notice.kind == Success ==> r.effects[1..] == [Redirect(LoginPage, LoginDelayMs)]
    ensures r.notice.kind != Success ==> r.notice.kind == Error && |r.effects| <= 1
  {
    if token == "" then Outcome(Notice(Error, MissingTokenText), [])
    else if JsLength(password) < 8 then Outcome(Notice(Error, ShortPasswordText), [])
    else if password != confirm then Outcome(Notice(Error, MismatchText), [])
    else
      var post := Post(ResetPath, map["resetToken" := token, "password" := password, "confirmPassword" := confirm]);
      match reply
      case Ok(body) =>
        if Present(Member(body, "success")) then
          Outcome(Notice(Success, TextOr(Member(body, "message"), ResetDoneText)), [post, Redirect(LoginPage, LoginDelayMs)])
        else Outcome(Notice(Error, TextOr(Member(body, "message"), ResetFailedText)), [post])
      case Err(err) => Outcome(Notice(Error, Http.ErrorText(err, ResetFailedText)), [post])
  }

  /** The length check is inclusive: eight characters are enough, seven are
      not, whatever they are. */
  lemma {:induction false} EightCharactersSuffice(token: string, password: string, reply: Result<Json, Http.JsError>)
    requires token != "" && |password| == 8
    requires forall i :: 0 <= i < 8 ==> password[i] as int <= 0xFFFF
    ensures ResetPassword(token, password, password, reply).effects != []
    ensures ResetPassword(token, password[..7], password[..7], reply) == Outcome(Notice(Error, ShortPasswordText), [])
  {
    JsLengthOfBmp(password);
    JsLengthOfBmp(password[..7]);
  }

  /** The token the code check returns reaches the reset page unchanged,
      whatever characters it holds, and is what the reset posts. */
  lemma {:induction false} TokenHandoff(email: string, code: string, body: Json, password: string)
    requires NormalEmail(email) != "" && JsLength(Trim(code)) == 6
    requires ResetToken(body).Some?
    requires JsLength(password) >= 8
    ensures var step := CheckCode(email, code, Ok(body));
            && |step.effects| == 2 && step.effects[1].Redirect?
            && TokenOf(step.effects[1].path) == ResetToken(body).value
            && ResetPassword(TokenOf(step.effects[1].path), password, password, Ok(body)).effects[0]
                 == Post(ResetPath, map["resetToken" := ResetToken(body).value, "password" := password,
                                        "confirmPassword" := password])
  {
    var t := ResetToken(body).value;
    var step := CheckCode(email, code, Ok(body));
    assert step.effects[1] == Redirect(ResetPageUrl(t), 0);
    ResetPageCarriesToken(t);
    assert ResetPassword(t, password, password, Ok(body)).effects != [];
  }

  /** The reset page's address gives back the token it was built with. */
  lemma {:induction false} ResetPageCarriesToken(token: string)
    ensures TokenOf(ResetPageUrl(token)) == token
  {
    assert forall i :: 0 <= i < |ResetPage| ==> ResetPage[i] != '?' && ResetPage[i] != '#';
    assert forall i :: 0 <= i < |"token"| ==> Unreserved("token"[i]);
    ParameterRoundTrip(ResetPage, "token", token);
  }

  /* ---------------------------------------------------------------------
     The email in the code page's query
     --------------------------------------------------------------------- */

  /** The initial email of a page that reads it from its query, or a render
      that throws. */
  datatype Initial = Prefilled(email: string) | Throws

  /** The email field's initial value on the code page (and on the request
      page) as written: the value `URLSearchParams` already decoded is passed
      through `decodeURIComponent` a second time. */
  function PrefillAsWritten(url: string): (r: Initial)
    ensures Param(QueryOf(url), "email").GetOr("") == "" ==> r == Prefilled("")
  {
    var param := Param(QueryOf(url), "email");
    if param.None? || param.value == "" then Prefilled("")
    else match DecodeURIComponent(param.value)
      case Some(e) => Prefilled(e)
      case None => Throws
  }

  lemma {:induction false} VerifyPageParameter(email: string)
    ensures Param(QueryOf(VerifyPageUrl(email)), "email") == Some(email)
  {
    assert forall i :: 0 <= i < |VerifyPage| ==> VerifyPage[i] != '?' && VerifyPage[i] != '#';
    assert forall i :: 0 <= i < |"email"| ==> Unreserved("email"[i]);
    ParameterRoundTrip(VerifyPage, "email", email);
  }

  /** As written, an email without `%` survives the hand-off from the
      request page. */
  lemma {:induction false} PrefillAsWrittenWithoutPercent(email: string)
    requires forall i :: 0 <= i < |email| ==> email[i] != '%'
    ensures PrefillAsWritten(VerifyPageUrl(email)) == Prefilled(email)
  {
    VerifyPageParameter(email);
    DecodeWithoutPercent(email);
  }

  /** As written, the code page decodes the email a second time. */
  lemma {:induction false} PrefillAsWrittenDecodesAgain(email: string)
    requires email != ""
    ensures PrefillAsWritten(VerifyPageUrl(email))
              == match DecodeURIComponent(email) case Some(e) => Prefilled(e) case None => Throws
  {
    VerifyPageParameter(email);
  }

  /** So an email whose `%` starts an escape arrives changed, and one whose
      `%` does not makes the page throw. */
  lemma PercentInEmailIsDecodedTwice()
    ensures PrefillAsWritten(VerifyPageUrl("a%41@b.co")) == Prefilled("aA@b.co")
    ensures PrefillAsWritten(VerifyPageUrl("50%@b.co")) == Throws
  {
    PrefillAsWrittenDecodesAgain("a%41@b.co");
    PrefillAsWrittenDecodesAgain("50%@b.co");
    EscapeDecodes();
    BadEscapeThrows();
  }

  lemma EscapeDecodes()
    ensures DecodeURIComponent("a%41@b.co") == Some("aA@b.co")
  {
    DecodeAfterA("a%41@b.co");
  }

  lemma DecodeAfterA(s: string)
    requires s == "a%41@b.co"
    ensures DecodeURIComponent(s) == Some("aA@b.co")
  {
    assert s[0] == 'a' && s[1..] == "%41@b.co";
    DecodeEscape41(s[1..]);
    assert ['a'] + "A@b.co" == "aA@b.co";
  }

  lemma DecodeEscape41(s: string)
    requires s == "%41@b.co"
    ensures DecodeURIComponent(s) == Some("A@b.co")
  {
    assert EscapeAt(s) == Some(0x41);
    assert EscapesAt(s[3..], 0) == Some([]);
    assert [0x41] + [] == [0x41];
    assert EscapesAt(s, 1) == Some([0x41]);
    assert Utf8Char([0x41]) == Some('A');
    assert LeadLength(0x41) == 1;
    assert s[3..] == "@b.co";
    DecodeWithoutPercent(s[3..]);
    assert ['A'] + "@b.co" == "A@b.co";
  }

  lemma BadEscapeThrows()
    ensures DecodeURIComponent("50%@b.co") == None
  {
    BadEscape("50%@b.co");
  }

  lemma BadEscape(s: string)
    requires s == "50%@b.co"
    ensures DecodeURIComponent(s) == None
  {
    assert s[2..] == "%@b.co" && s[1..][1..] == s[2..];
    assert EscapeAt(s[2..]) == None;
    assert DecodeURIComponent(s[2..]) == None;
    assert DecodeURIComponent(s[1..]) == None;
  }

  /** The evidently intended initial value: the query value as
      `URLSearchParams` decoded it. */
  function Prefill(url: string): string {
    Param(QueryOf(url), "email").GetOr("")
  }

  /** With a single decoding every email the request page sends arrives as
      it was sent. */
  lemma {:induction false} PrefillRoundTrip(email: string)
    ensures Prefill(VerifyPageUrl(email)) == email
  {
    VerifyPageParameter(email);
  }

  /** So the code page, submitted with the prefilled address, checks the
      code for the very address the code was sent to. */
  lemma {:induction false} CodeCheckedForSameAddress(email: string, code: string,
                                                     reply: Result<Json, Http.JsError>)
    requires NormalEmail(email) != "" && JsLength(Trim(code)) == 6
    ensures var sent := NormalEmail(email);
            var r := CheckCode(Prefill(VerifyPageUrl(sent)), code, reply);
            |r.effects| >= 1 && r.effects[0] == Post(VerifyCodePath, map["email" := sent, "code" := Trim(code)])
  {
    var sent := NormalEmail(email);
    PrefillRoundTrip(sent);
    NormalEmailIdempotent(email);
    PostsNormalEmail(sent, code, reply);
  }

  lemma {:induction false} PostsNormalEmail(email: string, code: string, reply: Result<Json, Http.JsError>)
    requires NormalEmail(email) == email && email != "" && JsLength(Trim(code)) == 6
    ensures var r := CheckCode(email, code, reply);
            |r.effects| >= 1 && r.effects[0] == Post(VerifyCodePath, map["email" := email, "code" := Trim(code)])
  {
  }

  /** Normalising a normalised email changes nothing. */
  lemma {:induction false} NormalEmailIdempotent(email: string)
    ensures NormalEmail(NormalEmail(email)) == NormalEmail(email)
  {
    var t := Trim(email);
    var l := ToLower(t);
    if l != [] {
      assert l[0] == LowerChar(t[0]) && l[|l| - 1] == LowerChar(t[|t| - 1]);
      LowerKeepsSpace(t[0]);
      LowerKeepsSpace(t[|t| - 1]);
      NoTrimNeeded(l);
    }
    LowerIdempotent(t);
  }

  lemma LowerIdempotent(t: string)
    ensures ToLower(ToLower(t)) == ToLower(t)
  {
    var l := ToLower(t);
    assert forall i :: 0 <= i < |l| ==> LowerChar(l[i]) == l[i];
  }

  lemma LowerKeepsSpace(c: char)
    ensures IsSpace(LowerChar(c)) <==> IsSpace(c)
  {
  }

  /** Text that starts and ends with a non-space is left alone by `trim()`. */
  lemma NoTrimNeeded(s: string)
    requires s != [] && !IsSpace(s[0]) && !IsSpace(s[|s| - 1])
    ensures Trim(s) == s
  {
    assert TrimStart(s) == s;
  }
}

=== FILE: product_request.dfy ===
/** The shop's product request modal (`ProductRequestModal.jsx`): five
    inputs, per-field validation errors, and a plain `fetch` POST whose
    outcome sets either the success view or an error banner. */
module ProductRequest {
  import opened Common
  import Http

  const RequestPath := "/product-requests"
  const NotifyDelayMs := 2000

  const NameRequiredText := "Name is required"
  const EmailRequiredText := "Email is required"
  const EmailInvalidText := "Email is not valid"
  const PhoneRequiredText := "Phone number is required"
  const LocationRequiredText := "Location is required"
  const SubmitFailedText := "Failed to submit request"

  /** The inputs, by their `name` attribute; `errors` is keyed by it. */
  datatype Field = Name | Email | Phone | Location | Message

  datatype Entries = Entries(name: string, email: string, phone: string, location: string, message: string)

  function Value(d: Entries, f: Field): string {
    match f
    case Name => d.name
    case Email => d.email
    case Phone => d.phone
    case Location => d.location
    case Message => d.message
  }

  /** `{...prev, [name]: value}` */
  function With(d: Entries, f: Field, v: string): (r: Entries)
    ensures Value(r, f) == v
    ensures forall g :: g != f ==> Value(r, g) == Value(d, g)
  {
    match f
    case Name => d.(name := v)
    case Email => d.(email := v)
    case Phone => d.(phone := v)
    case Location => d.(location := v)
    case Message => d.(message := v)
  }

  /** `errors` holds the shown message per field; a field cleared to
      `undefined` is absent. `submitError` is `""` for `null`. */
  datatype Modal = Modal(data: Entries, errors: map<Field, string>, isSubmitting: bool,
                         submitSuccess: bool, submitError: string)

  const Opened := Modal(Entries("", "", "", "", ""), map[], false, false, "")

  /* ---------------------------------------------------------------------
     The email pattern
     --------------------------------------------------------------------- */

  /** A character of the class `[^\s@]`. */
  predicate PlainChar(c: char) {
    !IsSpace(c) && c != '@'
  }

  predicate Plain(t: string) {
    forall i :: 0 <= i < |t| ==> PlainChar(t[i])
  }

  /** `^[^\s@]+@[^\s@]+\.[^\s@]+$` matches `s` with its `@` at `at` and the
      dot the pattern's `\.` consumes at `dot`. */
  ghost predicate MatchesAt(s: string, at: int, dot: int) {
    && 0 < at && at + 1 < dot && dot + 1 < |s|
    && s[at] == '@' && s[dot] == '.'
    && Plain(s[..at]) && Plain(s[at + 1..dot]) && Plain(s[dot + 1..])
  }

  /** The pattern as a regular expression matches `s`. */
  ghost predicate MatchesEmailPattern(s: string) {
    exists at, dot :: MatchesAt(s, at, dot)
  }

  /** The test as a scan: a non-empty plain part before the first `@`, and
      after it a plain part with a dot that is neither its first nor its last
      character. */
  predicate IsEmail(s: string) {
    var at := IndexOf(s, '@');
    && 0 < at < |s|
    && Plain(s[..at])
    && var domain := s[at + 1..];
       && Plain(domain)
       && 3 <= |domain|
       && IndexOf(domain[1..|domain| - 1], '.') < |domain| - 2
  }

  /** The scan decides exactly what the regular expression matches. */
  lemma EmailTestIsThePattern(s: string)
    ensures IsEmail(s) <==> MatchesEmailPattern(s)
  {
    if IsEmail(s) {
      ScanFindsMatch(s);
    }
    if MatchesEmailPattern(s) {
      var at, dot :| MatchesAt(s, at, dot);
      MatchPassesScan(s, at, dot);
    }
  }

  lemma ScanFindsMatch(s: string)
    requires IsEmail(s)
    ensures MatchesEmailPattern(s)
  {
    var at := IndexOf(s, '@');
    var domain := s[at + 1..];
    var j := 1 + IndexOf(domain[1..|domain| - 1], '.');
    var dot := at + 1 + j;
    assert s[at + 1..dot] == domain[..j];
    assert s[dot + 1..] == domain[j + 1..];
    assert MatchesAt(s, at, dot);
  }

  lemma MatchPassesScan(s: string, at0: int, dot0: int)
    requires MatchesAt(s, at0, dot0)
    ensures IsEmail(s)
  {
    var at := IndexOf(s, '@');
    assert at == at0;
    var domain := s[at + 1..];
    forall i | 0 <= i < |domain| ensures PlainChar(domain[i]) {
      if at + 1 + i < dot0 {
        assert domain[i] == s[at + 1..dot0][i];
      } else if at + 1 + i > dot0 {
        assert domain[i] == s[dot0 + 1..][at + i - dot0];
      }
    }
    var inner := domain[1..|domain| - 1];
    assert inner[dot0 - at - 2] == '.';
  }

  /** Surrounding white space is not trimmed before the test, so a padded
      address fails it. */
  lemma PaddedEmailIsInvalid(s: string)
    requires s != [] && (IsSpace(s[0]) || IsSpace(s[|s| - 1]))
    ensures !MatchesEmailPattern(s)
  {
  }

  /* ---------------------------------------------------------------------
     Validation
     --------------------------------------------------------------------- */

  /** The form the modal accepts: name, phone and location not blank and an
      address the pattern matches; the message is optional. */
  ghost predicate Acceptable(d: Entries) {
    Filled(d.name) && Filled(d.phone) && Filled(d.location) && MatchesEmailPattern(d.email)
  }

  predicate Filled(v: string) {
    Trim(v) != ""
  }

  /** The message `validateForm` stores for one field, `""` for none. */
  function FieldError(d: Entries, f: Field): (m: string)
    ensures f == Email ==> m == if !Filled(d.email) then EmailRequiredText
                                else if !IsEmail(d.email) then EmailInvalidText else ""
    ensures f == Message ==> m == ""
    ensures f != Email && f != Message ==> (m == "" <==> Filled(Value(d, f)))
  {
    match f
    case Name => if Filled(d.name) then "" else NameRequiredText
    case Email => if !Filled(d.email) then EmailRequiredText else if !IsEmail(d.email) then EmailInvalidText else ""
    case Phone => if Filled(d.phone) then "" else PhoneRequiredText
    case Location => if Filled(d.location) then "" else LocationRequiredText
    case Message => ""
  }

  /** `validateForm`: the errors it stores, one per failing field. */
  function Validate(d: Entries): (errors: map<Field, string>)
    ensures forall f :: f in errors <==> FieldError(d, f) != ""
    ensures forall f :: f in errors ==> errors[f] == FieldError(d, f)
  {
    map f | f in {Name, Email, Phone, Location, Message} && FieldError(d, f) != "" :: FieldError(d, f)
  }

  /** An address that passes the test is not blank: its `@` is not white
      space. */
  lemma EmailIsFilled(s: string)
    requires IsEmail(s)
    ensures Filled(s)
  {
    var at := IndexOf(s, '@');
    assert !IsSpace(s[at]);
    TrimEmptyIffBlank(s);
  }

  /** No field has an error. */
  predicate Clean(d: Entries) {
    FieldError(d, Name) == "" && FieldError(d, Email) == "" && FieldError(d, Phone) == ""
    && FieldError(d, Location) == ""
  }

  lemma ValidateEmptyIffClean(d: Entries)
    ensures Validate(d) == map[] <==> Clean(d)
  {
    if Validate(d) == map[] {
      assert Name !in Validate(d) && Email !in Validate(d) && Phone !in Validate(d) && Location !in Validate(d);
    } else {
      var f :| f in Validate(d);
    }
  }

  lemma CleanIffAcceptable(d: Entries)
    ensures Clean(d) <==> Acceptable(d)
  {
    EmailFieldCleanIffPattern(d);
    assert FieldError(d, Name) == "" <==> Filled(d.name);
    assert FieldError(d, Phone) == "" <==> Filled(d.phone);
    assert FieldError(d, Location) == "" <==> Filled(d.location);
  }

  /** The email field has no error exactly when the pattern matches it. */
  lemma EmailFieldCleanIffPattern(d: Entries)
    ensures FieldError(d, Email) == "" <==> MatchesEmailPattern(d.email)
  {
    EmailTestIsThePattern(d.email);
    if IsEmail(d.email) {
      EmailIsFilled(d.email);
    }
  }

  /** The form validates exactly when it is acceptable. */
  lemma ValidateIffAcceptable(d: Entries)
    ensures Validate(d) == map[] <==> Acceptable(d)
  {
    ValidateEmptyIffClean(d);
    CleanIffAcceptable(d);
  }

  /* ---------------------------------------------------------------------
     Editing and submitting
     --------------------------------------------------------------------- */

  /** `handleChange`: the field takes the new value, and its error, when one
      is shown, is cleared; every other field and error stays. */
  function HandleChange(m: Modal, f: Field, v: string): (r: Modal)
    ensures Value(r.data, f) == v
    ensures forall g :: g != f ==> Value(r.data, g) == Value(m.data, g)
    ensures f !in r.errors || r.errors[f] == ""
    ensures forall g :: g != f ==> (g in r.errors <==> g in m.errors)
    ensures forall g :: g != f && g in r.errors ==> r.errors[g] == m.errors[g]
    ensures r.isSubmitting == m.isSubmitting && r.submitSuccess == m.submitSuccess && r.submitError == m.submitError
  {
    var errors := if f in m.errors && m.errors[f] != "" then m.errors - {f} else m.errors;
    m.(data := With(m.data, f, v), errors := errors)
  }

  datatype Step = Step(modal: Modal, effects: seq<Effect>)

  function RequestFields(productId: string, d: Entries): map<string, string> {
    map["product" := productId, "name" := d.name, "email" := d.email, "phone" := d.phone,
        "location" := d.location, "message" := d.message]
  }

  /** `handleSubmit`: an invalid form only shows its errors; otherwise the
      request is sent and, once it settles, `isSubmitting` is false again. A
      2xx reply shows the success view and calls `onSuccess` two seconds
      later; a reply that is not 2xx shows its message, else a fixed text; a
      body that does not parse or a failed `fetch` shows the thrown message,
      and so does a `null` body that is not 2xx, whose `data.message` throws
      a `TypeError` (message `typeError`). */
  function Submit(m: Modal, productId: string, w: Http.Wire, typeError: string): (r: Step)
    ensures Validate(m.data) != map[] ==> r == Step(m.(errors := Validate(m.data)), [])
    ensures Validate(m.data) == map[] ==>
              |r.effects| >= 1 && r.effects[0] == Post(RequestPath, RequestFields(productId, m.data))
              && r.modal.data == m.data && r.modal.errors == map[] && !r.modal.isSubmitting
    ensures r.modal.submitSuccess != m.submitSuccess ==>
              Validate(m.data) == map[] && w.Reply? && Http.IsOk(w.status) && w.body.Parsed?
    ensures Later(NotifyDelayMs, NotifySuccess) in r.effects <==>
              Validate(m.data) == map[] && w.Reply? && Http.IsOk(w.status) && w.body.Parsed?
    ensures (Validate(m.data) == map[] && w.Reply? && !Http.IsOk(w.status) && w.body.Parsed?
             && w.body.value != JNull) ==>
              r.modal.submitError == TextOr(Member(w.body.value, "message"), SubmitFailedText)
    ensures Validate(m.data) == map[] && w.Reply? && !Http.IsOk(w.status) && w.body == Http.Parsed(JNull) ==>
              r.modal.submitError == typeError
    ensures Validate(m.data) == map[] && w.NoResponse? ==> r.modal.submitError == w.message
  {
    var errors := Validate(m.data);
    if errors != map[] then Step(m.(errors := errors), [])
    else
      var post := Post(RequestPath, RequestFields(productId, m.data));
      var sent := m.(errors := map[], isSubmitting := false, submitError := "");
      match w
      case NoResponse(message) => Step(sent.(submitError := message), [post])
      case Reply(status, body) =>
        match body
        case Unparseable(reason) => Step(sent.(submitError := reason), [post])
        case Parsed(v) =>
          if Http.IsOk(status) then Step(sent.(submitSuccess := true), [post, Later(NotifyDelayMs, NotifySuccess)])
          else if v == JNull then Step(sent.(submitError := typeError), [post])
          else Step(sent.(submitError := TextOr(Member(v, "message"), SubmitFailedText)), [post])
  }

  /** A request is sent exactly for an acceptable form. */
  lemma SentIffAcceptable(m: Modal, productId: string, w: Http.Wire, typeError: string)
    ensures Posts(Submit(m, productId, w, typeError).effects) != [] <==> Acceptable(m.data)
  {
    ValidateIffAcceptable(m.data);
  }

  /** After a refused submit, editing a field that showed an error clears
      that error and leaves the others shown. */
  lemma EditClearsOnlyItsError(m: Modal, productId: string, w: Http.Wire, typeError: string, f: Field, v: string)
    requires f in Validate(m.data)
    ensures var refused := Submit(m, productId, w, typeError).modal;
            var edited := HandleChange(refused, f, v);
            && f !in edited.errors
            && forall g :: g in Validate(m.data) && g != f ==> g in edited.errors
  {
  }
}

=== FILE: registration.dfy ===
/** The schedule registration state machine (`useRegistration`): the list of
    schedule ids the user is registered for, the status of each registration
    keyed by `"scheduleId:sessionId"`, and the `{type, text}` message shown to
    the user. Each handler is a step from the current state, the auth view and
    the outcome of its API call to the next state and the effects it emits. */
module Registration {
  import opened Common
  import Http
  import AuthStore

  /* ---------------------------------------------------------------------
     State
     --------------------------------------------------------------------- */

  /** What the hook reads from the auth context. */
  datatype AuthView = AuthView(isLoggedIn: bool, verified: bool, token: Option<string>)

  function ViewOf(s: AuthStore.Session): AuthView {
    AuthView(s.isLoggedIn, AuthStore.Verified(s), s.token)
  }

  predicate HasToken(a: AuthView) {
    a.token.Some? && a.token.value != ""
  }

  /** `{status, paymentStatus, rejectionReason}`; `""` is an absent field. */
  datatype StatusRecord = StatusRecord(status: string, paymentStatus: string, rejectionReason: string)

  /** The record every optimistic update writes. */
  const PendingRecord := StatusRecord("pending", "unpaid", "")

  datatype RegState = RegState(
    registeredScheduleIds: seq<string>,
    statuses: map<string, StatusRecord>,
    message: Notice,
    epoch: nat)

  const Initial := RegState([], map[], Cleared, 0)

  datatype Step = Step(state: RegState, effects: seq<Effect>)

  /* ---------------------------------------------------------------------
     The message and its auto-dismiss
     --------------------------------------------------------------------- */

  const DismissDelayMs := 5000

  /** `setMessage(n)`. Every call stores a new object, so the dismiss
      effect, which watches `message`, runs again each time: `epoch` counts
      the calls. */
  function Say(s: RegState, n: Notice): (r: RegState)
    ensures r.message == n && r.epoch > s.epoch
    ensures r.registeredScheduleIds == s.registeredScheduleIds && r.statuses == s.statuses
  {
    s.(message := n, epoch := s.epoch + 1)
  }

  /** The dismiss effect, run after a render whose message changed: a
      message with text schedules its dismissal, an empty one nothing. The
      cleanup clears the previous timer; `Dismiss` models that by comparing
      epochs. */
  function AutoDismiss(s: RegState): (effects: seq<Effect>)
    ensures effects != [] <==> s.message.text != ""
    ensures effects != [] ==> effects == [Later(DismissDelayMs, Expire(s.epoch))]
  {
    if s.message.text != "" then [Later(DismissDelayMs, Expire(s.epoch))] else []
  }

  /** The dismiss timer firing: it empties the message unless a newer
      message has replaced the one it was set for, whose cleanup cleared it. */
  function Dismiss(s: RegState, epoch: nat): RegState {
    if epoch == s.epoch then Say(s, Cleared) else s
  }

  /** The timer a message schedules empties exactly that message, and the
      empty message schedules nothing further; once another message is set,
      the old timer does nothing. */
  lemma DismissClearsOnlyItsMessage(s: RegState, n: Notice, later: Notice)
    requires n.text != ""
    ensures var shown := Say(s, n);
            && AutoDismiss(shown) == [Later(DismissDelayMs, Expire(shown.epoch))]
            && Dismiss(shown, shown.epoch).message == Cleared
            && Dismiss(shown, shown.epoch).statuses == s.statuses
            && AutoDismiss(Dismiss(shown, shown.epoch)) == []
            && Dismiss(Say(shown, later), shown.epoch) == Say(shown, later)
  {
  }


  /** The composite key: the two ids joined by a colon. */
  function Key(scheduleId: string, sessionId: string): (k: string)
    ensures |k| == |scheduleId| + 1 + |sessionId|
    ensures StartsWith(k, scheduleId + ":")
    ensures k[|scheduleId| + 1..] == sessionId
  {
    scheduleId + ":" + sessionId
  }

  const LoginPath := "/auth/login"
  const VerifyPath := "/auth/verify"
  const RegisterPath := "/registrations"
  const FullClassPath := "/registrations/request-full-class"
  const MyRegistrationsPath := "/registrations/my-registrations"

  const GuardDelayMs := 1500
  const ExpiredDelayMs := 2000
  const RefetchDelayMs := 1000

  const ExpiredText := "Your session has expired. Please log in again."
  const ForbiddenText := "You don't have permission to perform this action."
  const LoginToRegisterText := "Please log in to register for this schedule."
  const VerifyToRegisterText := "Please verify your email to register for schedules."
  const SelectSessionText := "Please select a session date first."
  const InvalidRequestText := "Invalid registration request. Please try again."
  const PendingText := "Your registration is pending admin approval."
  const ApprovedText := "You're already confirmed for this session."
  const AlreadyRegisteredText := "You're already registered for this session."
  const SubmittedText := "Registration submitted! Awaiting admin confirmation."
  const ConflictText := "You've already registered for this session."
  const StartedText := "This session has already started. Registration is closed."
  const NotFoundText := "Schedule or session not found. It may have been removed."
  const ServerErrorText := "Server error. Please try again in a moment."
  const NetworkText := "Network error. Please check your connection and try again."
  const RegisterFailedText := "Failed to register. Please try again."
  const LoginToRequestText := "Please log in to request a spot."
  const VerifyToRequestText := "Please verify your email to request a spot."
  const RequestSentText := "Your request has been sent! You'll be notified if a spot opens up."
  const RequestConflictText := "You've already requested a spot for this session."
  const RequestFailedText := "Failed to send request. Please try again."
  const FullClassNote := "User requesting to join a fully booked class"

  /* ---------------------------------------------------------------------
     Distinct schedule ids
     --------------------------------------------------------------------- */

  predicate NoDup(xs: seq<string>) {
    forall i, j :: 0 <= i < j < |xs| ==> xs[i] != xs[j]
  }

  /** The elements of `xs` not in `seen`, each once, in order of first
      occurrence: what iterating a JavaScript `Set` built from `xs` yields. */
  function Distinct(xs: seq<string>, seen: set<string>): (r: seq<string>)
    ensures NoDup(r)
    ensures forall x :: x in r <==> x in xs && x !in seen
    decreases |xs|
  {
    if xs == [] then []
    else if xs[0] in seen then Distinct(xs[1..], seen)
    else [xs[0]] + Distinct(xs[1..], seen + {xs[0]})
  }

  /** Appending one element to a list that is already distinct keeps the
      list, extended by the element only when it is new. */
  lemma {:induction false} DistinctAppend(xs: seq<string>, x: string, seen: set<string>)
    requires NoDup(xs)
    requires forall y :: y in xs ==> y !in seen
    ensures Distinct(xs + [x], seen) == if x in xs || x in seen then xs else xs + [x]
    decreases |xs|
  {
    if xs == [] {
      assert [x][1..] == [];
    } else {
      var y := xs[0];
      var t := xs[1..];
      assert (xs + [x])[1..] == t + [x];
      assert y !in t by {
        forall j | 0 <= j < |t| ensures t[j] != y { assert xs[j + 1] == t[j]; }
      }
      assert NoDup(t) by {
        forall i, j | 0 <= i < j < |t| ensures t[i] != t[j] { assert xs[i + 1] == t[i] && xs[j + 1] == t[j]; }
      }
      DistinctAppend(t, x, seen + {y});
    }
  }

  /** `Array.from(new Set([...prev, id]))` */
  function AddScheduleId(ids: seq<string>, id: string): (r: seq<string>)
    ensures NoDup(r)
    ensures forall x :: x in r <==> x in ids || x == id
  {
    Distinct(ids + [id], {})
  }

  /** On a list without duplicates the id is appended only when it is new,
      so it ends up in the list exactly once and nothing else moves. */
  lemma AddScheduleIdKeeps(ids: seq<string>, id: string)
    requires NoDup(ids)
    ensures AddScheduleId(ids, id) == if id in ids then ids else ids + [id]
  {
    DistinctAppend(ids, id, {});
  }

  /** Occurrences of `x` in `xs`. */
  function Count(xs: seq<string>, x: string): nat {
    |set i | 0 <= i < |xs| && xs[i] == x|
  }

  lemma {:induction false} NoDupCountsOnce(xs: seq<string>, x: string)
    requires NoDup(xs) && x in xs
    ensures Count(xs, x) == 1
  {
    var i :| 0 <= i < |xs| && xs[i] == x;
    var occ := set j | 0 <= j < |xs| && xs[j] == x;
    assert occ == {i};
  }

  /* ---------------------------------------------------------------------
     Guards and error handling
     --------------------------------------------------------------------- */

  datatype Eligibility = Eligible | NotLoggedIn | NotVerified | NoToken

  /** `canUserRegister`: the three checks in order, eligible only when all pass. */
  function CanUserRegister(a: AuthView): (r: Eligibility)
    ensures r == Eligible <==> a.isLoggedIn && a.verified && HasToken(a)
    ensures r == NotLoggedIn <==> !a.isLoggedIn
    ensures r == NotVerified <==> a.isLoggedIn && !a.verified
    ensures r == NoToken <==> a.isLoggedIn && a.verified && !HasToken(a)
  {
    if !a.isLoggedIn then NotLoggedIn
    else if !a.verified then NotVerified
    else if !HasToken(a) then NoToken
    else Eligible
  }

  /** `handleAuthError`: 401 logs out, explains and redirects to the login
      page after two seconds; 403 explains and changes nothing else; any
      other error is left to the caller. */
  function HandleAuthError(s: RegState, e: Http.ApiError): (r: Option<Step>)
    ensures r.Some? <==> e.status == 401 || e.status == 403
    ensures e.status == 401 ==>
              r == Some(Step(Say(s, Notice(Error, ExpiredText)), [Logout, Redirect(LoginPath, ExpiredDelayMs)]))
    ensures e.status == 403 ==>
              r == Some(Step(Say(s, Notice(Error, ForbiddenText)), []))
  {
    if e.status == 401 then
      Some(Step(Say(s, Notice(Error, ExpiredText)), [Logout, Redirect(LoginPath, ExpiredDelayMs)]))
    else if e.status == 403 then
      Some(Step(Say(s, Notice(Error, ForbiddenText)), []))
    else None
  }

  /** A 409, reported on the error itself or in the body it carries. */
  predicate IsConflict(e: Http.ApiError) {
    || e.status == 409
    || e.statusCode == Some(409)
    || (e.data.Some? && Truthy(e.data.value) && Member(e.data.value, "statusCode") == Some(JNum(409)))
  }

  /** The classes a failed registration falls into. */
  datatype Failure =
    | SessionExpired
    | PermissionDenied
    | Conflict
    | AlreadyStarted
    | NotFound
    | ServerError
    | NetworkFailure
    | ServerMessage(text: string)
    | Unexplained

  /** The ordered classifier of `handleRegister`'s `catch`: each class is
      chosen only when every earlier test failed. The "already started" test
      is a case-sensitive substring test on the message. */
  function ClassifyRegisterError(e: Http.ApiError): (f: Failure)
    ensures f == SessionExpired <==> e.status == 401
    ensures f == PermissionDenied <==> e.status == 403
    ensures f == Conflict <==> e.status != 401 && e.status != 403 && IsConflict(e)
    ensures f == AlreadyStarted <==>
              e.status != 401 && e.status != 403 && !IsConflict(e) && Contains(e.message, "already started")
    ensures f == NotFound <==>
              e.status == 404 && !IsConflict(e) && !Contains(e.message, "already started")
    ensures f == ServerError <==>
              e.status == 500 && !IsConflict(e) && !Contains(e.message, "already started")
    ensures f == NetworkFailure <==>
              e.status == 0 && !IsConflict(e) && !Contains(e.message, "already started")
    ensures f.ServerMessage? <==>
              e.status !in {0, 401, 403, 404, 500} && !IsConflict(e) && !Contains(e.message, "already started")
              && e.message != ""
    ensures f.ServerMessage? ==> f.text == e.message
    ensures f == Unexplained <==>
              e.status !in {0, 401, 403, 404, 500} && !IsConflict(e) && e.message == ""
  {
    if e.status == 401 then SessionExpired
    else if e.status == 403 then PermissionDenied
    else if IsConflict(e) then Conflict
    else if Contains(e.message, "already started") then AlreadyStarted
    else if e.status == 404 then NotFound
    else if e.status == 500 then ServerError
    else if e.status == 0 then NetworkFailure
    else if e.message != "" then ServerMessage(e.message)
    else Unexplained
  }

  /** Every error `useAuth` throws carries a status, so a registration that
      went through it is never classified as a network failure. */
  lemma UseAuthErrorsHaveStatus(h: Http.HookState, token: Option<string>,
                                data: Option<map<string, string>>, w: Http.Wire)
    ensures var c := Http.PostWithAuth(h, RegisterPath, token, data, w).call;
            c.outcome.Err? ==> ClassifyRegisterError(c.outcome.error) != NetworkFailure
  {
  }

  /* ---------------------------------------------------------------------
     Optimistic update
     --------------------------------------------------------------------- */

  /** The optimistic update after an accepted request: the schedule id joins
      the list and the key's status becomes pending. */
  function Optimistic(s: RegState, scheduleId: string, key: string): (r: RegState)
    ensures r.message == s.message && r.epoch == s.epoch
    ensures r.statuses.Keys == s.statuses.Keys + {key}
    ensures r.statuses[key] == PendingRecord
    ensures forall k :: k in s.statuses && k != key ==> r.statuses[k] == s.statuses[k]
    ensures NoDup(r.registeredScheduleIds)
    ensures forall x :: x in r.registeredScheduleIds <==> x in s.registeredScheduleIds || x == scheduleId
  {
    RegState(AddScheduleId(s.registeredScheduleIds, scheduleId), s.statuses[key := PendingRecord], s.message, s.epoch)
  }

  /** Applying the optimistic update twice is applying it once: a duplicate
      acceptance (a success and then a 409 for the same key) cannot duplicate
      the schedule id or change the status further. */
  lemma OptimisticIdempotent(s: RegState, scheduleId: string, key: string)
    requires NoDup(s.registeredScheduleIds)
    ensures Optimistic(Optimistic(s, scheduleId, key), scheduleId, key) == Optimistic(s, scheduleId, key)
  {
    var once := Optimistic(s, scheduleId, key);
    AddScheduleIdKeeps(once.registeredScheduleIds, scheduleId);
  }

  /* ---------------------------------------------------------------------
     handleRegister
     --------------------------------------------------------------------- */

  /** The message for an existing registration that blocks a new one. */
  function DuplicateText(status: string): (t: string)
    ensures status == "pending" ==> t == PendingText
    ensures status == "approved" ==> t == ApprovedText
    ensures status != "pending" && status != "approved" ==> t == AlreadyRegisteredText
  {
    if status == "pending" then PendingText
    else if status == "approved" then ApprovedText
    else AlreadyRegisteredText
  }

  /** An existing record at the key blocks resubmission unless it was rejected. */
  predicate Blocks(s: RegState, key: string) {
    key in s.statuses && s.statuses[key].status != "rejected"
  }

  /** The guards of `handleRegister` all pass and a POST is sent. */
  predicate RegisterPosts(s: RegState, a: AuthView, scheduleId: string, sessionId: string) {
    a.isLoggedIn && a.verified && sessionId != "" && scheduleId != "" && !Blocks(s, Key(scheduleId, sessionId))
  }

  function RegisterRequest(scheduleId: string, sessionId: string): Effect {
    Post(RegisterPath, map["scheduleId" := scheduleId, "sessionId" := sessionId])
  }

  /** The `catch` of `handleRegister` once the POST failed. */
  function RegisterFailure(s: RegState, scheduleId: string, key: string, e: Http.ApiError): (r: Step)
    ensures var f := ClassifyRegisterError(e);
            && (f == Conflict ==>
                  r == Step(Say(Optimistic(s, scheduleId, key), Notice(Error, ConflictText)), [Refetch(0)]))
            && (f != Conflict ==> r.state.registeredScheduleIds == s.registeredScheduleIds
                                  && r.state.statuses == s.statuses)
            && (f == SessionExpired ==> r.effects == [Logout, Redirect(LoginPath, ExpiredDelayMs)])
            && (f == ServerError ==> r.effects == [Refetch(RefetchDelayMs)])
            && (f !in {SessionExpired, Conflict, ServerError} ==> r.effects == [])
            && r.state.message.kind == Error
            && r.state.message.text == match f
                 case SessionExpired => ExpiredText
                 case PermissionDenied => ForbiddenText
                 case Conflict => ConflictText
                 case AlreadyStarted => StartedText
                 case NotFound => NotFoundText
                 case ServerError => ServerErrorText
                 case NetworkFailure => NetworkText
                 case ServerMessage(m) => m
                 case Unexplained => RegisterFailedText
  {
    match HandleAuthError(s, e)
    case Some(step) => step
    case None =>
      match ClassifyRegisterError(e)
      case Conflict =>
        Step(Say(Optimistic(s, scheduleId, key), Notice(Error, ConflictText)), [Refetch(0)])
      case AlreadyStarted => Step(Say(s, Notice(Error, StartedText)), [])
      case NotFound => Step(Say(s, Notice(Error, NotFoundText)), [])
      case ServerError => Step(Say(s, Notice(Error, ServerErrorText)), [Refetch(RefetchDelayMs)])
      case NetworkFailure => Step(Say(s, Notice(Error, NetworkText)), [])
      case ServerMessage(m) => Step(Say(s, Notice(Error, m)), [])
      case Unexplained => Step(Say(s, Notice(Error, RegisterFailedText)), [])
      case SessionExpired => Step(s, [])   // decided by HandleAuthError
      case PermissionDenied => Step(s, [])  // decided by HandleAuthError
  }

  /** `handleRegister(scheduleId, sessionId)`; `reply` is what the POST would
      return or throw, and is read only when the POST is sent. */
  function HandleRegister(s: RegState, a: AuthView, scheduleId: string, sessionId: string,
                          reply: Result<Json, Http.ApiError>): (r: Step)
    // the guards, in order; none of them sends anything
    ensures !a.isLoggedIn ==>
              r == Step(Say(s, Notice(Info, LoginToRegisterText)), [Redirect(LoginPath, GuardDelayMs)])
    ensures a.isLoggedIn && !a.verified ==>
              r == Step(Say(s, Notice(Info, VerifyToRegisterText)), [Redirect(VerifyPath, GuardDelayMs)])
    ensures a.isLoggedIn && a.verified && sessionId == "" ==>
              r == Step(Say(s, Notice(Error, SelectSessionText)), [])
    ensures a.isLoggedIn && a.verified && sessionId != "" && scheduleId == "" ==>
              r == Step(Say(s, Notice(Error, InvalidRequestText)), [])
    ensures a.isLoggedIn && a.verified && sessionId != "" && scheduleId != "" && Blocks(s, Key(scheduleId, sessionId)) ==>
              r == Step(Say(s, Notice(Info, DuplicateText(s.statuses[Key(scheduleId, sessionId)].status))), [])
    // a POST is sent exactly when every guard passes, and it comes first
    ensures RegisterPosts(s, a, scheduleId, sessionId) <==> !NoRequest(r.effects)
    ensures RegisterPosts(s, a, scheduleId, sessionId) ==>
              |r.effects| > 0 && r.effects[0] == RegisterRequest(scheduleId, sessionId)
    // success: optimistic update, success message, delayed reconcile
    ensures RegisterPosts(s, a, scheduleId, sessionId) && reply.Ok? ==>
              r == Step(Say(Optimistic(s, scheduleId, Key(scheduleId, sessionId)), Notice(Success, SubmittedText)),
                        [RegisterRequest(scheduleId, sessionId), Refetch(RefetchDelayMs)])
    // failure: the classifier decides
    ensures RegisterPosts(s, a, scheduleId, sessionId) && reply.Err? ==>
              var f := RegisterFailure(s, scheduleId, Key(scheduleId, sessionId), reply.error);
              r == Step(f.state, [RegisterRequest(scheduleId, sessionId)] + f.effects)
  {
    if !a.isLoggedIn then
      Step(Say(s, Notice(Info, LoginToRegisterText)), [Redirect(LoginPath, GuardDelayMs)])
    else if !a.verified then
      Step(Say(s, Notice(Info, VerifyToRegisterText)), [Redirect(VerifyPath, GuardDelayMs)])
    else if sessionId == "" then
      Step(Say(s, Notice(Error, SelectSessionText)), [])
    else if scheduleId == "" then
      Step(Say(s, Notice(Error, InvalidRequestText)), [])
    else
      var key := Key(scheduleId, sessionId);
      if Blocks(s, key) then
        Step(Say(s, Notice(Info, DuplicateText(s.statuses[key].status))), [])
      else
        var post := RegisterRequest(scheduleId, sessionId);
        assert post in [post];
        match reply
        case Ok(_) =>
          assert post in [post, Refetch(RefetchDelayMs)];
          Step(Say(Optimistic(s, scheduleId, key), Notice(Success, SubmittedText)), [post, Refetch(RefetchDelayMs)])
        case Err(e) =>
          var f := RegisterFailure(s, scheduleId, key, e);
          assert post in [post] + f.effects;
          Step(f.state, [post] + f.effects)
  }

  /** A pending or approved record blocks the POST and a rejected or absent
      one lets it through (for a logged-in, verified user with both ids). */
  lemma ExistingStatusDecidesResubmission(s: RegState, a: AuthView, scheduleId: string, sessionId: string,
                                          reply: Result<Json, Http.ApiError>)
    requires a.isLoggedIn && a.verified && scheduleId != "" && sessionId != ""
    ensures var key := Key(scheduleId, sessionId);
            var r := HandleRegister(s, a, scheduleId, sessionId, reply);
            && (key in s.statuses && s.statuses[key].status == "pending" ==>
                  NoRequest(r.effects) && r.state.message == Notice(Info, PendingText))
            && (key in s.statuses && s.statuses[key].status == "approved" ==>
                  NoRequest(r.effects) && r.state.message == Notice(Info, ApprovedText))
            && ((key !in s.statuses || s.statuses[key].status == "rejected") ==> !NoRequest(r.effects))
  {
  }

  /** A 409 leaves the same registration state as a success: the status is
      pending and the schedule id is listed exactly once. */
  lemma ConflictMatchesSuccess(s: RegState, a: AuthView, scheduleId: string, sessionId: string,
                               body: Json, e: Http.ApiError)
    requires RegisterPosts(s, a, scheduleId, sessionId)
    requires NoDup(s.registeredScheduleIds)
    requires e.status == 409
    ensures var ok := HandleRegister(s, a, scheduleId, sessionId, Ok(body)).state;
            var clash := HandleRegister(s, a, scheduleId, sessionId, Err(e)).state;
            && ok.statuses == clash.statuses
            && ok.registeredScheduleIds == clash.registeredScheduleIds
            && clash.statuses[Key(scheduleId, sessionId)].status == "pending"
            && Count(clash.registeredScheduleIds, scheduleId) == 1
  {
    var clash := HandleRegister(s, a, scheduleId, sessionId, Err(e)).state;
    assert scheduleId in clash.registeredScheduleIds;
    NoDupCountsOnce(clash.registeredScheduleIds, scheduleId);
  }

  /* ---------------------------------------------------------------------
     handleRequestFullClass
     --------------------------------------------------------------------- */

  function FullClassRequest(scheduleId: string, sessionId: string): Effect {
    Post(FullClassPath, map["scheduleId" := scheduleId, "sessionId" := sessionId, "message" := FullClassNote])
  }

  /** `handleRequestFullClass(scheduleId, sessionId)`: only the login and
      verification guards; a 409 lists the schedule id but leaves the status
      map alone. */
  function HandleRequestFullClass(s: RegState, a: AuthView, scheduleId: string, sessionId: string,
                                  reply: Result<Json, Http.ApiError>): (r: Step)
    ensures !a.isLoggedIn ==>
              r == Step(Say(s, Notice(Info, LoginToRequestText)), [Redirect(LoginPath, GuardDelayMs)])
    ensures a.isLoggedIn && !a.verified ==>
              r == Step(Say(s, Notice(Info, VerifyToRequestText)), [Redirect(VerifyPath, GuardDelayMs)])
    ensures a.isLoggedIn && a.verified <==> !NoRequest(r.effects)
    ensures a.isLoggedIn && a.verified ==> |r.effects| > 0 && r.effects[0] == FullClassRequest(scheduleId, sessionId)
    ensures a.isLoggedIn && a.verified && reply.Ok? ==>
              r == Step(Say(Optimistic(s, scheduleId, Key(scheduleId, sessionId)), Notice(Success, RequestSentText)),
                        [FullClassRequest(scheduleId, sessionId), Refetch(RefetchDelayMs)])
    ensures a.isLoggedIn && a.verified && reply.Err? && reply.error.status !in {401, 403} && IsConflict(reply.error) ==>
              && r.state.statuses == s.statuses
              && r.state.registeredScheduleIds == AddScheduleId(s.registeredScheduleIds, scheduleId)
              && r.state.message == Notice(Error, RequestConflictText)
              && r.effects == [FullClassRequest(scheduleId, sessionId), Refetch(0)]
    ensures a.isLoggedIn && a.verified && reply.Err? && reply.error.status !in {401, 403} && !IsConflict(reply.error) ==>
              && r.state == Say(s, Notice(Error, if reply.error.message != "" then reply.error.message
                                                          else RequestFailedText))
              && r.effects == [FullClassRequest(scheduleId, sessionId)]
    ensures a.isLoggedIn && a.verified && reply.Err? && reply.error.status in {401, 403} ==>
              var h := HandleAuthError(s, reply.error).value;
              r == Step(h.state, [FullClassRequest(scheduleId, sessionId)] + h.effects)
  {
    if !a.isLoggedIn then
      Step(Say(s, Notice(Info, LoginToRequestText)), [Redirect(LoginPath, GuardDelayMs)])
    else if !a.verified then
      Step(Say(s, Notice(Info, VerifyToRequestText)), [Redirect(VerifyPath, GuardDelayMs)])
    else
      var post := FullClassRequest(scheduleId, sessionId);
      assert post in [post];
      match reply
      case Ok(_) =>
        assert post in [post, Refetch(RefetchDelayMs)];
        Step(Say(Optimistic(s, scheduleId, Key(scheduleId, sessionId)), Notice(Success, RequestSentText)),
             [post, Refetch(RefetchDelayMs)])
      case Err(e) =>
        match HandleAuthError(s, e)
        case Some(h) =>
          assert post in [post] + h.effects;
          Step(h.state, [post] + h.effects)
        case None =>
          if IsConflict(e) then
            assert post in [post, Refetch(0)];
            Step(Say(s.(registeredScheduleIds := AddScheduleId(s.registeredScheduleIds, scheduleId)),
                     Notice(Error, RequestConflictText)),
                 [post, Refetch(0)])
          else
            Step(Say(s, Notice(Error, if e.message != "" then e.message else RequestFailedText)), [post])
  }

  /* ---------------------------------------------------------------------
     fetchUserRegistrations
     --------------------------------------------------------------------- */

  /** `reg.scheduleId._id`, when it is a non-empty string. */
  function ScheduleRef(reg: Json): Option<string> {
    match Member(reg, "scheduleId")
    case Some(sch) =>
      (match Member(sch, "_id")
       case Some(JStr(id)) => if id != "" then Some(id) else None
       case _ => None)
    case None => None
  }

  /** `reg.sessionId`, when it is a non-empty string. */
  function SessionRef(reg: Json): Option<string> {
    match Member(reg, "sessionId")
    case Some(JStr(id)) => if id != "" then Some(id) else None
    case _ => None
  }

  /** The records the reconcile keeps: both references present. */
  predicate Usable(reg: Json) {
    ScheduleRef(reg).Some? && SessionRef(reg).Some?
  }

  function KeyOf(reg: Json): string
    requires Usable(reg)
  {
    Key(ScheduleRef(reg).value, SessionRef(reg).value)
  }

  /** The stored status of one record; a missing rejection reason is `""`. */
  function RecordOf(reg: Json): (r: StatusRecord)
    ensures !Present(Member(reg, "rejectionReason")) ==> r.rejectionReason == ""
  {
    StatusRecord(TextOr(Member(reg, "status"), ""), TextOr(Member(reg, "paymentStatus"), ""),
                 TextOr(Member(reg, "rejectionReason"), ""))
  }

  datatype Snapshot = Snapshot(ids: seq<string>, statuses: map<string, StatusRecord>)

  /** The state the reconcile rebuilds from the server's records, processed
      in order: each usable record lists its schedule id (once) and writes its
      record at its key, so a later record with the same key wins. */
  function Collect(regs: seq<Json>): (r: Snapshot)
    ensures NoDup(r.ids)
    decreases |regs|
  {
    if regs == [] then Snapshot([], map[])
    else
      var prev := Collect(regs[..|regs| - 1]);
      var reg := regs[|regs| - 1];
      if Usable(reg) then
        Snapshot(AddScheduleId(prev.ids, ScheduleRef(reg).value), prev.statuses[KeyOf(reg) := RecordOf(reg)])
      else prev
  }

  /** Some usable record of `regs` names schedule `x`. */
  ghost predicate NamesSchedule(regs: seq<Json>, x: string) {
    exists i :: 0 <= i < |regs| && Usable(regs[i]) && ScheduleRef(regs[i]).value == x
  }

  /** Some usable record of `regs` has key `k`. */
  ghost predicate NamesKey(regs: seq<Json>, k: string) {
    exists i :: 0 <= i < |regs| && Usable(regs[i]) && KeyOf(regs[i]) == k
  }

  /** The rebuilt list holds exactly the schedules the server reported. */
  lemma {:induction false} CollectIds(regs: seq<Json>, x: string)
    ensures x in Collect(regs).ids <==> NamesSchedule(regs, x)
    decreases |regs|
  {
    if regs != [] {
      var p := regs[..|regs| - 1];
      CollectIds(p, x);
      if NamesSchedule(p, x) {
        var i :| 0 <= i < |p| && Usable(p[i]) && ScheduleRef(p[i]).value == x;
        assert regs[i] == p[i];
      }
      if NamesSchedule(regs, x) && !NamesSchedule(p, x) {
        var i :| 0 <= i < |regs| && Usable(regs[i]) && ScheduleRef(regs[i]).value == x;
      }
    }
  }

  /** The rebuilt status map has exactly the keys the server reported. */
  lemma {:induction false} CollectKeys(regs: seq<Json>, k: string)
    ensures k in Collect(regs).statuses <==> NamesKey(regs, k)
    decreases |regs|
  {
    if regs != [] {
      var p := regs[..|regs| - 1];
      CollectKeys(p, k);
      if NamesKey(p, k) {
        var i :| 0 <= i < |p| && Usable(p[i]) && KeyOf(p[i]) == k;
        assert regs[i] == p[i];
      }
      if NamesKey(regs, k) && !NamesKey(p, k) {
        var i :| 0 <= i < |regs| && Usable(regs[i]) && KeyOf(regs[i]) == k;
      }
    }
  }

  /** The status stored at a key is the record of the last usable entry with
      that key: later records overwrite earlier ones. */
  lemma {:induction false} CollectLastWins(regs: seq<Json>, i: int)
    requires 0 <= i < |regs| && Usable(regs[i])
    requires forall j :: i < j < |regs| && Usable(regs[j]) ==> KeyOf(regs[j]) != KeyOf(regs[i])
    ensures KeyOf(regs[i]) in Collect(regs).statuses
    ensures Collect(regs).statuses[KeyOf(regs[i])] == RecordOf(regs[i])
    decreases |regs|
  {
    var p := regs[..|regs| - 1];
    if i < |regs| - 1 {
      assert p[i] == regs[i];
      forall j | i < j < |p| && Usable(p[j]) ensures KeyOf(p[j]) != KeyOf(p[i]) {
        assert p[j] == regs[j];
      }
      CollectLastWins(p, i);
    }
  }

  /** `result.data.registrations`, when it is an array the reconcile can
      read. A `null` entry makes the filter throw reading `reg.scheduleId`;
      the catch then keeps the state as it was, as it does for a missing
      list, so both are `None`. */
  function RegistrationsOf(body: Json): (r: Option<seq<Json>>)
    ensures r.Some? ==> JNull !in r.value
    ensures r.Some? ==> exists data :: Member(body, "data") == Some(data) && Member(data, "registrations") == Some(JArray(r.value))
  {
    match Member(body, "data")
    case Some(data) =>
      if Truthy(data) then
        (match Member(data, "registrations")
         case Some(JArray(items)) => if JNull in items then None else Some(items)
         case _ => None)
      else None
    case None => None
  }

  /** A list with a `null` entry is not read at all: the state stays as it
      was, optimistic entries included. */
  lemma NullEntryKeepsState(s: RegState, a: AuthView, items: seq<Json>, i: int)
    requires 0 <= i < |items| && items[i] == JNull
    ensures var body := JObject(map["data" := JObject(map["registrations" := JArray(items)])]);
            FetchUserRegistrations(s, a, Ok(body)).state == s
  {
    var body := JObject(map["data" := JObject(map["registrations" := JArray(items)])]);
    assert JNull in items;
    assert RegistrationsOf(body).None?;
  }

  /** `fetchUserRegistrations()`: nothing unless logged in, verified and
      holding a token; a usable reply replaces both parts of the state; an
      authentication failure is handled; any other failure changes nothing. */
  function FetchUserRegistrations(s: RegState, a: AuthView, reply: Result<Json, Http.ApiError>): (r: Step)
    ensures !(a.isLoggedIn && a.verified && HasToken(a)) ==> r == Step(s, [])
    ensures a.isLoggedIn && a.verified && HasToken(a) ==>
              |r.effects| > 0 && r.effects[0] == Get(MyRegistrationsPath) && Posts(r.effects) == []
    ensures a.isLoggedIn && a.verified && HasToken(a) && reply.Ok? && RegistrationsOf(reply.value).Some? ==>
              var snap := Collect(RegistrationsOf(reply.value).value);
              r == Step(s.(registeredScheduleIds := snap.ids, statuses := snap.statuses), [Get(MyRegistrationsPath)])
    ensures reply.Ok? && RegistrationsOf(reply.value).None? ==> r.state == s
    ensures reply.Err? && reply.error.status !in {401, 403} ==> r.state == s
    ensures a.isLoggedIn && a.verified && HasToken(a) && reply.Err? && reply.error.status in {401, 403} ==>
              var h := HandleAuthError(s, reply.error).value;
              r == Step(h.state, [Get(MyRegistrationsPath)] + h.effects)
  {
    if !(a.isLoggedIn && a.verified && HasToken(a)) then Step(s, [])
    else
      var get := Get(MyRegistrationsPath);
      match reply
      case Ok(body) =>
        (match RegistrationsOf(body)
         case Some(regs) =>
           var snap := Collect(regs);
           Step(s.(registeredScheduleIds := snap.ids, statuses := snap.statuses), [get])
         case None => Step(s, [get]))
      case Err(e) =>
        match HandleAuthError(s, e)
        case Some(h) =>
          assert Posts([get] + h.effects) == [];
          Step(h.state, [get] + h.effects)
        case None => Step(s, [get])
  }

  /** The reconcile is authoritative: whatever optimistic entries two states
      held, the same reply leaves both with the same ids and statuses, and a
      key survives only if the server reported it. */
  lemma ReconcileReplaces(s1: RegState, s2: RegState, a: AuthView, body: Json, key: string)
    requires a.isLoggedIn && a.verified && HasToken(a)
    requires RegistrationsOf(body).Some?
    ensures var r1 := FetchUserRegistrations(s1, a, Ok(body)).state;
            var r2 := FetchUserRegistrations(s2, a, Ok(body)).state;
            && r1.registeredScheduleIds == r2.registeredScheduleIds
            && r1.statuses == r2.statuses
            && (key in r1.statuses <==> NamesKey(RegistrationsOf(body).value, key))
  {
    CollectKeys(RegistrationsOf(body).value, key);
  }

  /** The mount effect: the reconcile runs when the user is logged in and verified. */
  function OnAuthChange(s: RegState, a: AuthView, reply: Result<Json, Http.ApiError>): (r: Step)
    ensures !(a.isLoggedIn && a.verified) ==> r == Step(s, [])
    ensures a.isLoggedIn && a.verified ==> r == FetchUserRegistrations(s, a, reply)
  {
    if a.isLoggedIn && a.verified then FetchUserRegistrations(s, a, reply) else Step(s, [])
  }

  /* ---------------------------------------------------------------------
     Invariant
     --------------------------------------------------------------------- */

  /** The registered list has no duplicates and lists the schedule of every
      key in the status map. */
  ghost predicate Valid(s: RegState) {
    && NoDup(s.registeredScheduleIds)
    && forall k :: k in s.statuses ==> Listed(s.registeredScheduleIds, k)
  }

  /** Some id of the list is the schedule part of the key. */
  ghost predicate Listed(ids: seq<string>, k: string) {
    exists j :: 0 <= j < |ids| && StartsWith(k, ids[j] + ":")
  }

  /** A key stays listed when the list grows at its end. */
  lemma ListedExtends(ids: seq<string>, more: seq<string>, k: string)
    requires Listed(ids, k)
    ensures Listed(ids + more, k)
  {
    var j :| 0 <= j < |ids| && StartsWith(k, ids[j] + ":");
    assert (ids + more)[j] == ids[j];
  }

  /** A key built from a listed schedule id is listed. */
  lemma KeyIsListed(ids: seq<string>, scheduleId: string, sessionId: string)
    requires scheduleId in ids
    ensures Listed(ids, Key(scheduleId, sessionId))
  {
    var j :| 0 <= j < |ids| && ids[j] == scheduleId;
    assert StartsWith(Key(scheduleId, sessionId), ids[j] + ":");
  }

  lemma {:induction false} OptimisticKeepsValid(s: RegState, scheduleId: string, sessionId: string)
    requires Valid(s)
    ensures Valid(Optimistic(s, scheduleId, Key(scheduleId, sessionId)))
  {
    var key := Key(scheduleId, sessionId);
    var r := Optimistic(s, scheduleId, key);
    var ids := s.registeredScheduleIds;
    AddScheduleIdKeeps(ids, scheduleId);
    var more := if scheduleId in ids then [] else [scheduleId];
    assert r.registeredScheduleIds == ids + more;
    forall k | k in r.statuses
      ensures Listed(r.registeredScheduleIds, k)
    {
      if k == key {
        KeyIsListed(r.registeredScheduleIds, scheduleId, sessionId);
      } else {
        ListedExtends(ids, more, k);
      }
    }
  }

  lemma {:induction false} CollectIsValid(regs: seq<Json>, message: Notice)
    ensures var snap := Collect(regs); Valid(RegState(snap.ids, snap.statuses, message, 0))
  {
    var snap := Collect(regs);
    forall k | k in snap.statuses
      ensures Listed(snap.ids, k)
    {
      CollectKeys(regs, k);
      var i :| 0 <= i < |regs| && Usable(regs[i]) && KeyOf(regs[i]) == k;
      var id := ScheduleRef(regs[i]).value;
      CollectIds(regs, id);
      var j :| 0 <= j < |snap.ids| && snap.ids[j] == id;
      assert StartsWith(k, snap.ids[j] + ":");
    }
  }

  lemma {:induction false} AddScheduleIdKeepsValid(s: RegState, scheduleId: string)
    requires Valid(s)
    ensures Valid(s.(registeredScheduleIds := AddScheduleId(s.registeredScheduleIds, scheduleId)))
  {
    var r := s.(registeredScheduleIds := AddScheduleId(s.registeredScheduleIds, scheduleId));
    AddScheduleIdKeeps(s.registeredScheduleIds, scheduleId);
    var more := if scheduleId in s.registeredScheduleIds then [] else [scheduleId];
    assert r.registeredScheduleIds == s.registeredScheduleIds + more;
    forall k | k in r.statuses
      ensures Listed(r.registeredScheduleIds, k)
    {
      ListedExtends(s.registeredScheduleIds, more, k);
    }
  }

  /** `handleRegister` keeps the invariant. */
  lemma {:induction false} RegisterKeepsValid(s: RegState, a: AuthView, scheduleId: string, sessionId: string,
                                              reply: Result<Json, Http.ApiError>)
    requires Valid(s)
    ensures Valid(HandleRegister(s, a, scheduleId, sessionId, reply).state)
  {
    var r := HandleRegister(s, a, scheduleId, sessionId, reply).state;
    if RegisterPosts(s, a, scheduleId, sessionId) {
      var key := Key(scheduleId, sessionId);
      OptimisticKeepsValid(s, scheduleId, sessionId);
      if reply.Err? {
        var f := RegisterFailure(s, scheduleId, key, reply.error);
        if ClassifyRegisterError(reply.error) != Conflict {
          assert r.registeredScheduleIds == s.registeredScheduleIds && r.statuses == s.statuses;
        }
      }
    } else {
      assert r.registeredScheduleIds == s.registeredScheduleIds && r.statuses == s.statuses;
    }
  }

  /** `handleRequestFullClass` keeps the invariant. */
  lemma {:induction false} RequestFullClassKeepsValid(s: RegState, a: AuthView, scheduleId: string, sessionId: string,
                                                      reply: Result<Json, Http.ApiError>)
    requires Valid(s)
    ensures Valid(HandleRequestFullClass(s, a, scheduleId, sessionId, reply).state)
  {
    OptimisticKeepsValid(s, scheduleId, sessionId);
    AddScheduleIdKeepsValid(s, scheduleId);
  }

  /** The reconcile keeps the invariant. */
  lemma {:induction false} FetchKeepsValid(s: RegState, a: AuthView, reply: Result<Json, Http.ApiError>)
    requires Valid(s)
    ensures Valid(FetchUserRegistrations(s, a, reply).state)
  {
    if reply.Ok? && RegistrationsOf(reply.value).Some? {
      CollectIsValid(RegistrationsOf(reply.value).value, s.message);
    }
  }
}

=== FILE: registration_button.dfy ===
/** The registration control of a schedule card (`RegistrationButton`): a
    strict precedence chain choosing one link, button or label. */
module RegistrationButton {
  import opened Common
  import opened Sessions
  import Registration

  /** What the control reads: fullness, the auth state, the loading flag,
      the schedule, the selected session (`""` = none), the session ids the
      card counts as registered, the sessions, and the current instant. */
  datatype Props = Props(
    isFull: bool,
    isLoggedIn: bool,
    verified: bool,
    authLoading: bool,
    scheduleId: string,
    selected: string,
    registered: set<string>,
    sessions: seq<Session>,
    now: int)

  /** The nine outcomes of the chain. */
  datatype Control =
    | LoginToRequest
    | VerifyToRequest
    | RequestSpot
    | LoginToRegister
    | VerifyToRegister
    | SelectSession
    | Hidden
    | SessionStarted
    | RegisterFor(session: Option<Session>)

  /** `new Date() >= new Date(startDate)` for the selected session. An
      unknown session has not started, and neither has one whose start is no
      valid date (`None`: the comparison with an invalid date is false). A
      `null` start is `new Date(null)`, the epoch, so it is the start
      `Some(Start(0, ...))` and has started. */
  predicate HasStarted(p: Props) {
    match Find(p.sessions, p.selected)
    case Some(s) => s.start.Some? && p.now >= s.start.value.ms
    case None => false
  }

  /** The precedence chain: fullness first, then login, verification,
      selection, an existing registration, and the start time. */
  function Choose(p: Props): (c: Control)
    ensures c == LoginToRequest <==> p.isFull && !p.isLoggedIn
    ensures c == VerifyToRequest <==> p.isFull && p.isLoggedIn && !p.verified
    ensures c == RequestSpot <==> p.isFull && p.isLoggedIn && p.verified
    ensures c == LoginToRegister <==> !p.isFull && !p.isLoggedIn
    ensures c == VerifyToRegister <==> !p.isFull && p.isLoggedIn && !p.verified
    ensures c == SelectSession <==> !p.isFull && p.isLoggedIn && p.verified && p.selected == ""
    ensures c == Hidden <==>
              !p.isFull && p.isLoggedIn && p.verified && p.selected != "" && p.selected in p.registered
    ensures c == SessionStarted <==>
              !p.isFull && p.isLoggedIn && p.verified && p.selected != "" && p.selected !in p.registered
              && HasStarted(p)
    ensures c.RegisterFor? <==>
              !p.isFull && p.isLoggedIn && p.verified && p.selected != "" && p.selected !in p.registered
              && !HasStarted(p)
    ensures c.RegisterFor? ==> c.session == Find(p.sessions, p.selected)
  {
    if p.isFull then
      if !p.isLoggedIn then LoginToRequest
      else if !p.verified then VerifyToRequest
      else RequestSpot
    else if !p.isLoggedIn then LoginToRegister
    else if !p.verified then VerifyToRegister
    else if p.selected == "" then SelectSession
    else if p.selected in p.registered then Hidden
    else if HasStarted(p) then SessionStarted
    else RegisterFor(Find(p.sessions, p.selected))
  }

  /** The link a control navigates to, if it is a link. */
  function Target(c: Control): (path: Option<string>)
    ensures path.Some? <==> c in {LoginToRequest, VerifyToRequest, LoginToRegister, VerifyToRegister}
    ensures c in {LoginToRequest, LoginToRegister} ==> path == Some(Registration.LoginPath)
    ensures c in {VerifyToRequest, VerifyToRegister} ==> path == Some(Registration.VerifyPath)
  {
    match c
    case LoginToRequest => Some(Registration.LoginPath)
    case LoginToRegister => Some(Registration.LoginPath)
    case VerifyToRequest => Some(Registration.VerifyPath)
    case VerifyToRegister => Some(Registration.VerifyPath)
    case _ => None
  }

  /** The visible text; `dateText` is the locale rendering of the session's
      start date. `Hidden` renders nothing. */
  function Caption(c: Control, authLoading: bool, dateText: string): string {
    match c
    case LoginToRequest => "Log in to Request Spot"
    case VerifyToRequest => "Verify Account to Request"
    case RequestSpot => if authLoading then "Processing..." else "Request a Spot"
    case LoginToRegister => "Log in to Register"
    case VerifyToRegister => "Verify Account to Register"
    case SelectSession => "Select a session"
    case Hidden => ""
    case SessionStarted => "Session has started"
    case RegisterFor(s) =>
      if authLoading then "Processing..."
      else if s.Some? then "Register for " + dateText + " session"
      else "Register for Class"
  }

  /** What pressing the control does. */
  datatype Click =
    | NoClick
    | OpenCalendar
    | RequestFullClass(scheduleId: string, sessionId: string)
    | Register(scheduleId: string, sessionId: string)

  /** The click handler; the two action buttons are disabled while the auth
      state loads. */
  function OnClick(c: Control, p: Props): (k: Click)
    ensures k.OpenCalendar? <==> c == SelectSession
    ensures k.RequestFullClass? <==> c == RequestSpot && !p.authLoading
    ensures k.Register? <==> c.RegisterFor? && !p.authLoading
    ensures k.RequestFullClass? ==> k == RequestFullClass(p.scheduleId, p.selected)
    ensures k.Register? ==> k == Register(p.scheduleId, p.selected)
  {
    match c
    case SelectSession => OpenCalendar
    case RequestSpot => if p.authLoading then NoClick else RequestFullClass(p.scheduleId, p.selected)
    case RegisterFor(_) => if p.authLoading then NoClick else Register(p.scheduleId, p.selected)
    case _ => NoClick
  }

  /** Fullness takes precedence: a full session never offers registration,
      and a session that is not full never offers a spot request. */
  lemma FullnessPrecedes(p: Props)
    ensures p.isFull ==> Choose(p) in {LoginToRequest, VerifyToRequest, RequestSpot}
    ensures !p.isFull ==> Choose(p) !in {LoginToRequest, VerifyToRequest, RequestSpot}
    ensures p.isFull ==> !OnClick(Choose(p), p).Register?
  {
  }

  /** A click on the register button reaches `handleRegister` with a logged-in,
      verified user and a selected session, so the hook's first three guards
      pass: with a schedule id and no blocking record it sends the POST. */
  lemma RegisterClickPassesGuards(p: Props, s: Registration.RegState, token: Option<string>)
    requires OnClick(Choose(p), p).Register?
    requires p.scheduleId != ""
    requires !Registration.Blocks(s, Registration.Key(p.scheduleId, p.selected))
    ensures Registration.RegisterPosts(s, Registration.AuthView(p.isLoggedIn, p.verified, token), p.scheduleId, p.selected)
  {
  }
}

=== FILE: schedule_card.dfy ===
/** A schedule card (`ScheduleCard`): the selected session, the status
    looked up under its composite key, the session ids counted as registered,
    the fetched capacities and the fullness they give, and the calendar's
    confirm button. */
module ScheduleCard {
  import opened Common
  import opened Sessions
  import Registration
  import StatusIndicator
  import RegistrationButton

  /** `{paid, total}` fetched for one session; 0 stands for an absent number. */
  datatype Capacity = Capacity(paid: int, total: int)

  datatype Card = Card(
    scheduleId: string,
    sessions: seq<Session>,
    selected: string,
    capacities: map<string, Capacity>,
    showCalendar: bool)

  /** A card as first rendered: no session selected, no capacities. */
  function Initial(scheduleId: string, sessions: seq<Session>): Card {
    Card(scheduleId, sessions, "", map[], false)
  }

  /* ---------------------------------------------------------------------
     Status lookup
     --------------------------------------------------------------------- */

  /** `regStatus`: looked up only when a session is selected, and only under
      the composite key of this schedule and that session. */
  function StatusOf(statuses: map<string, Registration.StatusRecord>, scheduleId: string, selected: string)
    : (r: Option<Registration.StatusRecord>)
    ensures selected == "" ==> r.None?
    ensures selected != "" ==> (r.Some? <==> Registration.Key(scheduleId, selected) in statuses)
    ensures r.Some? ==> r.value == statuses[Registration.Key(scheduleId, selected)]
  {
    if selected == "" then None
    else
      var key := Registration.Key(scheduleId, selected);
      if key in statuses then Some(statuses[key]) else None
  }

  predicate IsApproved(r: Option<Registration.StatusRecord>) {
    r.Some? && r.value.status == "approved"
  }

  predicate IsPaid(r: Option<Registration.StatusRecord>) {
    r.Some? && r.value.paymentStatus == "paid"
  }

  /* ---------------------------------------------------------------------
     Registered session ids
     --------------------------------------------------------------------- */

  predicate ColonFree(s: string) {
    forall i :: 0 <= i < |s| ==> s[i] != ':'
  }

  /** Index of the first colon, `|s|` when there is none. */
  function ColonAt(s: string): (k: nat)
    ensures k <= |s|
    ensures ColonFree(s[..k])
    ensures k < |s| ==> s[k] == ':'
    decreases |s|
  {
    if s == [] then 0
    else if s[0] == ':' then 0
    else
      var k := 1 + ColonAt(s[1..]);
      assert s[..k] == [s[0]] + s[1..][..k - 1];
      k
  }

  /** `s.split(":")[1]`: the text between the first and the second colon, or
      to the end when there is no second; absent when there is no colon. */
  function SecondField(s: string): (r: Option<string>)
    ensures r.Some? <==> ColonAt(s) < |s|
    ensures r.Some? ==> ColonFree(r.value)
  {
    var i := ColonAt(s);
    if i == |s| then None
    else
      var rest := s[i + 1..];
      Some(rest[..ColonAt(rest)])
  }

  /** A key with exactly one colon. */
  predicate OneColon(k: string) {
    ColonAt(k) < |k| && ColonFree(k[ColonAt(k) + 1..])
  }

  /** `registeredSessionIds`: the second field of every key of the status map
      that starts with this schedule's id and a colon. Only `includes` is
      asked of it, so it is a set. */
  function RegisteredSessionIds(statuses: map<string, Registration.StatusRecord>, scheduleId: string): set<string> {
    set k | k in statuses && StartsWith(k, scheduleId + ":") && SecondField(k).Some? :: SecondField(k).value
  }

  /** With colon-free ids the composite key splits back into its parts. */
  lemma SplitKey(scheduleId: string, sessionId: string)
    requires ColonFree(scheduleId) && ColonFree(sessionId)
    ensures ColonAt(Registration.Key(scheduleId, sessionId)) == |scheduleId|
    ensures SecondField(Registration.Key(scheduleId, sessionId)) == Some(sessionId)
    ensures OneColon(Registration.Key(scheduleId, sessionId))
  {
    var k := Registration.Key(scheduleId, sessionId);
    ColonAtIsFirst(k, |scheduleId|);
    assert k[|scheduleId| + 1..] == sessionId;
    ColonAtIsFirst(sessionId, |sessionId|);
    assert sessionId[..|sessionId|] == sessionId;
  }

  /** The first colon is found where the text before it is colon-free. */
  lemma {:induction false} ColonAtIsFirst(s: string, k: nat)
    requires k <= |s| && ColonFree(s[..k]) && (k < |s| ==> s[k] == ':')
    ensures ColonAt(s) == k
    decreases |s|
  {
    if s != [] && k > 0 {
      assert s[0] == s[..k][0];
      assert s[1..][..k - 1] == s[1..k];
      ColonAtIsFirst(s[1..], k - 1);
    }
  }

  /** When ids contain no colon and every key has exactly one, a session
      counts as registered exactly when the status map has its key. */
  lemma {:induction false} RegisteredSessionIdsRoundTrip(statuses: map<string, Registration.StatusRecord>,
                                                          scheduleId: string, sessionId: string)
    requires ColonFree(scheduleId) && ColonFree(sessionId)
    requires forall k :: k in statuses ==> OneColon(k)
    ensures sessionId in RegisteredSessionIds(statuses, scheduleId) <==>
            Registration.Key(scheduleId, sessionId) in statuses
  {
    var key := Registration.Key(scheduleId, sessionId);
    SplitKey(scheduleId, sessionId);
    if key in statuses {
      assert StartsWith(key, scheduleId + ":");
      assert sessionId in RegisteredSessionIds(statuses, scheduleId);
    }
    if sessionId in RegisteredSessionIds(statuses, scheduleId) {
      var k :| k in statuses && StartsWith(k, scheduleId + ":") && SecondField(k) == Some(sessionId);
      assert k[..|scheduleId|] == scheduleId;
      ColonAtIsFirst(k, |scheduleId|);
      var rest := k[|scheduleId| + 1..];
      ColonAtIsFirst(rest, |rest|);
      assert rest[..|rest|] == rest;
      assert k == scheduleId + ":" + rest;
    }
  }

  /** Without the colon-free assumption the round trip fails: a session id
      containing a colon is cut at it, so the card counts the wrong session as
      registered and misses the right one. */
  lemma ColonInSessionIdMisleads()
    ensures var statuses := map["s:a:b" := Registration.PendingRecord];
            && "a" in RegisteredSessionIds(statuses, "s")
            && Registration.Key("s", "a") !in statuses
            && "a:b" !in RegisteredSessionIds(statuses, "s")
            && Registration.Key("s", "a:b") in statuses
  {
    var statuses := map["s:a:b" := Registration.PendingRecord];
    ColonAtIsFirst("s:a:b", 1);
    assert "s:a:b"[2..] == "a:b";
    ColonAtIsFirst("a:b", 1);
    assert "a:b"[..1] == "a";
    assert SecondField("s:a:b") == Some("a");
    assert StartsWith("s:a:b", "s" + ":");
    assert Registration.Key("s", "a:b") == "s:a:b";
  }

  /* ---------------------------------------------------------------------
     Capacity and fullness
     --------------------------------------------------------------------- */

  /** `selectedSession?.capacity || capacityMap[selectedSessionId]?.total || 0` */
  function SessionCapacity(c: Card): int {
    var own := match Find(c.sessions, c.selected) case Some(s) => s.capacity case None => 0;
    if own != 0 then own
    else if c.selected in c.capacities then c.capacities[c.selected].total
    else 0
  }

  /** `capacityMap[selectedSessionId]?.paid || 0` */
  function SessionPaid(c: Card): int {
    if c.selected in c.capacities then c.capacities[c.selected].paid else 0
  }

  /** `isFull`: a positive capacity that the paid count has reached. The
      session's own capacity takes precedence over the fetched total, and
      with nothing fetched for the session it can never be full. */
  function IsFull(c: Card): (full: bool)
    ensures full ==> c.selected in c.capacities
    ensures Find(c.sessions, c.selected).Some? && Find(c.sessions, c.selected).value.capacity != 0 ==>
              var cap := Find(c.sessions, c.selected).value.capacity;
              (full <==> cap > 0 && c.selected in c.capacities && c.capacities[c.selected].paid >= cap)
    ensures (Find(c.sessions, c.selected).None? || Find(c.sessions, c.selected).value.capacity == 0) ==>
              (full <==> c.selected in c.capacities && c.capacities[c.selected].total > 0
                         && c.capacities[c.selected].paid >= c.capacities[c.selected].total)
  {
    var cap := SessionCapacity(c);
    if cap > 0 then SessionPaid(c) >= cap else false
  }

  /** A numeric property, 0 when absent or not a number. */
  function NumberOr0(o: Option<Json>): int {
    match o
    case Some(JNum(n)) => n
    case _ => 0
  }

  /** A decimal digit as a character. */
  function DigitChar(d: int): (c: char)
    requires 0 <= d < 10
    ensures IsDigit(c)
  {
    ('0' as int + d) as char
  }

  /** The decimal text of a natural number, without leading zeros. */
  function DigitsText(n: nat): (r: string)
    ensures |r| > 0 && AllDigits(r)
    ensures |r| > 1 ==> r[0] != '0'
    decreases n
  {
    if n < 10 then [DigitChar(n)] else DigitsText(n / 10) + [DigitChar(n % 10)]
  }

  /** The number a text of decimal digits denotes. */
  function DigitsValue(s: string): (v: int)
    requires AllDigits(s)
    ensures v >= 0
  {
    if s == [] then 0 else DigitsValue(s[..|s| - 1]) * 10 + (s[|s| - 1] as int - '0' as int)
  }

  /** `DigitsText` writes exactly the number: reading the text back gives it. */
  lemma {:induction false} DigitsRoundTrip(n: nat)
    ensures DigitsValue(DigitsText(n)) == n
    decreases n
  {
    var r := DigitsText(n);
    if n < 10 {
      assert r[..|r| - 1] == [];
    } else {
      DigitsRoundTrip(n / 10);
      assert r[..|r| - 1] == DigitsText(n / 10);
    }
  }

  /** `String(n)` of an integer: a minus sign for a negative one. */
  function NumberText(n: int): (r: string)
    ensures n >= 0 ==> r == DigitsText(n)
    ensures n < 0 ==> r == "-" + DigitsText(-n)
  {
    if n < 0 then "-" + DigitsText(-n) else DigitsText(n)
  }

  /** The map key of one capacity entry: `sessionId` used as a property
      name, so converted to text. A missing one files under "undefined", a
      number under its decimal text, and an object under "[object Object]".
      An array (whose text joins its elements) is not keyed here. */
  function CapacityKey(entry: Json): (k: Option<string>)
    ensures Member(entry, "sessionId").None? ==> k == Some("undefined")
    ensures Member(entry, "sessionId") == Some(JNull) ==> k == Some("null")
    ensures forall id :: Member(entry, "sessionId") == Some(JStr(id)) ==> k == Some(id)
    ensures forall n :: Member(entry, "sessionId") == Some(JNum(n)) ==> k == Some(NumberText(n))
    ensures k.None? <==> Member(entry, "sessionId").Some? && Member(entry, "sessionId").value.JArray?
  {
    match Member(entry, "sessionId")
    case None => Some("undefined")
    case Some(JNull) => Some("null")
    case Some(JBool(b)) => Some(if b then "true" else "false")
    case Some(JNum(n)) => Some(NumberText(n))
    case Some(JStr(id)) => Some(id)
    case Some(JObject(_)) => Some("[object Object]")
    case Some(JArray(_)) => None
  }

  /** A session id keyed by a number is found under the number's text, so
      reading the key back gives the number. */
  lemma NumericKeyReadsBack(entry: Json, n: nat)
    requires Member(entry, "sessionId") == Some(JNum(n))
    ensures CapacityKey(entry).Some? && AllDigits(CapacityKey(entry).value)
    ensures DigitsValue(CapacityKey(entry).value) == n
  {
    DigitsRoundTrip(n);
  }

  function CapacityOf(entry: Json): Capacity {
    Capacity(NumberOr0(Member(entry, "paid")), NumberOr0(Member(entry, "totalCapacity")))
  }

  /** `data?.data?.sessions`, when it is an array without `null` entries
      (reading `sessionId` of `null` throws, and the failure is ignored). */
  function CapacityEntries(body: Json): Option<seq<Json>> {
    match Member(body, "data")
    case Some(data) =>
      (match Member(data, "sessions")
       case Some(JArray(items)) => if JNull in items then None else Some(items)
       case _ => None)
    case None => None
  }

  /** The capacity effect: `body` is the parsed response, `None` when the
      fetch or the parse threw. Only a usable reply replaces the map; every
      failure leaves it as it was. */
  function LoadCapacity(c: Card, body: Option<Json>): (r: Card)
    ensures r.scheduleId == c.scheduleId && r.sessions == c.sessions && r.selected == c.selected
    ensures r.showCalendar == c.showCalendar
    ensures body.None? || CapacityEntries(body.value).None? ==> r == c
    ensures body.Some? && CapacityEntries(body.value).Some? ==>
              r.capacities == IndexBy(CapacityEntries(body.value).value, CapacityKey, CapacityOf)
  {
    if body.Some? && CapacityEntries(body.value).Some? then
      c.(capacities := IndexBy(CapacityEntries(body.value).value, CapacityKey, CapacityOf))
    else c
  }

  /** Fail-open: when the capacity fetch fails nothing counts as paid, so
      the card is never full, whatever capacity the session declares. */
  lemma FailedLoadIsNeverFull(scheduleId: string, sessions: seq<Session>, selected: string)
    ensures !IsFull(LoadCapacity(Initial(scheduleId, sessions).(selected := selected), None))
  {
  }

  /** A loaded capacity entry is the last one the server listed for that
      session, and only listed sessions get one. */
  lemma LoadedCapacity(c: Card, body: Json, i: int)
    requires CapacityEntries(body).Some?
    requires var items := CapacityEntries(body).value;
             0 <= i < |items| && CapacityKey(items[i]).Some?
             && forall j :: i < j < |items| ==> CapacityKey(items[j]) != CapacityKey(items[i])
    ensures var items := CapacityEntries(body).value;
            var caps := LoadCapacity(c, Some(body)).capacities;
            && CapacityKey(items[i]).value in caps
            && caps[CapacityKey(items[i]).value] == CapacityOf(items[i])
  {
    IndexByLastWins(CapacityEntries(body).value, CapacityKey, CapacityOf, i);
  }

  /* ---------------------------------------------------------------------
     Calendar confirm
     --------------------------------------------------------------------- */

  /** The confirm button: the next card, and the session `handleRegister` is
      called for, if any. */
  datatype Confirm = Confirm(card: Card, register: Option<string>)

  /** Without a selection nothing happens; with one the calendar closes, and
      `handleRegister` runs only for a session not already registered. */
  function ConfirmClick(c: Card, registered: set<string>): (r: Confirm)
    ensures c.selected == "" ==> r == Confirm(c, None)
    ensures c.selected != "" ==> r.card == c.(showCalendar := false)
    ensures r.register.Some? <==> c.selected != "" && c.selected !in registered
    ensures r.register.Some? ==> r.register.value == c.selected
  {
    if c.selected == "" then Confirm(c, None)
    else Confirm(c.(showCalendar := false), if c.selected in registered then None else Some(c.selected))
  }

  /** The confirm button's label. */
  datatype ConfirmCaption =
    | PleaseSelect
    | SelectThis
    | RegisterForDate(start: Option<Start>)
    | RegisterForThis

  function ConfirmLabel(c: Card, registered: set<string>): ConfirmCaption {
    if c.selected == "" then PleaseSelect
    else if c.selected in registered then SelectThis
    else match Find(c.sessions, c.selected)
      case Some(s) => RegisterForDate(s.start)
      case None => RegisterForThis
  }

  /** The label text; `dateText` is the locale rendering of the start date. */
  function ConfirmText(l: ConfirmCaption, dateText: string): string {
    match l
    case PleaseSelect => "Please select a session"
    case SelectThis => "Select this session"
    case RegisterForDate(_) => "Register for " + dateText + " session"
    case RegisterForThis => "Register for this session"
  }

  /** The label promises a registration exactly when the click makes one, and
      names the session's date exactly when the session is known. */
  lemma ConfirmLabelMatchesClick(c: Card, registered: set<string>)
    ensures var l := ConfirmLabel(c, registered);
            && (l.RegisterForDate? || l == RegisterForThis <==> ConfirmClick(c, registered).register.Some?)
            && (l == PleaseSelect <==> c.selected == "")
            && (l.RegisterForDate? <==> ConfirmClick(c, registered).register.Some? && Find(c.sessions, c.selected).Some?)
  {
  }

  /* ---------------------------------------------------------------------
     The card's children
     --------------------------------------------------------------------- */

  /** The badge the card shows for a status map. */
  function Badge(statuses: map<string, Registration.StatusRecord>, c: Card): StatusIndicator.Badge {
    var reg := StatusOf(statuses, c.scheduleId, c.selected);
    StatusIndicator.SelectBadge(reg, IsApproved(reg))
  }

  /** The props the card hands its registration control. */
  function ButtonProps(statuses: map<string, Registration.StatusRecord>, c: Card,
                       isLoggedIn: bool, verified: bool, authLoading: bool, now: int): RegistrationButton.Props {
    RegistrationButton.Props(IsFull(c), isLoggedIn, verified, authLoading, c.scheduleId, c.selected,
                             RegisteredSessionIds(statuses, c.scheduleId), c.sessions, now)
  }

  /** On a card the approval flag comes from the record itself, so the badge
      is decided by the status alone: confirmed exactly for "approved",
      rejected exactly for "rejected", pending for anything else. */
  lemma CardBadgeFollowsStatus(statuses: map<string, Registration.StatusRecord>, c: Card)
    requires c.selected != "" && Registration.Key(c.scheduleId, c.selected) in statuses
    ensures var st := statuses[Registration.Key(c.scheduleId, c.selected)].status;
            && (Badge(statuses, c) == StatusIndicator.ConfirmedBadge <==> st == "approved")
            && (Badge(statuses, c).RejectedBadge? <==> st == "rejected")
            && (Badge(statuses, c) == StatusIndicator.PendingBadge <==> st != "approved" && st != "rejected")
  {
  }

  /** After a successful registration the card for that session shows the
      pending badge and, for a session that is not full, hides its register
      button. */
  lemma SuccessShowsPending(s: Registration.RegState, a: Registration.AuthView, body: Json, c: Card, now: int)
    requires c.selected != ""
    requires ColonFree(c.scheduleId) && ColonFree(c.selected)
    requires Registration.RegisterPosts(s, a, c.scheduleId, c.selected)
    ensures var after := Registration.HandleRegister(s, a, c.scheduleId, c.selected, Ok(body)).state;
            && Badge(after.statuses, c) == StatusIndicator.PendingBadge
            && c.selected in RegisteredSessionIds(after.statuses, c.scheduleId)
            && (a.isLoggedIn && a.verified && !IsFull(c) ==>
                  RegistrationButton.Choose(ButtonProps(after.statuses, c, a.isLoggedIn, a.verified, false, now))
                  == RegistrationButton.Hidden)
  {
    var after := Registration.HandleRegister(s, a, c.scheduleId, c.selected, Ok(body)).state;
    var key := Registration.Key(c.scheduleId, c.selected);
    SplitKey(c.scheduleId, c.selected);
    assert key in after.statuses && StartsWith(key, c.scheduleId + ":");
  }

  /** Every status key counts as registered, a rejected one included, so the
      card never offers to register again for a session whose registration
      was rejected, although the hook itself would accept it. */
  lemma RejectedStaysRegisteredOnCard(statuses: map<string, Registration.StatusRecord>, c: Card,
                                      isLoggedIn: bool, verified: bool, authLoading: bool, now: int)
    requires c.selected != "" && ColonFree(c.scheduleId) && ColonFree(c.selected)
    requires Registration.Key(c.scheduleId, c.selected) in statuses
    requires statuses[Registration.Key(c.scheduleId, c.selected)].status == "rejected"
    ensures ConfirmClick(c, RegisteredSessionIds(statuses, c.scheduleId)).register.None?
    ensures !RegistrationButton.Choose(ButtonProps(statuses, c, isLoggedIn, verified, authLoading, now)).RegisterFor?
    ensures !Registration.Blocks(Registration.RegState([], statuses, Cleared, 0), Registration.Key(c.scheduleId, c.selected))
  {
    SplitKey(c.scheduleId, c.selected);
    assert StartsWith(Registration.Key(c.scheduleId, c.selected), c.scheduleId + ":");
  }
}

=== FILE: session_calendar.dfy ===
/** The session picker (`SessionCalendar`): a map from calendar day to the
    session starting on it, the month grid built against that map, the day
    click, and month navigation, all in the JavaScript `Date` arithmetic the
    component uses. */
module SessionCalendar {
  import opened Common
  import opened Sessions

  /* ---------------------------------------------------------------------
     Date arithmetic
     --------------------------------------------------------------------- */

  /** The `Date` constructor and `Date.UTC` read a year argument from 0 to 99
      as 1900 to 1999. */
  function JsYear(y: int): (r: int)
    ensures 0 <= y <= 99 ==> r == 1900 + y
    ensures !(0 <= y <= 99) ==> r == y
  {
    if 0 <= y <= 99 then 1900 + y else y
  }

  predicate IsLeap(y: int) {
    y % 4 == 0 && (y % 100 != 0 || y % 400 == 0)
  }

  /** Days in a month of the proleptic Gregorian calendar. */
  function MonthLength(y: int, m: MonthIndex): (n: int)
    ensures 28 <= n <= 31
  {
    if m == 1 then (if IsLeap(y) then 29 else 28)
    else if m == 3 || m == 5 || m == 8 || m == 10 then 30
    else 31
  }

  /** The month lengths of a year add up to the length of the year. */
  lemma YearLength(y: int)
    ensures MonthLength(y, 0) + MonthLength(y, 1) + MonthLength(y, 2) + MonthLength(y, 3)
            + MonthLength(y, 4) + MonthLength(y, 5) + MonthLength(y, 6) + MonthLength(y, 7)
            + MonthLength(y, 8) + MonthLength(y, 9) + MonthLength(y, 10) + MonthLength(y, 11)
            == if IsLeap(y) then 366 else 365
  {
  }

  /** A month as `currentMonth` holds it. */
  datatype Month = Month(year: int, month: MonthIndex)

  /** `new Date(y, m, 1)`: the year argument read by `JsYear`, then a month
      index outside 0..11 carried into the year. */
  function MonthOf(y: int, m: int): (r: Month)
    ensures r.year * 12 + r.month == JsYear(y) * 12 + m
  {
    Month(JsYear(y) + m / 12, m % 12)
  }

  /** The month before. */
  function Before(mo: Month): Month {
    if mo.month == 0 then Month(mo.year - 1, 11) else Month(mo.year, mo.month - 1)
  }

  /** `getDaysInMonth(year, month)`, that is `new Date(year, month + 1, 0).getDate()`:
      day 0 of the next month is the last day of this one. */
  function DaysInMonth(year: int, month: MonthIndex): (n: int)
    ensures 28 <= n <= 31
    ensures n == MonthLength(JsYear(year), month)
  {
    var last := Before(MonthOf(year, month + 1));
    MonthLength(last.year, last.month)
  }

  /** February has 29 days exactly in leap years, as `JsYear` reads the year;
      so the year 0 (leap in the proleptic calendar) gets 28 because it is read
      as 1900. */
  lemma FebruaryDays(year: int)
    ensures DaysInMonth(year, 1) == 29 <==> IsLeap(JsYear(year))
    ensures IsLeap(0) && DaysInMonth(0, 1) == 28
  {
  }

  /** `goToPreviousMonth` */
  function GoToPrevious(c: Month): Month {
    MonthOf(c.year, c.month - 1)
  }

  /** `goToNextMonth` */
  function GoToNext(c: Month): Month {
    MonthOf(c.year, c.month + 1)
  }

  /** Months counted from year 0. */
  function Ordinal(c: Month): int {
    c.year * 12 + c.month
  }

  /** Outside the years 0 to 99 navigation moves exactly one month, rolling
      the year over, and the two buttons undo each other. */
  lemma NavigationSteps(c: Month)
    requires c.year >= 101 || c.year <= -2
    ensures Ordinal(GoToPrevious(c)) == Ordinal(c) - 1
    ensures Ordinal(GoToNext(c)) == Ordinal(c) + 1
    ensures c.month == 0 ==> GoToPrevious(c) == Month(c.year - 1, 11)
    ensures c.month == 11 ==> GoToNext(c) == Month(c.year + 1, 0)
    ensures GoToNext(GoToPrevious(c)) == c
    ensures GoToPrevious(GoToNext(c)) == c
  {
  }

  /** At the edge of that range the round trip fails: back from January of
      the year 100 lands in December 99, and forward from there reads 99 as
      1999. */
  lemma NavigationJumpsAtYear100()
    ensures GoToPrevious(Month(100, 0)) == Month(99, 11)
    ensures GoToNext(GoToPrevious(Month(100, 0))) == Month(2000, 0)
  {
  }

  /* ---------------------------------------------------------------------
     Sessions by day
     --------------------------------------------------------------------- */

  /** The ISO date text of `Date.UTC(y, m, d)`, as the day it names. */
  function DateKey(y: int, m: MonthIndex, d: int): Day {
    Day(JsYear(y), m, d)
  }

  /** The day key the `dateMap` effect files a session under: a session
      whose `startDate` is falsy is skipped, even when `new Date` would read
      it as the epoch; one with a valid date is keyed by its day. */
  function SessionDay(s: Session): (r: Option<Day>)
    ensures r.Some? <==> s.startGiven && s.start.Some?
    ensures r.Some? ==> r.value == Day(JsYear(s.start.value.day.year), s.start.value.day.month, s.start.value.day.date)
  {
    if s.startGiven && s.start.Some? then
      Some(DateKey(s.start.value.day.year, s.start.value.day.month, s.start.value.day.date))
    else None
  }

  /** A truthy `startDate` that is not a valid date: its `getFullYear()` is
      `NaN`, and `toISOString()` of the `NaN` date throws a `RangeError`. */
  predicate StartThrows(s: Session) {
    s.startGiven && s.start.None?
  }

  function SessionId(s: Session): string {
    s.id
  }

  /** The `dateMap` effect: every session with a truthy, valid start, in
      order, stored under its day. `None` when the effect throws, which it
      does when any session's `startDate` is truthy but invalid; the map is
      then never stored. */
  function DateMap(sessions: seq<Session>): (r: Option<map<Day, string>>)
    ensures r.None? <==> exists i :: 0 <= i < |sessions| && StartThrows(sessions[i])
  {
    if exists i :: 0 <= i < |sessions| && StartThrows(sessions[i]) then None
    else Some(IndexBy(sessions, SessionDay, SessionId))
  }

  /** When the effect completes, a day is in the map exactly when some
      session with a truthy `startDate` falls on it. */
  lemma DateMapKeys(sessions: seq<Session>, day: Day)
    ensures DateMap(sessions).Some? ==>
              (day in DateMap(sessions).value <==>
                 exists i :: 0 <= i < |sessions| && sessions[i].startGiven && sessions[i].start.Some?
                             && SessionDay(sessions[i]) == Some(day))
  {
    IndexByKeys(sessions, SessionDay, SessionId, day);
  }

  /** A session whose `startDate` is falsy is never in the map, even a
      `null` one that `new Date` reads as the epoch. */
  lemma FalsyStartIsSkipped(sessions: seq<Session>, i: int, other: Day)
    requires 0 <= i < |sessions| && !sessions[i].startGiven
    requires forall j :: 0 <= j < |sessions| && j != i ==> SessionDay(sessions[j]) != Some(other)
    ensures DateMap(sessions).Some? ==> other !in DateMap(sessions).value
  {
    IndexByKeys(sessions, SessionDay, SessionId, other);
  }

  /** Of several sessions on one day the map keeps the last. */
  lemma DateMapLastWins(sessions: seq<Session>, i: int)
    requires 0 <= i < |sessions| && SessionDay(sessions[i]).Some?
    requires forall j :: i < j < |sessions| ==> SessionDay(sessions[j]) != SessionDay(sessions[i])
    ensures DateMap(sessions).Some? ==>
              SessionDay(sessions[i]).value in DateMap(sessions).value
              && DateMap(sessions).value[SessionDay(sessions[i]).value] == sessions[i].id
  {
    IndexByLastWins(sessions, SessionDay, SessionId, i);
  }

  /* ---------------------------------------------------------------------
     The grid
     --------------------------------------------------------------------- */

  /** A grid cell: padding before the first day, or a day of the month with
      the session starting on it (`""` when there is none). */
  datatype Cell = Blank | DayCell(day: int, hasSession: bool, sessionId: string)

  /** The cell of day `d`. */
  function CellFor(c: Month, d: int, dates: map<Day, string>): (r: Cell)
    ensures r.DayCell? && r.day == d
    ensures r.hasSession <==> DateKey(c.year, c.month, d) in dates
    ensures r.hasSession ==> r.sessionId == dates[DateKey(c.year, c.month, d)]
  {
    var key := DateKey(c.year, c.month, d);
    DayCell(d, key in dates, if key in dates then dates[key] else "")
  }

  /** `generateCalendarDays`: `firstDay` blank cells (the weekday of the 1st,
      0 for Sunday), then days 1 to the month's length in order. */
  method GenerateCalendarDays(c: Month, firstDay: int, dates: map<Day, string>) returns (days: seq<Cell>)
    requires 0 <= firstDay <= 6
    ensures |days| == firstDay + DaysInMonth(c.year, c.month)
    ensures forall i :: 0 <= i < firstDay ==> days[i] == Blank
    ensures forall d :: 1 <= d <= DaysInMonth(c.year, c.month) ==> days[firstDay + d - 1] == CellFor(c, d, dates)
  {
    var n := DaysInMonth(c.year, c.month);
    days := [];
    var i := 0;
    while i < firstDay
      invariant 0 <= i <= firstDay
      invariant |days| == i
      invariant forall j :: 0 <= j < i ==> days[j] == Blank
    {
      days := days + [Blank];
      i := i + 1;
    }
    var d := 1;
    while d <= n
      invariant 1 <= d <= n + 1
      invariant |days| == firstDay + d - 1
      invariant forall j :: 0 <= j < firstDay ==> days[j] == Blank
      invariant forall e :: 1 <= e < d ==> days[firstDay + e - 1] == CellFor(c, e, dates)
    {
      days := days + [CellFor(c, d, dates)];
      d := d + 1;
    }
  }

  /** The picker's state: the selected session and whether the calendar is open. */
  datatype Picker = Picker(selected: string, open: bool)

  /** `handleDayClick`, behind the cell's own `hasSession &&` guard. */
  function HandleDayClick(p: Picker, cell: Cell): (r: Picker)
    ensures cell.DayCell? && cell.hasSession ==> r == Picker(cell.sessionId, false)
    ensures !(cell.DayCell? && cell.hasSession) ==> r == p
  {
    if cell.DayCell? && cell.hasSession then Picker(cell.sessionId, false) else p
  }

  /** Once the map is stored, a click on a day selects a session that
      starts on that day, the last listed one if several do; a day without a
      session changes nothing. */
  lemma DayClickSelectsSessionOfThatDay(sessions: seq<Session>, c: Month, d: int, p: Picker)
    ensures DateMap(sessions).Some? ==>
              var r := HandleDayClick(p, CellFor(c, d, DateMap(sessions).value));
              && (r != p ==> exists i :: 0 <= i < |sessions| && sessions[i].id == r.selected
                                         && SessionDay(sessions[i]) == Some(DateKey(c.year, c.month, d)))
              && ((forall i :: 0 <= i < |sessions| ==> SessionDay(sessions[i]) != Some(DateKey(c.year, c.month, d)))
                    ==> r == p)
  {
    if DateMap(sessions).Some? {
      var key := DateKey(c.year, c.month, d);
      DateMapKeys(sessions, key);
      var dates := DateMap(sessions).value;
      if key in dates {
        var last := LastOn(sessions, key);
        DateMapLastWins(sessions, last);
      }
    }
  }

  /** A click on a day selects the last listed session starting on it, and
      closes the picker. */
  lemma DayClickSelectsLastSession(sessions: seq<Session>, c: Month, d: int, p: Picker, i: int)
    requires 0 <= i < |sessions| && SessionDay(sessions[i]) == Some(DateKey(c.year, c.month, d))
    requires forall j :: i < j < |sessions| ==> SessionDay(sessions[j]) != SessionDay(sessions[i])
    ensures DateMap(sessions).Some? ==>
              HandleDayClick(p, CellFor(c, d, DateMap(sessions).value)) == Picker(sessions[i].id, false)
  {
    DateMapLastWins(sessions, i);
  }

  /** The index of the last session starting on `day`. */
  lemma LastOn(sessions: seq<Session>, day: Day) returns (i: int)
    requires exists i :: 0 <= i < |sessions| && SessionDay(sessions[i]) == Some(day)
    ensures 0 <= i < |sessions| && SessionDay(sessions[i]) == Some(day)
    ensures forall j :: i < j < |sessions| ==> SessionDay(sessions[j]) != Some(day)
  {
    i := |sessions| - 1;
    while SessionDay(sessions[i]) != Some(day)
      invariant 0 <= i < |sessions|
      invariant forall j :: i < j < |sessions| ==> SessionDay(sessions[j]) != Some(day)
      invariant exists k :: 0 <= k <= i && SessionDay(sessions[k]) == Some(day)
      decreases i
    {
      i := i - 1;
    }
  }
}

=== FILE: sessions.dfy ===
/** The sessions of a schedule as the schedule components read them. */
module Sessions {
  import opened Common

  /** `getMonth()`: January is 0. */
  type MonthIndex = m: int | 0 <= m < 12

  /** A local calendar day, as `getFullYear()`, `getMonth()` and `getDate()`
      report it. */
  datatype Day = Day(year: int, month: MonthIndex, date: int)

  /** A session's `startDate`: the instant in milliseconds since the epoch,
      and the local calendar day that instant falls on. */
  datatype Start = Start(ms: int, day: Day)

  /** A session: its `_id`; whether its `startDate` is truthy
      (`startGiven`); what `new Date(startDate)` makes of it (`start`, `None`
      for an invalid date; a `null` or `0` one is the epoch, at 0 ms, so a
      falsy `startDate` may still have a start); and its `capacity` (0 when
      absent). */
  datatype Session = Session(id: string, startGiven: bool, start: Option<Start>, capacity: int)

  /** `sessions.find(s => s._id === id)`: the first session with that id. */
  function Find(sessions: seq<Session>, id: string): (r: Option<Session>)
    ensures r.None? <==> forall i :: 0 <= i < |sessions| ==> sessions[i].id != id
    ensures r.Some? ==> r.value.id == id
    ensures r.Some? ==> exists i :: 0 <= i < |sessions| && sessions[i] == r.value
                                    && forall j :: 0 <= j < i ==> sessions[j].id != id
    decreases |sessions|
  {
    if sessions == [] then None
    else if sessions[0].id == id then Some(sessions[0])
    else
      Find(sessions[1..], id)
  }
}

=== FILE: status_indicator.dfy ===
/** The registration status badge (`StatusIndicator`). */
module StatusIndicator {
  import opened Common
  import Registration

  /** The badge shown: none, rejected (with a "View Reason" button or not),
      confirmed, or pending. */
  datatype Badge = NoBadge | RejectedBadge(viewReason: bool) | ConfirmedBadge | PendingBadge

  /** `isRegistered.status || "pending"` */
  function EffectiveStatus(r: Registration.StatusRecord): (status: string)
    ensures status != ""
    ensures r.status != "" ==> status == r.status
  {
    if r.status == "" then "pending" else r.status
  }

  /** The badge for a registration record and the card's `isApproved` flag:
      nothing without a record, then rejected, then confirmed, else pending. */
  function SelectBadge(reg: Option<Registration.StatusRecord>, isApproved: bool): (b: Badge)
    ensures b == NoBadge <==> reg.None?
    ensures b.RejectedBadge? <==> reg.Some? && reg.value.status == "rejected"
    ensures b.RejectedBadge? ==> (b.viewReason <==> reg.value.rejectionReason != "")
    ensures b == ConfirmedBadge <==>
              reg.Some? && reg.value.status != "rejected" && (reg.value.status == "approved" || isApproved)
    ensures b == PendingBadge <==>
              reg.Some? && reg.value.status != "rejected" && reg.value.status != "approved" && !isApproved
  {
    match reg
    case None => NoBadge
    case Some(r) =>
      var status := EffectiveStatus(r);
      if status == "rejected" then RejectedBadge(r.rejectionReason != "")
      else if status == "approved" || isApproved then ConfirmedBadge
      else PendingBadge
  }

  /** Rejection dominates: a rejected record shows the rejected badge even
      when the approval flag is set, and a record with no status shows pending. */
  lemma RejectedDominatesAndMissingIsPending(r: Registration.StatusRecord)
    ensures r.status == "rejected" ==> SelectBadge(Some(r), true) == RejectedBadge(r.rejectionReason != "")
    ensures r.status == "" ==> SelectBadge(Some(r), false) == PendingBadge
  {
  }
}

=== FILE: uri.dfy ===
/** The URL handling the password-reset pages rely on: `encodeURIComponent`,
    percent-decoding as `decodeURIComponent` does it, and reading one
    parameter of a query string as `URLSearchParams.get` does. */
module Uri {
  import opened Common

  /* ---------------------------------------------------------------------
     Encoding
     --------------------------------------------------------------------- */

  /** The characters `encodeURIComponent` leaves as they are. */
  predicate Unreserved(c: char) {
    || ('A' <= c <= 'Z') || ('a' <= c <= 'z') || ('0' <= c <= '9')
    || c == '-' || c == '_' || c == '.' || c == '!' || c == '~'
    || c == '*' || c == '\'' || c == '(' || c == ')'
  }

  /** An upper-case hexadecimal digit. */
  function HexDigit(v: int): (c: char)
    requires 0 <= v < 16
    ensures Unreserved(c)
  {
    if v < 10 then ('0' as int + v) as char else ('A' as int + v - 10) as char
  }

  /** The value of a hexadecimal digit of either case. */
  function HexValue(c: char): (r: Option<int>)
    ensures r.Some? ==> 0 <= r.value < 16
  {
    if '0' <= c <= '9' then Some(c as int - '0' as int)
    else if 'A' <= c <= 'F' then Some(c as int - 'A' as int + 10)
    else if 'a' <= c <= 'f' then Some(c as int - 'a' as int + 10)
    else None
  }

  /** The UTF-8 bytes of a character. */
  function Utf8(c: char): (bs: seq<int>)
    ensures 1 <= |bs| <= 4
    ensures forall i :: 0 <= i < |bs| ==> 0 <= bs[i] < 256
    ensures |bs| == 1 <==> c as int < 0x80
  {
    var n := c as int;
    var q1 := n / 64;
    var r0 := n % 64;
    var q2 := q1 / 64;
    var r1 := q1 % 64;
    var q3 := q2 / 64;
    var r2 := q2 % 64;
    if n < 0x80 then [n]
    else if n < 0x800 then [0xC0 + q1, 0x80 + r0]
    else if n < 0x10000 then [0xE0 + q2, 0x80 + r1, 0x80 + r0]
    else [0xF0 + q3, 0x80 + r2, 0x80 + r1, 0x80 + r0]
  }

  /** `%XX` for each byte. */
  function Escapes(bs: seq<int>): (r: string)
    requires forall i :: 0 <= i < |bs| ==> 0 <= bs[i] < 256
    ensures |r| == 3 * |bs|
    ensures forall i :: 0 <= i < |r| ==> Unreserved(r[i]) || r[i] == '%'
  {
    if bs == [] then []
    else ['%', HexDigit(bs[0] / 16), HexDigit(bs[0] % 16)] + Escapes(bs[1..])
  }

  function EncodeChar(c: char): (r: string)
    ensures forall i :: 0 <= i < |r| ==> Unreserved(r[i]) || r[i] == '%'
  {
    if Unreserved(c) then [c] else Escapes(Utf8(c))
  }

  /** `encodeURIComponent(s)`: the output holds only unreserved characters
      and `%`, so it never contains `&`, `=`, `#`, `+` or a space, and text
      made of unreserved characters is left alone. */
  function EncodeURIComponent(s: string): (r: string)
    ensures forall i :: 0 <= i < |r| ==> Unreserved(r[i]) || r[i] == '%'
    ensures (forall i :: 0 <= i < |s| ==> Unreserved(s[i])) ==> r == s
    ensures |s| <= |r|
  {
    if s == [] then []
    else EncodeChar(s[0]) + EncodeURIComponent(s[1..])
  }

  /* ---------------------------------------------------------------------
     Decoding
     --------------------------------------------------------------------- */

  /** The number of bytes a UTF-8 sequence with this first byte has; 0 for a
      byte no sequence starts with. */
  function LeadLength(b: int): (k: nat)
    ensures k <= 4
  {
    if 0 <= b < 0x80 then 1
    else if 0xC2 <= b < 0xE0 then 2
    else if 0xE0 <= b < 0xF0 then 3
    else if 0xF0 <= b < 0xF5 then 4
    else 0
  }

  predicate Continuation(b: int) {
    0x80 <= b < 0xC0
  }

  /** The smallest code point that needs `k` bytes: shorter forms are rejected. */
  function Least(k: nat): int {
    if k == 2 then 0x80 else if k == 3 then 0x800 else if k == 4 then 0x10000 else 0
  }

  /** The character a complete UTF-8 sequence encodes; `None` for a
      malformed, overlong or surrogate sequence. */
  function Utf8Char(bs: seq<int>): (r: Option<char>)
  {
    if |bs| == 0 || LeadLength(bs[0]) != |bs| then None
    else if exists i :: 1 <= i < |bs| && !Continuation(bs[i]) then None
    else
      var cp :=
        if |bs| == 1 then bs[0]
        else if |bs| == 2 then (bs[0] - 0xC0) * 64 + (bs[1] - 0x80)
        else if |bs| == 3 then ((bs[0] - 0xE0) * 64 + (bs[1] - 0x80)) * 64 + (bs[2] - 0x80)
        else (((bs[0] - 0xF0) * 64 + (bs[1] - 0x80)) * 64 + (bs[2] - 0x80)) * 64 + (bs[3] - 0x80);
      if Least(|bs|) <= cp < 0xD800 || 0xE000 <= cp < 0x110000 then Some(cp as char) else None
  }

  /** Every character's bytes decode back to it. */
  lemma Utf8RoundTrip(c: char)
    ensures LeadLength(Utf8(c)[0]) == |Utf8(c)|
    ensures Utf8Char(Utf8(c)) == Some(c)
  {
    var bs := Utf8(c);
    assert forall i :: 1 <= i < |bs| ==> Continuation(bs[i]);
  }

  /** The byte of the escape `s` starts with, if it starts with one. */
  function EscapeAt(s: string): (r: Option<int>)
    ensures r.Some? ==> |s| >= 3 && s[0] == '%' && 0 <= r.value < 256
  {
    if |s| >= 3 && s[0] == '%' && HexValue(s[1]).Some? && HexValue(s[2]).Some? then
      Some(HexValue(s[1]).value * 16 + HexValue(s[2]).value)
    else None
  }

  /** The bytes of the `k` escapes `s` starts with. */
  function EscapesAt(s: string, k: nat): (r: Option<seq<int>>)
    ensures r.Some? ==> |r.value| == k && |s| >= 3 * k
    decreases k
  {
    if k == 0 then Some([])
    else match EscapeAt(s)
      case None => None
      case Some(b) =>
        match EscapesAt(s[3..], k - 1)
        case None => None
        case Some(bs) => Some([b] + bs)
  }

  lemma {:induction false} EscapesAtEscapes(bs: seq<int>, rest: string)
    requires forall i :: 0 <= i < |bs| ==> 0 <= bs[i] < 256
    ensures EscapesAt(Escapes(bs) + rest, |bs|) == Some(bs)
    decreases |bs|
  {
    if bs != [] {
      var s := Escapes(bs) + rest;
      var b := bs[0];
      assert HexValue(HexDigit(b / 16)) == Some(b / 16);
      assert HexValue(HexDigit(b % 16)) == Some(b % 16);
      assert EscapeAt(s) == Some(b);
      assert s[3..] == Escapes(bs[1..]) + rest;
      EscapesAtEscapes(bs[1..], rest);
      assert [b] + bs[1..] == bs;
    }
  }

  function Prepend(c: char, o: Option<string>): (r: Option<string>)
    ensures r.Some? <==> o.Some?
    ensures r.Some? ==> r.value == [c] + o.value
  {
    match o
    case Some(t) => Some([c] + t)
    case None => None
  }

  /** `decodeURIComponent(s)`: every escape sequence replaced by the
      character its UTF-8 bytes encode; `None` where the function throws a
      `URIError` (a `%` not followed by two hexadecimal digits, or bytes that
      are not UTF-8). */
  function DecodeURIComponent(s: string): (r: Option<string>)
    decreases |s|
  {
    if s == [] then Some([])
    else if s[0] != '%' then Prepend(s[0], DecodeURIComponent(s[1..]))
    else match EscapeAt(s)
      case None => None
      case Some(b0) =>
        var k := LeadLength(b0);
        if k == 0 || |s| < 3 * k then None
        else match EscapesAt(s, k)
          case None => None
          case Some(bs) =>
            match Utf8Char(bs)
            case None => None
            case Some(c) => Prepend(c, DecodeURIComponent(s[3 * k..]))
  }

  lemma EncodeCharDecodes(c: char, rest: string)
    ensures DecodeURIComponent(EncodeChar(c) + rest) == Prepend(c, DecodeURIComponent(rest))
  {
    if Unreserved(c) {
      assert (EncodeChar(c) + rest)[1..] == rest;
    } else {
      EscapedCharDecodes(c, rest);
    }
  }

  /** A character that is escaped decodes from its escapes. */
  lemma EscapedCharDecodes(c: char, rest: string)
    requires !Unreserved(c)
    ensures DecodeURIComponent(EncodeChar(c) + rest) == Prepend(c, DecodeURIComponent(rest))
  {
    var s := EncodeChar(c) + rest;
    var bs := Utf8(c);
    Utf8RoundTrip(c);
    EscapesAtEscapes(bs, rest);
    FirstEscape(s, |bs|);
    assert s[3 * |bs|..] == rest;
  }

  /** Bytes read from escapes start with the byte of the first escape. */
  lemma FirstEscape(s: string, k: nat)
    requires k >= 1 && EscapesAt(s, k).Some?
    ensures EscapeAt(s) == Some(EscapesAt(s, k).value[0])
  {
  }

  /** Decoding undoes encoding, for every string. */
  lemma {:induction false} DecodeEncode(s: string)
    ensures DecodeURIComponent(EncodeURIComponent(s)) == Some(s)
    decreases |s|
  {
    if s != [] {
      EncodeCharDecodes(s[0], EncodeURIComponent(s[1..]));
      DecodeEncode(s[1..]);
      assert [s[0]] + s[1..] == s;
    }
  }

  /** Text without `%` decodes to itself. */
  lemma {:induction false} DecodeWithoutPercent(s: string)
    requires forall i :: 0 <= i < |s| ==> s[i] != '%'
    ensures DecodeURIComponent(s) == Some(s)
    decreases |s|
  {
    if s != [] {
      DecodeWithoutPercent(s[1..]);
      assert [s[0]] + s[1..] == s;
    }
  }

  /* ---------------------------------------------------------------------
     Query strings
     --------------------------------------------------------------------- */

  /** The form encoding reads `+` as a space. */
  function PlusAsSpace(s: string): (r: string)
    ensures |r| == |s|
    ensures forall i :: 0 <= i < |s| ==> r[i] == (if s[i] == '+' then ' ' else s[i])
  {
    if s == [] then [] else [if s[0] == '+' then ' ' else s[0]] + PlusAsSpace(s[1..])
  }

  /** One name or value of a query string, decoded. */
  function FormDecode(s: string): Option<string> {
    DecodeURIComponent(PlusAsSpace(s))
  }

  /** `location.search` without its `?`: what lies between the first `?`
      and the fragment. */
  function QueryOf(url: string): (q: string)
    ensures var u := url[..IndexOf(url, '#')];
            IndexOf(u, '?') < |u| ==> q == u[IndexOf(u, '?') + 1..]
  {
    var u := url[..IndexOf(url, '#')];
    var k := IndexOf(u, '?');
    if k < |u| then u[k + 1..] else ""
  }

  /** `new URLSearchParams(q).get(name)`: the value of the first `&`-separated
      pair whose name decodes to `name`, decoded; a pair without `=` has the
      empty value. */
  function Param(q: string, name: string): (r: Option<string>)
    decreases |q|
  {
    var k := IndexOf(q, '&');
    var pair := q[..k];
    var eq := IndexOf(pair, '=');
    if FormDecode(pair[..eq]) == Some(name) then
      FormDecode(if eq < |pair| then pair[eq + 1..] else "")
    else if k < |q| then Param(q[k + 1..], name)
    else None
  }

  /** Encoded text contains no `+`, so the form decoding reads it back. */
  lemma {:induction false} FormDecodeEncode(s: string)
    ensures FormDecode(EncodeURIComponent(s)) == Some(s)
  {
    var e := EncodeURIComponent(s);
    assert PlusAsSpace(e) == e;
    DecodeEncode(s);
  }

  /** `IndexOf` is determined by its contract. */
  lemma IndexOfIs(s: string, c: char, k: nat)
    requires k <= |s|
    requires forall i :: 0 <= i < k ==> s[i] != c
    requires k < |s| ==> s[k] == c
    ensures IndexOf(s, c) == k
  {
  }

  /** The query of `path?q` is `q` when the path has no `?` or `#` and
      `q` has no `#`. */
  lemma {:induction false} QueryOfJoined(path: string, q: string)
    requires forall i :: 0 <= i < |path| ==> path[i] != '?' && path[i] != '#'
    requires forall i :: 0 <= i < |q| ==> q[i] != '#'
    ensures QueryOf(path + "?" + q) == q
  {
    var url := path + "?" + q;
    forall i | 0 <= i < |url| ensures url[i] != '#' {
      if i > |path| { assert url[i] == q[i - |path| - 1]; }
    }
    IndexOfIs(url, '#', |url|);
    assert url[..|url|] == url;
    IndexOfIs(url, '?', |path|);
    assert url[|path| + 1..] == q;
  }

  /** A query of one pair `name=v`, with a `name` of unreserved characters
      and a `v` without `&`, gives `v` decoded for `name`. */
  lemma {:induction false} ParamSinglePair(name: string, v: string)
    requires forall i :: 0 <= i < |name| ==> Unreserved(name[i])
    requires forall i :: 0 <= i < |v| ==> v[i] != '&'
    ensures Param(name + "=" + v, name) == FormDecode(v)
  {
    var q := name + "=" + v;
    forall i | 0 <= i < |q| ensures q[i] != '&' {
      if i > |name| { assert q[i] == v[i - |name| - 1]; }
    }
    IndexOfIs(q, '&', |q|);
    assert q[..|q|] == q;
    IndexOfIs(q, '=', |name|);
    assert q[..|name|] == name;
    assert q[|name| + 1..] == v;
    FormDecodeUnreserved(name);
  }

  /** Unreserved text reads back as itself. */
  lemma FormDecodeUnreserved(name: string)
    requires forall i :: 0 <= i < |name| ==> Unreserved(name[i])
    ensures FormDecode(name) == Some(name)
  {
    assert PlusAsSpace(name) == name;
    DecodeWithoutPercent(name);
  }

  /** A pair of an unreserved name and encoded text has no `#` and no `&`. */
  lemma PairIsPlain(name: string, e: string)
    requires forall i :: 0 <= i < |name| ==> Unreserved(name[i])
    requires forall i :: 0 <= i < |e| ==> Unreserved(e[i]) || e[i] == '%'
    ensures forall i :: 0 <= i < |name + "=" + e| ==> (name + "=" + e)[i] != '#' && (name + "=" + e)[i] != '&'
  {
    var q := name + "=" + e;
    forall i | 0 <= i < |q| ensures q[i] != '#' && q[i] != '&' {
      if i < |name| { assert q[i] == name[i]; }
      else if i > |name| { assert q[i] == e[i - |name| - 1]; }
    }
  }

  /** `` `${path}?${name}=${encodeURIComponent(value)}` `` */
  function WithParam(path: string, name: string, value: string): string {
    path + "?" + name + "=" + EncodeURIComponent(value)
  }

  /** A parameter written into an address is read back as exactly the value
      written, whatever characters it holds. */
  lemma {:induction false} ParameterRoundTrip(path: string, name: string, value: string)
    requires forall i :: 0 <= i < |path| ==> path[i] != '?' && path[i] != '#'
    requires forall i :: 0 <= i < |name| ==> Unreserved(name[i])
    ensures Param(QueryOf(WithParam(path, name, value)), name) == Some(value)
  {
    var e := EncodeURIComponent(value);
    var q := name + "=" + e;
    assert WithParam(path, name, value) == path + "?" + q;
    PairIsPlain(name, e);
    QueryOfJoined(path, q);
    ParamSinglePair(name, e);
    FormDecodeEncode(value);
  }
}
